=== FILE: README.md ===
# Toll-gate incident dashboard: a Dafny model of its core

The dashboard records incidents at toll gates (gardu) in a Google Sheets tab.
It lists them, adds and edits them, and counts them in a recapitulation
dialog. It compiles a PDF report for each incident and stores photos locally
or on Google Drive. This project models the logic behind those features as
pure Dafny functions over strings, sequences and maps, and proves what the
program promises about them.

| file | module | models |
|---|---|---|
| `strings.dfy` | `Strings` | string helpers: ASCII case mapping, `startsWith`, `includes`, `indexOf`, `split`/`join`, decimal printing |
| `sheet_store.dfy` | `SheetStore` | the sheet as a table (`src/lib/google-sheets.ts`): the 30 column headers, listing, append, update, delete, header initialisation, the configuration check, and tab resolution with its cache |
| `dropdowns.dfy` | `Dropdowns` | building the option map from the reference tab (`fetchDropdownOptions`), and the form's seven-step option lookup (`findOptions`) |
| `recap.dfy` | `Recap` | the recapitulation dialog: status, fault and shift counts, grouped counts, completion rate, month and year filters, the monthly breakdown, the year list, the CSV export |
| `report.dfy` | `Report` | the PDF route: photo reference classification, Drive file ids, the download that throws for Drive and web photos, `safe_get`, the eight sections, the photo layout, the file name and reply |
| `upload.dfy` | `Upload` | the upload route: the data-URL prefix strip, the file name, the compression fallback, local-first storage with optional Drive |
| `sheets_route.dfy` | `SheetsRoute` | `GET`/`POST /api/sheets` against a modelled spreadsheet service, and the built-in sample records and options as test vectors |
| `dashboard.dfy` | `Dashboard` | the page: status tiles and percentage, photo pre-upload, and the add and edit flows with the demo guard |

Modelling choices:

- A sheet is `seq<seq<string>>` and row 0 holds the headers. A record is a
  field map, and an absent field reads as `""`.
- The option map keeps its keys in insertion order, as JavaScript's
  `Object.keys` reports them, next to a Dafny `map`.
- Every call to Google, the file system, the clock or the random generator
  becomes a parameter or a field of an environment value.
  - The spreadsheet service (`SheetsRoute.Service`) holds the grid, the
    reference tab, the tab list, the name cache and the set of calls that
    throw.
  - An upload is a function from payload to `Option<url>`.
  - A sheet write is a function from record to success.
- Dates reach the recap already parsed, as `Unparsed` or `On(year, month)`.
- The spreadsheet's tabs are `SheetStore.Tab` values, with properties and a grid. A delete acts on the tab its own lookup chooses, which need not be the listed tab.
- Where the code and its documentation differ, the model follows the code.
  - The three shift tests are independent substring tests, not an exclusive
    classification.
  - The upload route's own configuration test does not check the e-mail
    length.

## Model

| member | source | states |
|---|---|---|
| SheetStore.HeadersDistinct | src/lib/google-sheets.ts:28-59 | There are exactly 30 headers, matching the A..AD width, and no two are equal. |
| SheetStore.HeaderRowNotBlank | src/lib/google-sheets.ts:28-59 | The header row does not read as a blank first row, so initialisation leaves a written header alone. |
| SheetStore.RowFields | src/lib/google-sheets.ts:151-157 | A listed row has exactly the 30 headers as keys. Header i holds cell i, or "" when the row is short. |
| SheetStore.ListRecords | src/lib/google-sheets.ts:140-157 | One record per data row. Data row k gets id k+1, and its fields are the cells of grid row k+1. |
| SheetStore.SerializeRow | src/lib/google-sheets.ts:215 | A submission is written as exactly 30 cells in header order. |
| SheetStore.AppendedRow | src/lib/google-sheets.ts:215-218 | Cell 0 is the server time whatever the client sent. Every other cell is the submitted field, or "" when absent. |
| SheetStore.Append | src/lib/google-sheets.ts:210-230 | One row is added after the existing rows, which are unchanged. |
| SheetStore.Update | src/lib/google-sheets.ts:240-254 | Succeeds exactly when `rowIndex + 1` is a grid row (0-based data index). Only that row changes, and it becomes the serialised submission. |
| SheetStore.DeleteGridRow | src/lib/google-sheets.ts:301-322 | Succeeds exactly for a grid row `rowId` (1-based record id). That row is removed and the others keep their order. |
| SheetStore.InitializeSheet | src/lib/google-sheets.ts:332-361 | Afterwards the first row is never blank. A non-blank first row is left as it is, and rows below the first never change. |
| SheetStore.FindInput | src/lib/google-sheets.ts:117-120 | Gives the first tab whose lower-cased title is "input_kejadian" or contains "input", or none when no tab does. |
| SheetStore.FindExact | src/lib/google-sheets.ts:282-284 | Gives the first tab titled exactly "Input_Kejadian", or none. |
| SheetStore.InputSheetInfo | src/lib/google-sheets.ts:101-126 | A filled cache answers without a lookup. A success always leaves the answer cached, and a failure leaves the cache as it was. |
| SheetStore.DeleteSheetId | src/lib/google-sheets.ts:282-299 | With a tab titled exactly "Input_Kejadian", the result is the first such tab's id. Otherwise it is the id of the first input-like tab. With neither, or when the chosen tab has no id, the result is an error. |
| SheetStore.DeleteTab | src/lib/google-sheets.ts:282-291 | Delete picks an input-like tab, and picks none exactly when no tab looks like the input tab. |
| SheetStore.IdOf | src/lib/google-sheets.ts:295-299 | A chosen tab without a sheet id is an error; otherwise the result is its id. |
| SheetStore.DeleteRecord | src/lib/google-sheets.ts:264-322 | A delete needs the tab lookup to succeed. It then removes grid row `rowId` from the tab delete chose, and only from that tab; every other tab is unchanged. |
| SheetStore.ListThenSerialize | src/lib/google-sheets.ts:151-157 | Serialising a listed record gives back the first 30 cells of its row, padded with "". |
| SheetStore.RowRoundTrip | src/lib/google-sheets.ts:151-157 | A 30-cell row survives listing followed by serialisation unchanged. |
| SheetStore.SubmissionRoundTrip | src/lib/google-sheets.ts:215 | Serialising a submission and listing it back gives every header with the submitted value or "". |
| SheetStore.ListAfterAppend | src/lib/google-sheets.ts:210-230 | After an append, earlier records are unchanged. The new last record has id n+1, the server time and the submitted fields. |
| SheetStore.ListAfterUpdate | src/lib/google-sheets.ts:240-254 | Updating `rowIndex` changes only the record with id `rowIndex + 1`, which now holds the submission. Every other record is unchanged. |
| SheetStore.UpdateMinusOneHitsHeader | src/lib/google-sheets.ts:249 | `rowIndex = -1` is not rejected: it overwrites the header row and leaves the listing unchanged. |
| SheetStore.ListAfterDelete | src/lib/google-sheets.ts:301-322 | Deleting grid row `rowId` of a tab removes that record from the tab's listing. Earlier records keep their ids, and every later record moves up with its id lowered by one. |
| SheetStore.DeleteZeroHitsHeader | src/lib/google-sheets.ts:301-302 | `rowId = 0` is not rejected: it removes the header row, so the first data row becomes the header. |
| SheetStore.InitializeKeepsRecords | src/lib/google-sheets.ts:332-361 | Writing the header never changes the listing. A blank first row is replaced by the 30 headers. |
| SheetStore.InitializeIdempotent | src/lib/google-sheets.ts:332-361 | Initialising twice gives the same grid as initialising once. |
| SheetStore.CacheNeverRecomputed | src/lib/google-sheets.ts:101-104 | After one success, every later call answers the same tab from the cache, whatever the tab list now says. |
| SheetStore.FallbackIsCached | src/lib/google-sheets.ts:122-123 | With no input-like tab, the answer is "Input_Kejadian" with gid 0, and that fallback is cached too. |
| SheetStore.ResolverAndDeleteDisagree | src/lib/google-sheets.ts:282-291 | Given tabs "Input_Lama" then "Input_Kejadian", the cached resolver picks the first one and delete's own lookup picks the second. |
| SheetStore.DeletePrefersExactTitle | src/lib/google-sheets.ts:282-291 | The first tab titled exactly "Input_Kejadian" is chosen, even after an earlier input-like tab. |
| SheetStore.DeleteFallsBackToInput | src/lib/google-sheets.ts:287-291 | With no exactly titled tab, delete chooses the first input-like tab. |
| SheetStore.DeleteAgreesWithResolver | src/lib/google-sheets.ts:117-120 | Delete and the cached resolver pick the same tab exactly when no input-like tab comes before the first exactly titled one. |
| SheetStore.DeleteFromListedTab | src/lib/google-sheets.ts:264-322 | When the two lookups agree, the listed tab loses grid row `rowId` and no other tab changes, so `ListAfterDelete` describes the listing. |
| SheetStore.DeleteSkipsListedTab | src/lib/google-sheets.ts:282-322 | With "Input_Lama" before "Input_Kejadian", a delete removes a row of "Input_Kejadian" and leaves the listed "Input_Lama" tab unchanged. |
| Dropdowns.StripSectionPrefix | src/app/page.tsx:506 | The result differs from the input exactly when the input starts with a letter A-D (either case) and a dot. It is never longer. |
| Dropdowns.StripNoSpace | src/app/page.tsx:506 | A section prefix with no space after the dot loses only its two characters. |
| Dropdowns.StripOneSpace | src/app/page.tsx:506 | A section prefix followed by one space loses three characters. |
| Dropdowns.Column | src/lib/google-sheets.ts:182-184 | A header's list holds only non-empty cells and is no longer than the body. |
| Dropdowns.AddHeader | src/lib/google-sheets.ts:180-196 | After one header, its own key holds its column, and both alias keys exist. |
| Dropdowns.AddHeaderEffect | src/lib/google-sheets.ts:186-196 | No key disappears, and another present key keeps its list. A new key is the header or one of its aliases and holds the header's column. |
| Dropdowns.AddHeaderValid | src/lib/google-sheets.ts:180-196 | Adding a header keeps the map free of duplicate keys, with keys and table in step. |
| Dropdowns.BuildValid | src/lib/google-sheets.ts:177-199 | The map built from any prefix of the header cells is well formed. |
| Dropdowns.BuildOptions | src/lib/google-sheets.ts:174-199 | An empty sheet gives the empty map. |
| Dropdowns.BuildOptionsValid | src/lib/google-sheets.ts:174-199 | The built map never holds a key twice. |
| Dropdowns.LastColumnWins | src/lib/google-sheets.ts:179-185 | For a duplicated header, the last column with that name is stored; aliases never overwrite it. |
| Dropdowns.HeaderKeysPresent | src/lib/google-sheets.ts:179-196 | Every non-empty header has its own key and both alias keys, and a key once present stays. |
| Dropdowns.ValuesAreColumns | src/lib/google-sheets.ts:177-199 | Every list in the map is the column of some non-empty header cell. |
| Dropdowns.HeaderColumnStored | src/lib/google-sheets.ts:177-199 | In terms of the sheet: a header's key holds its column's non-empty cells in row order, and its upper-case and normalised aliases are keys. |
| Dropdowns.HeaderOnlyTable | src/lib/google-sheets.ts:177-185 | A sheet with only a header row still lists every non-empty header, each with an empty list. |
| Dropdowns.CanonicalTightDash | src/lib/google-sheets.ts:193 | "Jenis Gangguan-X" in any case becomes "Jenis Gangguan - X". |
| Dropdowns.FirstMatch | src/app/page.tsx:530-534 | Gives the first key the test accepts, and no earlier key is accepted. Gives none only when no key is accepted. |
| Dropdowns.FirstKeywordMatch | src/app/page.tsx:517-525 | The outer loop runs over keywords and the inner one over keys. It finds a key exactly when some keyword hits some key, and the key found is the first key hit by the first keyword that hits any key. |
| Dropdowns.FirstMatchIs | src/app/page.tsx:530-534 | The first key a test accepts is the one the key loop returns. |
| Dropdowns.FirstKeywordMatchIs | src/app/page.tsx:517-525 | The first key hit by the first hitting keyword is the one the nested loops return. |
| Dropdowns.FindOptions | src/app/page.tsx:494-563 | A non-empty list under the exact field key is returned first. Any result is [] or the list stored under some existing key. The step lemmas below give the answer of each later step. |
| Dropdowns.FieldOptions | src/app/page.tsx:566 | A field that is not a select gets []; a select gets the lookup's answer. |
| Dropdowns.NoStrategyGivesEmpty | src/app/page.tsx:494-563 | When none of the seven strategies applies, the result is []. |
| Dropdowns.AnsweredByUpper | src/app/page.tsx:501-503 | Step 2: when the exact key misses and the upper-case key holds a non-empty list, that list is the answer. |
| Dropdowns.AnsweredByStripped | src/app/page.tsx:505-507 | Step 3: when both earlier keys miss and the key without its section prefix holds a non-empty list, that list is the answer. |
| Dropdowns.AnsweredByFaultKeywords | src/app/page.tsx:509-526 | Once steps 1-3 miss, the first fault keyword that hits a key decides. The answer is the list of the first key it hits, even an empty list. |
| Dropdowns.AnsweredBySameLower | src/app/page.tsx:528-534 | Step 5: when steps 1-4 miss, the first key equal to the field ignoring case decides, whatever its list holds. |
| Dropdowns.AnsweredByOfficerKeywords | src/app/page.tsx:536-554 | Step 6: when steps 1-5 miss, the first officer keyword contained in a key decides. The answer is the first such key's list. |
| Dropdowns.AnsweredByPartial | src/app/page.tsx:556-561 | Step 7: when steps 1-6 miss, the first key that contains the field, or is contained in it, ignoring case, decides. |
| Dropdowns.KeywordStepReturnsEmptyList | src/app/page.tsx:517-561 | Steps 4-7 answer even with an empty list. With "Gangguan Palang" -> [] and "Palang" -> ["X"], the barrier fault field gets [] though step 7 would have matched "Palang". |
| Dropdowns.PalangSingleKeyMisses | src/app/page.tsx:499-507 | In that example, steps 1-3 all miss. |
| Dropdowns.PalangKeywordHit | src/app/page.tsx:510-523 | In that example, the third fault keyword "Gangguan Palang" is the first to hit a key, and it hits the key "Gangguan Palang". |
| Recap.StatusBucketsDisjoint | src/components/RecapitulationDialog.tsx:137-144 | No record is in two of selesai, proses and pending. |
| Recap.StatusPartition | src/components/RecapitulationDialog.tsx:136-144 | The three status counts plus the unrecognised statuses add up to the total. |
| Recap.StatusExamples | src/components/RecapitulationDialog.tsx:137-144 | "Batal" is in no bucket. An absent status is pending, and the tests ignore letter case. |
| Recap.FaultComplement | src/components/RecapitulationDialog.tsx:147-150 | A fault count plus the records whose field is empty or "-" equals the total. |
| Recap.ShiftTestsNest | src/components/RecapitulationDialog.tsx:153-164 | Whatever contains "iii (" also passes the II and I tests, and whatever contains "ii (" passes the I test. |
| Recap.ShiftThreeCountsThrice | src/components/RecapitulationDialog.tsx:153-164 | "III (Tiga)" is counted in all three shifts. |
| Recap.ShiftTwoCountsTwice | src/components/RecapitulationDialog.tsx:153-164 | "II (Dua)" is counted in shifts I and II, not III. |
| Recap.BareThreeCountsOnce | src/components/RecapitulationDialog.tsx:153-164 | A bare "iii" is counted in shift III only. |
| Recap.ShiftOneSpacedCountsOnce | src/components/RecapitulationDialog.tsx:153-164 | "I ( satu )" is counted in shift I only. |
| Recap.GroupKey | src/components/RecapitulationDialog.tsx:169 | A group key is never empty: an empty field is grouped as "Tidak Diketahui". |
| Recap.Bump | src/components/RecapitulationDialog.tsx:171 | One counter grows by one, or a new counter 1 is appended for an unseen key. Key order and the other counters are kept, and the sum grows by one. |
| Recap.GroupCounts | src/components/RecapitulationDialog.tsx:166-200 | The grouped counters never repeat a key. |
| Recap.GroupCountsExact | src/components/RecapitulationDialog.tsx:166-200 | Each counter is the number of records with that key and is at least 1. Neither "-" nor "" is a key, and the counters sum to the records whose field is not "-". |
| Recap.GroupAbsentCountZero | src/components/RecapitulationDialog.tsx:166-200 | A value without a counter occurs in no counted record. |
| Recap.CompletionRate | src/components/RecapitulationDialog.tsx:218 | 0 with no records, never above 100, and the nearest integer to selesai/total·100 with halves rounded up. |
| Recap.CompletionRateEnds | src/components/RecapitulationDialog.tsx:218 | 100 when every record is selesai, and 0 when none is. |
| Recap.CompletionRateMonotone | src/components/RecapitulationDialog.tsx:218 | More finished records never lower the rate. |
| Recap.MonthWithinYear | src/components/RecapitulationDialog.tsx:112-132 | The month view's records are among the year view's records. |
| Recap.MonthlyBreakdown | src/components/RecapitulationDialog.tsx:226-242 | Exactly 12 rows labelled January to December, and each month's selesai count is at most its total. |
| Recap.BreakdownSumsToYear | src/components/RecapitulationDialog.tsx:226-242 | With valid dates, the twelve month totals add up to the year's record count. |
| Recap.YearsOf | src/components/RecapitulationDialog.tsx:97-106 | Strictly descending, and it holds exactly the years some record is dated in. |
| Recap.Years | src/components/RecapitulationDialog.tsx:97-109 | Strictly descending, with no duplicates. It holds the current year and exactly the years some record is dated in. |
| Recap.CalculateStats | src/components/RecapitulationDialog.tsx:135-219 | Every count is at most the total, and the status counts sum to at most the total. The rate is in 0..100, 0 with no records and 100 when all are selesai. |
| Recap.CsvCells | src/components/RecapitulationDialog.tsx:256-270 | 13 cells: the 1-based position, then the 12 exported fields, with "" for absent ones. |
| Recap.Quote | src/components/RecapitulationDialog.tsx:274 | A cell is wrapped in double quotes and nothing inside is escaped. |
| Recap.CsvLines | src/components/RecapitulationDialog.tsx:272-275 | n records give n+1 lines: the unquoted header line, then one line per record in order. |
| Recap.ExportCsv | src/components/RecapitulationDialog.tsx:245-275 | There is no export exactly when there are no records. |
| Recap.CsvLineCount | src/components/RecapitulationDialog.tsx:245-275 | When no exported field holds a line break, the text splits back into exactly the n+1 lines. |
| Recap.DataLineCells | src/components/RecapitulationDialog.tsx:256-274 | Without commas or quotes in the fields, a data line splits into 13 quoted cells. Unquoted, the first reads back as index+1 and the rest are the field values. |
| Recap.CsvNotInjective | src/components/RecapitulationDialog.tsx:274 | Quotes are not doubled (section 2, rule 7 of RFC 4180 is not met), so two different records export the same line. |
| Report.DownloadUrl | src/app/api/generate-pdf/route.ts:86-87 | The URL the Drive branch builds is the Drive download prefix followed by the file id. |
| Report.ClassifyPhoto | src/app/api/generate-pdf/route.ts:45-162 | An empty or "-" reference is no photo. A reference is inline exactly when it starts with "data:image" and has a non-empty text after its first comma; that text, up to a second comma, is the payload. Otherwise a public path is local. A Drive file's id is the one extracted from the link. The remaining results are an http(s) URL, or unsupported. |
| Report.ResolvePhoto | src/app/api/generate-pdf/route.ts:45-162 | The download throws exactly for a Drive or web reference, since `fs.createWriteStream` does not exist on the `fs/promises` module imported at line 5 (called at lines 90 and 129). No photo or unsupported yields null. An inline photo is decoded when the file can be written, and a public path is used when it exists. |
| Report.Compile | src/app/api/generate-pdf/route.ts:185-673 | The report is aborted, with the TypeError's text, exactly when one of the two photo downloads throws. Otherwise it is the eight sections, with the photo block laid out from the files the downloads found. |
| Report.RouteReply | src/app/api/generate-pdf/route.ts:165-726 | A photo download that throws gives 500 with "Gagal membuat PDF: " and the TypeError's text. The reply is success exactly when both downloads return and the script creates the file. |
| Report.SafeGet | src/app/api/generate-pdf/route.ts:446-448 | The printed text is never empty and holds no written-out escape. A missing or empty field prints "-". Any other value prints as its one-pass reading: each backslash followed by n, r or t becomes one space and every other character is kept. A clean value prints unchanged. |
| Report.ReplacePairRemoves | src/app/api/generate-pdf/route.ts:448 | One replace pass leaves no backslash followed by that letter. |
| Report.ReplacePairKeeps | src/app/api/generate-pdf/route.ts:448 | A later replace pass never brings back an escape an earlier pass removed. |
| Report.ReplacePairFixes | src/app/api/generate-pdf/route.ts:448 | Text without that escape is left as it is. |
| Report.ScrubClean | src/app/api/generate-pdf/route.ts:448 | After the three passes, no \n, \r or \t escape is left. |
| Report.ScrubFixes | src/app/api/generate-pdf/route.ts:448 | Clean text passes through unchanged. |
| Report.SafeGetIdempotent | src/app/api/generate-pdf/route.ts:446-448 | Printing a printed value again changes nothing. |
| Report.SafeGetExample | src/app/api/generate-pdf/route.ts:446-448 | "a\nb" written out prints as "a b", and an empty or absent field prints "-". |
| Report.ReplacePairAppend | src/app/api/generate-pdf/route.ts:448 | One replace pass works piece by piece when no backslash-letter pair straddles the seam. |
| Report.ScrubIsUnescape | src/app/api/generate-pdf/route.ts:448 | The three replace passes in turn equal the one-pass reading. |
| Report.UnescapeAppend | src/app/api/generate-pdf/route.ts:448 | The one-pass reading works piece by piece when no escape straddles the seam. |
| Report.EscapeBecomesSpace | src/app/api/generate-pdf/route.ts:448 | Each written-out \n, \r or \t becomes exactly one space, and the text on either side is read on its own. |
| Report.SafeGetSpaces | src/app/api/generate-pdf/route.ts:446-448 | A field holding an escape prints as the text before it, one space, and the text after it. |
| Report.PhotoLayout | src/app/api/generate-pdf/route.ts:608-673 | Both photos give the two-column 7.5×5 cm table. Exactly one gives a single 10×6 cm image, and neither gives "Tidak ada foto dokumentasi". |
| Report.LayoutShowsEveryPhoto | src/app/api/generate-pdf/route.ts:608-673 | With readable files, the block shows exactly as many images as photos exist. |
| Report.NoPhotoTextIff | src/app/api/generate-pdf/route.ts:608-673 | The no-photo text appears exactly when neither photo exists. |
| Report.CompiledPhotoBlock | src/app/api/generate-pdf/route.ts:189-190 | When both downloads return, the report is built, and its photo block says "no photo" exactly when neither reference resolves to a file. |
| Report.AfterCleanup | src/app/api/generate-pdf/route.ts:697-701 | Once the script has run, a public file is removed exactly when it is one of the two photo paths, and nothing is added. A failed run removes nothing. Files are named by the reference as written; see "## Left out" for `path.join` aliasing. |
| Report.FilesAfterReport | src/app/api/generate-pdf/route.ts:189-190 | A download that throws leaves the public directory as it was, since the route ends before the clean-up at lines 697-701. |
| Report.ReportDeletesLocalPhoto | src/app/api/generate-pdf/route.ts:697-701 | When the other download returns, a report deletes a "/uploads/..." photo it used, so the next report of the same record finds no file behind that reference. |
| Report.ThrowKeepsLocalPhoto | src/app/api/generate-pdf/route.ts:189-190 | When the other photo is an http(s) link, the route throws before the clean-up, and the local photo stays. |
| Report.Document | src/app/api/generate-pdf/route.ts:444-605 | Exactly eight sections in order, and the last holds the photo block. |
| Report.ReportColumnsSpelled | src/app/api/generate-pdf/route.ts:450-589 | The columns sections 1-7 print, in document order. |
| Report.ReportColumnsExact | src/app/api/generate-pdf/route.ts:450-589 | Sections 1-7 print each stored column 1..27 exactly once. That is every column except the creation time and the two photos. |
| Report.RowsAgree | src/app/api/generate-pdf/route.ts:450-589 | Table rows depend on no field outside the columns they name. |
| Report.DocumentReadsOnlyReportColumns | src/app/api/generate-pdf/route.ts:444-605 | Records that agree on columns 1..27 give the same document. |
| Report.ValueCellsPrintable | src/app/api/generate-pdf/route.ts:446-589 | Every value cell of every table is non-empty and free of written-out escapes. |
| Report.Dashed | src/app/api/generate-pdf/route.ts:170 | The time stamp keeps its length. Each ':' and '.' becomes '-', and every other character is kept. |
| Report.GenerateResponse | src/app/api/generate-pdf/route.ts:708-726 | Success exactly when the file was created, with URL "/reports/" + name. Otherwise status 500 with a "Gagal membuat PDF: " message. |
| Report.StemSkip | src/app/api/generate-pdf/route.ts:79-80 | In a link on the Drive download stem, the first "id=" comes after the stem. |
| Report.DriveIdAt | src/app/api/generate-pdf/route.ts:79-80 | The id after the first "id=" is the rest of the link when that holds no "&" and no second "id=". |
| Report.DriveLinkClassified | src/app/api/generate-pdf/route.ts:76-87 | A Drive link with a non-empty id is classified as that Drive file. |
| Report.ViewUrlRoundTrip | src/app/api/generate-pdf/route.ts:76-87 | The view URL the upload route stores (upload route line 100) resolves back to the stored id. |
| Report.DownloadUrlRoundTrip | src/app/api/generate-pdf/route.ts:76-87 | The download URL built from an id is classified as the same Drive file. |
| Report.FileLinkClassified | src/app/api/generate-pdf/route.ts:76-82 | A sharing link "https://drive.google.com/file/d/<id>/view" names file <id>, read by the "/d/" branch, when the id holds no "/" and no "=". |
| Report.LocalBeforeDrive | src/app/api/generate-pdf/route.ts:65-73 | "/uploads/" and "/reports/" references are public paths, whatever else they contain. |
| Report.NoCommaUnsupported | src/app/api/generate-pdf/route.ts:51-62 | An inline image with no comma and no '.' has no payload and falls through to unsupported. Without a '.' it cannot hold the Drive host. |
| Report.EmptyPayloadUnsupported | src/app/api/generate-pdf/route.ts:51-62 | An inline image with no '.' and an empty payload after its only comma falls through to unsupported too. |
| Report.NoDriveIdIsWeb | src/app/api/generate-pdf/route.ts:76-128 | A web link with neither "id=" nor "/d/" goes to the generic http(s) branch, Drive links among them. |
| Report.WebReferenceThrows | src/app/api/generate-pdf/route.ts:76-129 | Every http(s) reference is classified as a Drive file or a web link, and its download throws. |
| Report.WebPhotoFailsReport | src/app/api/generate-pdf/route.ts:189-190 | A report whose photo field holds an http(s) link answers 500. |
| Report.CreatedMeansNoRemotePhoto | src/app/api/generate-pdf/route.ts:189-190 | A report is produced only when neither photo is a Drive or web reference. |
| Report.ReportUrlIsLocal | src/app/api/generate-pdf/route.ts:717 | The report's URL is itself a public-path photo reference. |
| Report.FileNameSingleDot | src/app/api/generate-pdf/route.ts:170-171 | The only dot of the file name is the one before "pdf". |
| Upload.StripDataUrlPrefix | src/app/api/upload/route.ts:38 | The result is the input unchanged, or the input is "data:image/" + a non-empty word-character type + ";base64," + the result. |
| Upload.StripDataUrlRoundTrip | src/app/api/upload/route.ts:38 | For a word-character type, stripping "data:image/<type>;base64," leaves exactly the payload. |
| Upload.SvgDataUrlKept | src/app/api/upload/route.ts:38 | A type such as "svg+xml" is not matched, and the input is left whole. |
| Upload.PhotoFileNameShape | src/app/api/upload/route.ts:41-43 | Names start with "photo_" and end with ".jpg". |
| Upload.PhotoFileNameTime | src/app/api/upload/route.ts:41-43 | The time stamp reads back as the text between the first two underscores. |
| Upload.HandleUpload | src/app/api/upload/route.ts:25-138 | No image gives 400 with no effects. A non-empty image is stored exactly when the local write succeeds, under the generated name. The local save comes first, and Drive is tried only when configured. The reply carries a Drive id exactly when Drive is configured and answers, with the Drive view URL; otherwise the URL is "/uploads/<name>". |
| Upload.CompressionFallback | src/app/api/upload/route.ts:47-52 | A failed compression stores the decoded original, and the upload still succeeds. |
| Upload.UploadedUrlResolves | src/app/api/upload/route.ts:100-123 | The reply's URL classifies as a public path or the same Drive file. A local file lasts only until the first report of its record (see Report.ReportDeletesLocalPhoto). |
| Upload.DriveUploadFailsReport | src/app/api/upload/route.ts:100-110 | A Drive URL stored by an upload makes any report holding it in a photo field answer 500, so only local uploads reach a report. |
| Upload.ConfiguredImpliesRouteConfigured | src/app/api/upload/route.ts:62-64 | Whenever the sheet helpers call the credentials usable, so does the upload route. |
| Upload.ShortEmailConfiguredForUploadOnly | src/app/api/upload/route.ts:62-64 | The converse fails: an e-mail of 10 characters or fewer passes only the upload route's test. |
| SheetsRoute.ResolveSheet | src/lib/google-sheets.ts:101-126 | Only the cache changes. A success caches the answer, and a failure means the tab listing threw. |
| SheetsRoute.Initialize | src/lib/google-sheets.ts:332-361 | Success leaves the initialised grid and failure the old one. Nothing but the grid and the cache changes. |
| SheetsRoute.InitializeOutcome | src/lib/google-sheets.ts:332-361 | Initialisation fails exactly when one of the calls it makes throws, and success caches the expected tab. |
| SheetsRoute.FetchRecords | src/lib/google-sheets.ts:140-162 | On success the records are the grid's listing, and the grid is unchanged. |
| SheetsRoute.HandleGet | src/app/api/sheets/route.ts:125-183 | Always success. Unconfigured gives the sample data with "Mode demo" and no call. A demo reply carries the requested sample and no gid, and the dropdowns path leaves the service unchanged. A configured dropdowns reply is sample data exactly when reading the reference tab throws, and otherwise carries the option map built from the reference tab. A configured records reply lists the initialised grid with a gid. |
| SheetsRoute.ReadRecords | src/app/api/sheets/route.ts:156-159 | The header is initialised before reading. The records are the listing of the initialised grid. |
| SheetsRoute.GetDemoIff | src/app/api/sheets/route.ts:131-182 | Sample data is served exactly when the credentials are missing or a call on the chosen path throws. When configured, the message is the fallback one. |
| SheetsRoute.GetReportsResolvedGid | src/app/api/sheets/route.ts:151-159 | When every call succeeds, the reply's gid is that of the cached or resolved tab, which is cached afterwards. |
| SheetsRoute.GetKeepsRecords | src/app/api/sheets/route.ts:125-183 | Whatever path a read takes, the listing is unchanged. |
| SheetsRoute.HandlePost | src/app/api/sheets/route.ts:185-205 | Unconfigured gives 400 with isDemo true and no write. Success is exactly status 200 and appends the body, and any failure leaves the grid unchanged. A configured failure gives 500 with the append error. |
| SheetsRoute.PostSucceedsIff | src/app/api/sheets/route.ts:194-204 | A configured write succeeds exactly when neither the tab lookup nor the append throws. |
| SheetsRoute.PostThenList | src/app/api/sheets/route.ts:195-197 | After a successful POST, the listing keeps every record and adds a last one with the next id and the server time. |
| SheetsRoute.ShortEmailRefused | src/lib/google-sheets.ts:12-14 | An e-mail of at most 10 characters is refused with 400, and nothing is written. |
| SheetsRoute.SampleData | src/app/api/sheets/route.ts:12-112 | The samples are shaped like a listing: three records with ids 1, 2, 3, each with every header. |
| SheetsRoute.SampleStats | src/app/api/sheets/route.ts:12-112 | The recap of the samples counts 3 records, one each of selesai, proses and pending. "Pagi"/"Malam" fall in no shift. |
| SheetsRoute.SampleSistimViaStrip | src/app/page.tsx:499-507 | With the sample options, "C. Jenis Gangguan - Sistim" misses steps 1-2 and resolves by the prefix strip to the "Jenis Gangguan - Sistim" list. |
| SheetsRoute.SampleKsptEmpty | src/app/page.tsx:494-563 | With the sample options, "PETUGAS KSPT" is offered []. |
| SheetsRoute.KsptEmptyWhen | src/app/page.tsx:494-563 | "PETUGAS KSPT" gets [] from any options whose keys are longer than the field name, do not start with "P", and each lack "K" or "P". |
| Dashboard.StatusTiles | src/app/page.tsx:297-302 | The tiles count every record. Selesai, proses, pending and the unrecognised rest add up to the total. |
| Dashboard.DisplayedPercent | src/app/page.tsx:988 | 0 with no records, at most 100, and 100 when every record is selesai. |
| Dashboard.TilesAgreeWithRecap | src/app/page.tsx:297-302 | The tiles and the shown percentage equal the recap's statistics over the same records. |
| Dashboard.PreparePhoto | src/app/page.tsx:354-366 | Only a value starting with "data:image" is uploaded and replaced by the URL. A failed upload ends the flow. |
| Dashboard.PreparePhotosSpec | src/app/page.tsx:350-366 | Preparation fails exactly when an inline photo's upload fails. Otherwise the keys and all non-photo fields are unchanged, and each photo field holds its URL or its old value. |
| Dashboard.PreparePhotosUploads | src/app/page.tsx:354-366 | The uploads are exactly the inline photos, "Foto Sebelum" first. A failed first upload skips the second. |
| Dashboard.PreparedFormIsStable | src/app/page.tsx:354-366 | When upload URLs are not inline data, preparing the prepared form uploads nothing and changes nothing. |
| Dashboard.HandleSubmit | src/app/page.tsx:338-412 | Demo mode does nothing. Otherwise the uploads come first, and a failed upload stops before any write. A report is generated only right after a successful write of the same record. |
| Dashboard.HandleEdit | src/app/page.tsx:415-440 | Without a selected record nothing happens. Otherwise the uploads come first, and a failed upload stops before the write. |
| Dashboard.WritesComeLast | src/app/page.tsx:350-440 | Each write follows all the uploads and carries the prepared form, and an edit writes the selected id. |
| Dashboard.DemoGuardsAddOnly | src/app/page.tsx:341-348 | In demo mode adding does nothing, while editing still uploads and writes. |
| Dashboard.SubmitPostsPrepared | src/app/page.tsx:368-384 | Outside demo mode, a prepared form is always posted after the uploads, and the report follows exactly when the write succeeds. |
| Dashboard.FailedUploadWritesNothing | src/app/page.tsx:354-366 | A failed upload ends adding and editing with only the uploads tried. |

## Left out

- Network and storage are not modelled: the Google Sheets and Drive calls, HTTP, the file system, `child_process` and the Python run. Each appears only as an outcome (success, failure, a reply, a file id). Of the report route's clean-up only the effect on the public directory is modelled (`Report.AfterCleanup`); the script and data temp files are not.
- Image handling is not modelled: base64 decoding, PIL compression with its floating-point resize ratio, and ReportLab rendering. In the upload route, image bytes are a `Bytes` sequence produced by the `decode` and `compress` functions supplied with `Upload.UploadEnv`; in the report route, a decoded photo is the value `Decoded(payload)`. The PDF is its eight-section description.
- Visual-only template details are not modelled: the report's header row, logo, styles, colours and footer.
- The temp photo file names are not modelled.
- The download-and-redirect code of the Drive and web branches (`src/app/api/generate-pdf/route.ts:91-119` and `130-158`) is not modelled. It is never reached, because `fs.createWriteStream` throws before it. The model promises nothing about following redirects.
- Report.WriteStreamError: the exact text of the TypeError depends on how the route is compiled (the name of the imported binding). The model uses the one text "fs.createWriteStream is not a function".
- The `/api/sheets/[id]` PUT/DELETE route is not part of this model: how it turns a record id into a row index is left open. `SheetStore` states the two index conventions of update and delete on their own.
- JavaScript `Date` parsing is not modelled. It reads "YYYY-MM-DD" as UTC and reports the local date, so it depends on the time zone. Records arrive with an already-parsed `(year, month)` or `Unparsed`.
- Unicode case mapping and JavaScript's full `\s` are not modelled; the model uses ASCII only.
- Sheets' `USER_ENTERED` reinterpretation of values is not modelled; the store keeps strings verbatim.
- Login, session state, toasts, dialogs, refetching after a write, `window.open` and concurrency between requests are UI plumbing and are left out.
- The sample records' time stamps (`toISOString()` of now, one hour ago and two hours ago) are parameters.
- The recap's grouped-count maps and the dropdown option map (`Dropdowns.Options`) keep their keys in insertion order. That is the order JavaScript objects report string keys. Integer-like keys, which JavaScript lists first, are not modelled, so for a reference header such as "1" the model's key order, and so the key `findOptions` matches first, can differ from the program's.
- Recap.GroupCountsExact: keys named after members of `Object.prototype` are not modelled. The program counts in plain objects (`src/components/RecapitulationDialog.tsx:171`, 180, 189, 198), so a value such as "constructor" reads the inherited function, and its counter becomes a string rather than 1; a "__proto__" value is never stored as a counter. `Recap.Bump` and `Recap.GroupAbsentCountZero` rest on the same assumption.
- Dropdowns.AddHeader: keys named after members of `Object.prototype` are not modelled. For a header "A.toString", the test `!options["toString"]` at `src/lib/google-sheets.ts:194` sees the inherited function, so the program adds no alias, while the model does. A "__proto__" header at line 182 sets the prototype and creates no key. `Dropdowns.HeaderKeysPresent` and `Dropdowns.HeaderColumnStored` rest on the same assumption.
- Report.AfterCleanup: public files are named by the reference string as written, not by the path `path.join` makes of it (`src/app/api/generate-pdf/route.ts:66`). `path.join` drops "." segments and repeated "/" and resolves "..". So different references can name one file, and deleting "/uploads/x/../a.jpg" removes the file the model calls "/uploads/a.jpg". A reference such as "/uploads/../../package.json" passes the prefix test and reaches a file outside the public directory, which the program then reads and unlinks. `Report.Env`, `Report.ResolvePhoto` and `Report.ReportDeletesLocalPhoto` share this naming.
- Recap.CompletionRate: integer half-up rounding stands in for `Math.round` on a float quotient, which can differ at exact .5 ties after floating-point error.
- SheetStore.Update: a row index past the last data row is an error, where the Sheets API would write a new row further down.
- SheetStore.ListRecords: every grid row after the header is listed, trailing all-empty rows included. The Sheets API omits empty trailing rows from `values.get`, so the program lists none of them. Such a row arises when the last record is updated with an all-empty form, or when cells are cleared by hand.
- SheetStore.DeleteGridRow: a row id past the last data row is an error. The Sheets API deletes any row inside the tab's allocated grid, including empty rows below the data, and rejects only rows outside it; the allocated size is not modelled.
- SheetStore.Update: the whole stored row is replaced by the 30 serialised cells, while the program writes only A..AD; cells past column AD would survive in the sheet. The listing reads only the first 30 cells, so no listed record differs.
- SheetStore.InitializeSheet: the header row is replaced whole, with the same A..AD caveat as update.

=== FILE: dashboard.dfy ===
/** The dashboard page's own logic (src/app/page.tsx): the status tiles and
    completion percentage, and the add and edit flows, which upload inline
    photos before writing the record.  Network calls are parameters: an
    upload answers a URL or fails, a write succeeds or fails. */
module Dashboard {
  import opened Strings
  import opened SheetStore
  import Recap

  // -------------------------------------------------------------------
  // Status tiles

  datatype Tiles = Tiles(total: nat, selesai: nat, proses: nat, pending: nat)

  /** The `stats` object: the record count and the three status counts,
      under the same status tests as the recap. */
  function StatusTiles(data: seq<Fields>): (s: Tiles)
    ensures s.total == |data|
    ensures s.selesai + s.proses + s.pending + Recap.CountIf(data, Recap.IsUnrecognised) == s.total
  {
    Recap.StatusPartition(data);
    Tiles(|data|, Recap.CountIf(data, Recap.IsSelesai), Recap.CountIf(data, Recap.IsProses),
          Recap.CountIf(data, Recap.IsPending))
  }

  /** The percentage shown under the tiles: rounded, and 0 with no records. */
  function DisplayedPercent(s: Tiles): (p: nat)
    requires s.selesai <= s.total
    ensures s.total == 0 ==> p == 0
    ensures p <= 100
    ensures s.total > 0 && s.selesai == s.total ==> p == 100
  {
    Recap.CompletionRateEnds(s.total);
    Recap.CompletionRate(s.selesai, s.total)
  }

  /** The tiles agree with the recap's statistics over the same records. */
  lemma TilesAgreeWithRecap(data: seq<Fields>)
    ensures var s := StatusTiles(data);
      var r := Recap.CalculateStats(data);
      && s.total == r.total && s.selesai == r.selesai && s.proses == r.proses && s.pending == r.pending
      && DisplayedPercent(s) == r.completionRate
  {
  }

  // -------------------------------------------------------------------
  // Inline photos

  const BeforeField := "Foto Sebelum"
  const AfterField := "Foto Sesudah"
  const InlinePrefix := "data:image"

  /** A field whose value is a non-empty string starting with "data:image". */
  predicate NeedsUpload(form: Fields, field: string) {
    field in form && form[field] != "" && StartsWith(form[field], InlinePrefix)
  }

  /** What the page asks of the server, in order. */
  datatype Action =
    | Upload(payload: string)             // POST /api/upload
    | PostRecord(record: Fields)          // POST /api/sheets
    | PutRecord(id: int, record: Fields)  // PUT /api/sheets/<id>
    | GenerateReport(record: Fields)      // POST /api/generate-pdf

  /** One turn of the photo loop: upload an inline value and put the URL in
      its place; a failed upload (`None`) ends the flow. */
  function PreparePhoto(form: Fields, field: string, upload: string -> Option<string>): (r: (seq<Action>, Option<Fields>))
    ensures NeedsUpload(form, field) ==> r.0 == [Upload(form[field])]
    ensures !NeedsUpload(form, field) ==> r == ([], Some(form))
    ensures r.1.None? <==> NeedsUpload(form, field) && upload(form[field]).None?
    ensures r.1.Some? && NeedsUpload(form, field) ==> r.1.value == form[field := upload(form[field]).value]
  {
    if NeedsUpload(form, field) then
      var payload := form[field];
      match upload(payload)
      case None => ([Upload(payload)], None)
      case Some(url) => ([Upload(payload)], Some(form[field := url]))
    else ([], Some(form))
  }

  /** The loop over "Foto Sebelum" then "Foto Sesudah" before a write. */
  function PreparePhotos(form: Fields, upload: string -> Option<string>): (r: (seq<Action>, Option<Fields>))
    ensures forall i :: 0 <= i < |r.0| ==> r.0[i].Upload?
  {
    var (first, mid) := PreparePhoto(form, BeforeField, upload);
    if mid.None? then (first, None)
    else
      var (second, done) := PreparePhoto(mid.value, AfterField, upload);
      (first + second, done)
  }

  /** What a field holds once the photos are prepared. */
  function PreparedValue(form: Fields, field: string, upload: string -> Option<string>): string
    requires field in form
    requires NeedsUpload(form, field) ==> upload(form[field]).Some?
  {
    if NeedsUpload(form, field) then upload(form[field]).value else form[field]
  }

  /** Preparation fails exactly when an inline photo's upload fails.  When it
      succeeds, the field set is unchanged, each photo field holds its
      uploaded URL or its old value, and every other field is untouched. */
  lemma PreparePhotosSpec(form: Fields, upload: string -> Option<string>)
    ensures var (actions, r) := PreparePhotos(form, upload);
      && (r.None? <==>
            || (NeedsUpload(form, BeforeField) && upload(form[BeforeField]).None?)
            || (NeedsUpload(form, AfterField) && upload(form[AfterField]).None?))
      && (r.Some? ==>
            && r.value.Keys == form.Keys
            && (forall k :: k in form && k != BeforeField && k != AfterField ==> r.value[k] == form[k])
            && (BeforeField in form ==> r.value[BeforeField] == PreparedValue(form, BeforeField, upload))
            && (AfterField in form ==> r.value[AfterField] == PreparedValue(form, AfterField, upload)))
  {
    var (first, mid) := PreparePhoto(form, BeforeField, upload);
    if mid.Some? {
      assert BeforeField != AfterField;
      assert NeedsUpload(mid.value, AfterField) == NeedsUpload(form, AfterField);
    }
  }

  /** The uploads are exactly the inline photos, "Foto Sebelum" first; a
      failed first upload means the second is never tried. */
  lemma PreparePhotosUploads(form: Fields, upload: string -> Option<string>)
    ensures var (actions, r) := PreparePhotos(form, upload);
      var before := if NeedsUpload(form, BeforeField) then [Upload(form[BeforeField])] else [];
      var after := if NeedsUpload(form, AfterField) then [Upload(form[AfterField])] else [];
      if NeedsUpload(form, BeforeField) && upload(form[BeforeField]).None? then actions == before
      else actions == before + after
  {
    var (first, mid) := PreparePhoto(form, BeforeField, upload);
    if mid.Some? {
      assert BeforeField != AfterField;
      assert NeedsUpload(mid.value, AfterField) == NeedsUpload(form, AfterField);
      if NeedsUpload(form, AfterField) {
        assert mid.value[AfterField] == form[AfterField];
      }
    }
  }

  /** Preparing twice uploads nothing new when the server's URLs are not
      inline data themselves (it answers "/uploads/..." or a Drive link). */
  lemma PreparedFormIsStable(form: Fields, upload: string -> Option<string>)
    requires forall v :: upload(v).Some? ==> !StartsWith(upload(v).value, InlinePrefix)
    requires PreparePhotos(form, upload).1.Some?
    ensures var prepared := PreparePhotos(form, upload).1.value;
      PreparePhotos(prepared, upload) == ([], Some(prepared))
  {
    PreparePhotosSpec(form, upload);
    var prepared := PreparePhotos(form, upload).1.value;
    assert !NeedsUpload(prepared, BeforeField) by {
      if BeforeField in form {
        assert prepared[BeforeField] == PreparedValue(form, BeforeField, upload);
      }
    }
    assert !NeedsUpload(prepared, AfterField) by {
      if AfterField in form {
        assert prepared[AfterField] == PreparedValue(form, AfterField, upload);
      }
    }
    assert PreparePhoto(prepared, BeforeField, upload) == ([], Some(prepared));
    assert PreparePhoto(prepared, AfterField, upload) == ([], Some(prepared));
    var none: seq<Action> := [];
    assert none + none == none;
  }

  // -------------------------------------------------------------------
  // Add and edit

  /** `handleSubmit`: nothing at all in demo mode; otherwise the uploads, the
      write, and after a successful write the report. */
  function HandleSubmit(demo: bool, form: Fields, upload: string -> Option<string>, write: Fields -> bool): (actions: seq<Action>)
    ensures demo ==> actions == []
    ensures !demo ==>
      var uploads := PreparePhotos(form, upload).0;
      |actions| >= |uploads| && actions[..|uploads|] == uploads
    ensures PreparePhotos(form, upload).1.None? ==> forall i :: 0 <= i < |actions| ==> actions[i].Upload?
    ensures forall i :: 0 <= i < |actions| && actions[i].GenerateReport? ==>
      0 < i && actions[i - 1] == PostRecord(actions[i].record) && write(actions[i].record)
  {
    if demo then []
    else
      var (uploads, prepared) := PreparePhotos(form, upload);
      match prepared
      case None => uploads
      case Some(data) =>
        if write(data) then uploads + [PostRecord(data), GenerateReport(data)]
        else uploads + [PostRecord(data)]
  }

  /** `handleEdit`: with a selected record, the uploads and then the write;
      there is no demo-mode check. */
  function HandleEdit(selected: Option<int>, form: Fields, upload: string -> Option<string>): (actions: seq<Action>)
    ensures selected.None? ==> actions == []
    ensures selected.Some? ==>
      var uploads := PreparePhotos(form, upload).0;
      |actions| >= |uploads| && actions[..|uploads|] == uploads
    ensures PreparePhotos(form, upload).1.None? ==> forall i :: 0 <= i < |actions| ==> actions[i].Upload?
  {
    match selected
    case None => []
    case Some(id) =>
      var (uploads, prepared) := PreparePhotos(form, upload);
      match prepared
      case None => uploads
      case Some(data) => uploads + [PutRecord(id, data)]
  }

  /** Every write follows all the uploads and carries the prepared form. */
  lemma WritesComeLast(demo: bool, selected: Option<int>, form: Fields, upload: string -> Option<string>, write: Fields -> bool)
    ensures var (uploads, prepared) := PreparePhotos(form, upload);
      var add := HandleSubmit(demo, form, upload, write);
      var edit := HandleEdit(selected, form, upload);
      && (forall i :: 0 <= i < |add| && add[i].PostRecord? ==>
            i == |uploads| && prepared == Some(add[i].record))
      && (forall i :: 0 <= i < |edit| && edit[i].PutRecord? ==>
            i == |uploads| && prepared == Some(edit[i].record) && selected == Some(edit[i].id))
  {
  }

  /** Outside demo mode, a prepared form is always posted after the uploads,
      and the report is asked for exactly when the write succeeds. */
  lemma SubmitPostsPrepared(form: Fields, upload: string -> Option<string>, write: Fields -> bool)
    requires PreparePhotos(form, upload).1.Some?
    ensures var (uploads, prepared) := PreparePhotos(form, upload);
      var d := prepared.value;
      HandleSubmit(false, form, upload, write)
        == uploads + [PostRecord(d)] + (if write(d) then [GenerateReport(d)] else [])
  {
  }

  /** A failed upload ends the flow before any write. */
  lemma FailedUploadWritesNothing(demo: bool, selected: Option<int>, form: Fields, upload: string -> Option<string>, write: Fields -> bool)
    requires PreparePhotos(form, upload).1.None?
    ensures HandleSubmit(demo, form, upload, write) == (if demo then [] else PreparePhotos(form, upload).0)
    ensures HandleEdit(selected, form, upload) == (if selected.None? then [] else PreparePhotos(form, upload).0)
  {
  }

  /** In demo mode adding does nothing, while editing the selected record
      still uploads the photos and attempts the write. */
  lemma DemoGuardsAddOnly(id: int, form: Fields, upload: string -> Option<string>, write: Fields -> bool)
    requires PreparePhotos(form, upload).1.Some?
    ensures HandleSubmit(true, form, upload, write) == []
    ensures var (uploads, prepared) := PreparePhotos(form, upload);
      HandleEdit(Some(id), form, upload) == uploads + [PutRecord(id, prepared.value)]
  {
  }
}

=== FILE: dropdowns.dfy ===
/** Dropdown option lists: building the key-to-list map from the reference
    sheet (`fetchDropdownOptions`, src/lib/google-sheets.ts) and the form's
    tolerant lookup of a field's list (`findOptions`, src/app/page.tsx).

    The option map is a JavaScript object; its keys iterate in insertion
    order, so it is modelled as an association list with distinct keys in
    that order. */
module Dropdowns {
  import opened Strings

  /** The option map: its keys in insertion order and the list under each. */
  datatype Options = Options(keys: seq<string>, table: map<string, seq<string>>)

  /** What every map the program builds satisfies: the key order lists each
      key of the table exactly once. */
  ghost predicate Valid(o: Options) {
    && (forall i :: 0 <= i < |o.keys| ==> o.keys[i] in o.table)
    && (forall k :: k in o.table ==> k in o.keys)
    && (forall i, j :: 0 <= i < j < |o.keys| ==> o.keys[i] != o.keys[j])
  }

  const Empty := Options([], map[])

  /** `k in options` (an own key; inherited properties are not modelled). */
  predicate HasKey(o: Options, k: string) {
    k in o.table
  }

  /** `options[k]`: `None` for `undefined`. */
  function Lookup(o: Options, k: string): (r: Option<seq<string>>)
    ensures r.Some? <==> HasKey(o, k)
    ensures r.Some? ==> r.value == o.table[k]
  {
    if k in o.table then Some(o.table[k]) else None
  }

  /** The list under the `i`-th key in iteration order. */
  function ValueAt(o: Options, i: nat): seq<string>
    requires i < |o.keys|
  {
    if o.keys[i] in o.table then o.table[o.keys[i]] else []
  }

  /** `options[k] = v`: a present key keeps its place, a new key goes last. */
  function Put(o: Options, k: string, v: seq<string>): (o': Options)
    ensures Lookup(o', k) == Some(v)
    ensures o'.table.Keys == o.table.Keys + {k}
    ensures HasKey(o, k) ==> o'.keys == o.keys
    ensures !HasKey(o, k) ==> o'.keys == o.keys + [k]
  {
    Options(if k in o.table then o.keys else o.keys + [k], o.table[k := v])
  }

  /** Writing a key keeps the map well formed. */
  lemma PutValid(o: Options, k: string, v: seq<string>)
    requires Valid(o)
    ensures Valid(Put(o, k, v))
  {
    var o' := Put(o, k, v);
    if !HasKey(o, k) {
      assert forall i :: 0 <= i < |o.keys| ==> o'.keys[i] == o.keys[i] != k;
      assert o'.keys[|o.keys|] == k;
      forall j | j in o'.table
        ensures j in o'.keys
      {
        if j != k {
          var i :| 0 <= i < |o.keys| && o.keys[i] == j;
          assert o'.keys[i] == j;
        }
      }
    }
  }

  // -------------------------------------------------------------------
  // Building the map from the reference sheet

  /** ASCII white space as JavaScript's `\s` matches it. */
  predicate IsSpace(c: char) {
    c == ' ' || c == '\t' || c == '\n' || c == '\r' || c == '\U{B}' || c == '\U{C}'
  }

  /** Drop the white space at the front (`\s*`). */
  function TrimStartSpace(s: string): (r: string)
    ensures |r| <= |s| && r == s[|s| - |r|..]
    ensures |r| > 0 ==> !IsSpace(r[0])
    ensures forall i :: 0 <= i < |s| - |r| ==> IsSpace(s[i])
  {
    if |s| > 0 && IsSpace(s[0]) then TrimStartSpace(s[1..]) else s
  }

  predicate IsSectionLetter(c: char) {
    'A' <= c <= 'D' || 'a' <= c <= 'd'
  }

  /** `key.replace(/^[A-D]\.\s*\/i, '')`: one leading section letter, its dot
      and the white space after it removed. */
  function StripSectionPrefix(s: string): (r: string)
    ensures |r| <= |s|
    ensures r != s <==> |s| >= 2 && IsSectionLetter(s[0]) && s[1] == '.'
  {
    if |s| >= 2 && IsSectionLetter(s[0]) && s[1] == '.' then TrimStartSpace(s[2..]) else s
  }

  const CanonicalJenisPrefix := "Jenis Gangguan - "

  /** `.replace(/^Jenis Gangguan\s*-\s*\/i, 'Jenis Gangguan - ')`: the phrase in
      any letter case, a dash and the white space around it, rewritten in
      canonical spelling. */
  function CanonicalJenis(s: string): (r: string)
  {
    if |s| >= 14 && Lower(s[..14]) == "jenis gangguan" then
      var t := TrimStartSpace(s[14..]);
      if |t| > 0 && t[0] == '-' then
        var r := CanonicalJenisPrefix + TrimStartSpace(t[1..]);
        assert r[..|CanonicalJenisPrefix|] == CanonicalJenisPrefix;
        r
      else s
    else s
  }

  /** The normalised alias of a header. */
  function NormalizeHeader(h: string): string {
    CanonicalJenis(StripSectionPrefix(h))
  }

  /** A row of the reference sheet; a short row reads "" past its end,
      which is what `row[colIndex]` being `undefined` amounts to. */
  function CellAt(row: seq<string>, c: nat): string {
    if c < |row| then row[c] else ""
  }

  /** `rows.slice(1).map(row => row[colIndex]).filter(v => !!v)`: the
      non-empty cells of column `c` below the header, top to bottom. */
  function Column(body: seq<seq<string>>, c: nat): (col: seq<string>)
    ensures forall i :: 0 <= i < |col| ==> col[i] != ""
    ensures |col| <= |body|
  {
    if |body| == 0 then []
    else
      var v := CellAt(body[0], c);
      (if v != "" then [v] else []) + Column(body[1..], c)
  }

  /** One header cell of the reference sheet with what the loop derives
      from it: the upper-case alias, the normalised alias and the column's
      non-empty cells. */
  datatype HeaderCell = HeaderCell(name: string, upper: string, normal: string, column: seq<string>)

  /** The header cells of a sheet whose first row is `headers`. */
  function HeaderCells(headers: seq<string>, body: seq<seq<string>>): (cells: seq<HeaderCell>)
    ensures |cells| == |headers|
    ensures forall c :: 0 <= c < |headers| ==>
      cells[c] == HeaderCell(headers[c], Upper(headers[c]), NormalizeHeader(headers[c]), Column(body, c))
  {
    seq(|headers|, c requires 0 <= c < |headers| =>
      HeaderCell(headers[c], Upper(headers[c]), NormalizeHeader(headers[c]), Column(body, c)))
  }

  /** What the loop body does for one non-empty header: store its column
      under the header, then add the upper-case and the normalised alias,
      each only when no entry has that key yet. */
  function AddHeader(o: Options, cell: HeaderCell): (o': Options)
    ensures Lookup(o', cell.name) == Some(cell.column)
    ensures HasKey(o', cell.upper) && HasKey(o', cell.normal)
  {
    var o1 := Put(o, cell.name, cell.column);
    var o2 := if !HasKey(o1, cell.upper) then Put(o1, cell.upper, cell.column) else o1;
    if !HasKey(o2, cell.normal) && cell.normal != cell.name then Put(o2, cell.normal, cell.column) else o2
  }

  /** What adding a header does to any other key: a present key keeps its
      list unless it is the header itself, no key disappears, and a new key
      is the header or one of its aliases and holds the header's column. */
  lemma AddHeaderEffect(o: Options, cell: HeaderCell, j: string)
    ensures HasKey(o, j) ==> HasKey(AddHeader(o, cell), j)
    ensures HasKey(o, j) && j != cell.name ==> Lookup(AddHeader(o, cell), j) == Lookup(o, j)
    ensures HasKey(AddHeader(o, cell), j) && !HasKey(o, j) ==>
      && Lookup(AddHeader(o, cell), j) == Some(cell.column)
      && (j == cell.name || j == cell.upper || j == cell.normal)
  {
  }

  /** Adding a header keeps the map well formed. */
  lemma AddHeaderValid(o: Options, cell: HeaderCell)
    requires Valid(o)
    ensures Valid(AddHeader(o, cell))
  {
    var o1 := Put(o, cell.name, cell.column);
    PutValid(o, cell.name, cell.column);
    var o2 := if !HasKey(o1, cell.upper) then Put(o1, cell.upper, cell.column) else o1;
    if !HasKey(o1, cell.upper) {
      PutValid(o1, cell.upper, cell.column);
    }
    if !HasKey(o2, cell.normal) && cell.normal != cell.name {
      PutValid(o2, cell.normal, cell.column);
    }
  }

  /** The map after the first `n` header cells; empty header cells are
      skipped. */
  function BuildPrefix(cells: seq<HeaderCell>, n: nat): (o: Options)
    requires n <= |cells|
  {
    if n == 0 then Empty
    else
      var o := BuildPrefix(cells, n - 1);
      if cells[n - 1].name != "" then AddHeader(o, cells[n - 1]) else o
  }

  /** The built map is well formed: it never holds a key twice. */
  lemma {:induction false} BuildValid(cells: seq<HeaderCell>, n: nat, o: Options)
    requires n <= |cells| && o == BuildPrefix(cells, n)
    ensures Valid(o)
  {
    if n > 0 {
      var prev := BuildPrefix(cells, n - 1);
      BuildValid(cells, n - 1, prev);
      BuildStepValid(prev, o, cells[n - 1]);
    }
  }

  /** One step of the build keeps the map well formed. */
  lemma BuildStepValid(prev: Options, next: Options, cell: HeaderCell)
    requires Valid(prev)
    requires next == if cell.name != "" then AddHeader(prev, cell) else prev
    ensures Valid(next)
  {
    if cell.name != "" {
      AddHeaderValid(prev, cell);
    }
  }

  /** `fetchDropdownOptions` over the values of `Bantuan!A:Z`. */
  function BuildOptions(rows: seq<seq<string>>): (o: Options)
    ensures |rows| == 0 ==> o == Empty
  {
    if |rows| == 0 then Empty
    else
      var cells := HeaderCells(rows[0], rows[1..]);
      BuildPrefix(cells, |cells|)
  }

  lemma BuildOptionsValid(rows: seq<seq<string>>)
    ensures Valid(BuildOptions(rows))
  {
    if |rows| > 0 {
      var cells := HeaderCells(rows[0], rows[1..]);
      BuildValid(cells, |cells|, BuildOptions(rows));
    }
  }

  /** The last cell named `h` is the one whose column is stored under `h`:
      a later cell with the same name replaces an earlier one, and no alias
      of another header ever overwrites it. */
  lemma {:induction false} LastColumnWins(cells: seq<HeaderCell>, n: nat, c: nat)
    requires n <= |cells| && c < n && cells[c].name != ""
    requires forall d :: c < d < n ==> cells[d].name != cells[c].name
    ensures Lookup(BuildPrefix(cells, n), cells[c].name) == Some(cells[c].column)
  {
    if n - 1 > c {
      LastColumnWins(cells, n - 1, c);
      if cells[n - 1].name != "" {
        AddHeaderEffect(BuildPrefix(cells, n - 1), cells[n - 1], cells[c].name);
      }
    }
  }

  /** Every non-empty header has its own key and both aliases, and keys
      once present stay. */
  lemma {:induction false} HeaderKeysPresent(cells: seq<HeaderCell>, n: nat, c: nat)
    requires n <= |cells| && c < n && cells[c].name != ""
    ensures var o := BuildPrefix(cells, n);
      HasKey(o, cells[c].name) && HasKey(o, cells[c].upper) && HasKey(o, cells[c].normal)
  {
    if n - 1 > c {
      HeaderKeysPresent(cells, n - 1, c);
      var o := BuildPrefix(cells, n - 1);
      if cells[n - 1].name != "" {
        AddHeaderEffect(o, cells[n - 1], cells[c].name);
        AddHeaderEffect(o, cells[n - 1], cells[c].upper);
        AddHeaderEffect(o, cells[n - 1], cells[c].normal);
      }
    }
  }

  /** Every list in the map is the column of some non-empty header cell. */
  lemma {:induction false} ValuesAreColumns(cells: seq<HeaderCell>, n: nat, k: string) returns (c: nat)
    requires n <= |cells|
    requires HasKey(BuildPrefix(cells, n), k)
    ensures c < n && cells[c].name != ""
    ensures Lookup(BuildPrefix(cells, n), k) == Some(cells[c].column)
  {
    assert n > 0;
    var o := BuildPrefix(cells, n - 1);
    var named := cells[n - 1].name != "";
    if named {
      AddHeaderEffect(o, cells[n - 1], k);
    }
    if named && (k == cells[n - 1].name || !HasKey(o, k)) {
      c := n - 1;
    } else {
      c := ValuesAreColumns(cells, n - 1, k);
    }
  }

  /** `BuildOptions` in terms of the sheet: the list under a header that
      occurs once is the non-empty cells of its column, and the header's
      upper-case and normalised spellings are keys too. */
  lemma HeaderColumnStored(rows: seq<seq<string>>, c: nat)
    requires |rows| > 0 && c < |rows[0]| && rows[0][c] != ""
    requires forall d :: c < d < |rows[0]| ==> rows[0][d] != rows[0][c]
    ensures Lookup(BuildOptions(rows), rows[0][c]) == Some(Column(rows[1..], c))
    ensures HasKey(BuildOptions(rows), Upper(rows[0][c]))
    ensures HasKey(BuildOptions(rows), NormalizeHeader(rows[0][c]))
  {
    var cells := HeaderCells(rows[0], rows[1..]);
    LastColumnWins(cells, |cells|, c);
    HeaderKeysPresent(cells, |cells|, c);
  }

  /** A table with a header row and no other row still lists every header,
      each with an empty list. */
  lemma HeaderOnlyTable(headers: seq<string>, c: nat)
    requires c < |headers| && headers[c] != ""
    ensures HasKey(BuildOptions([headers]), headers[c])
    ensures Lookup(BuildOptions([headers]), headers[c]).value == []
  {
    var cells := HeaderCells(headers, []);
    HeaderKeysPresent(cells, |cells|, c);
    var d := ValuesAreColumns(cells, |cells|, headers[c]);
  }

  /** A dash right after the phrase and no white space after the dash. */
  lemma CanonicalTightDash(s: string)
    requires |s| >= 16 && Lower(s[..14]) == "jenis gangguan" && s[14] == '-' && !IsSpace(s[15])
    ensures CanonicalJenis(s) == CanonicalJenisPrefix + s[15..]
  {
    assert s[14..][1..] == s[15..];
  }

  // -------------------------------------------------------------------
  // Looking a field's list up

  datatype FieldType = Text | Date | Time | Select | TextArea | Number | Photo

  /** How a key of the map is tested against the wanted field. */
  datatype Matcher =
    | UpperEqOrContains(keyword: string)   // step 4
    | SameLower(field: string)            // step 5
    | UpperContains(keyword: string)      // step 6
    | Partial(field: string)              // step 7

  predicate Matches(m: Matcher, key: string) {
    match m
    case UpperEqOrContains(kw) => Upper(key) == Upper(kw) || Contains(Upper(key), Upper(kw))
    case SameLower(f) => Lower(key) == Lower(f)
    case UpperContains(kw) => Contains(Upper(key), Upper(kw))
    case Partial(f) => Contains(Lower(key), Lower(f)) || Contains(Lower(f), Lower(key))
  }

  /** The position of the first key the matcher accepts (`for (const key
      of availableKeys)` with an early return). */
  function FirstMatch(keys: seq<string>, m: Matcher): (r: Option<nat>)
    ensures r.Some? ==>
      && r.value < |keys| && Matches(m, keys[r.value])
      && forall i :: 0 <= i < r.value ==> !Matches(m, keys[i])
    ensures r.None? ==> forall i :: 0 <= i < |keys| ==> !Matches(m, keys[i])
  {
    if |keys| == 0 then None
    else if Matches(m, keys[0]) then Some(0)
    else match FirstMatch(keys[1..], m)
      case None =>
        assert forall i :: 1 <= i < |keys| ==> keys[i] == keys[1..][i - 1];
        None
      case Some(k) =>
        assert forall i :: 1 <= i < |keys| ==> keys[i] == keys[1..][i - 1];
        Some(k + 1)
  }

  /** Outer loop over the keywords, inner loop over the keys: the first key
      hit by the first keyword that hits any key at all. */
  function FirstKeywordMatch(keys: seq<string>, keywords: seq<string>, contains: bool): (r: Option<nat>)
    ensures r.Some? ==> r.value < |keys|
    ensures r.Some? <==> KeywordHits(keys, keywords, contains)
    ensures r.Some? ==> exists w :: IsFirstKeywordHit(keys, keywords, contains, w, r.value)
  {
    if |keywords| == 0 then None
    else match FirstMatch(keys, KeywordMatcher(keywords[0], contains))
      case Some(k) =>
        assert IsFirstKeywordHit(keys, keywords, contains, 0, k);
        Some(k)
      case None =>
        var r := FirstKeywordMatch(keys, keywords[1..], contains);
        assert forall w :: 1 <= w < |keywords| ==> keywords[w] == keywords[1..][w - 1];
        if r.Some? then
          KeywordHitShift(keys, keywords, contains, r.value);
          r
        else r
  }

  /** Position `k` holds the first key the matcher accepts. */
  ghost predicate IsFirstMatch(keys: seq<string>, m: Matcher, k: nat) {
    && k < |keys| && Matches(m, keys[k])
    && forall i :: 0 <= i < k ==> !Matches(m, keys[i])
  }

  /** Keyword `w` is the first of the list that hits any key, and `k` is the
      first key it hits. */
  ghost predicate IsFirstKeywordHit(keys: seq<string>, keywords: seq<string>, containsOnly: bool, w: nat, k: nat) {
    && w < |keywords|
    && IsFirstMatch(keys, KeywordMatcher(keywords[w], containsOnly), k)
    && forall v :: 0 <= v < w ==> !AnyKeyMatches(keys, KeywordMatcher(keywords[v], containsOnly))
  }

  /** A first hit of the keywords after the first one is a first hit of the
      whole list when the first keyword hits no key. */
  lemma KeywordHitShift(keys: seq<string>, keywords: seq<string>, contains: bool, k: nat)
    requires |keywords| > 0 && FirstMatch(keys, KeywordMatcher(keywords[0], contains)).None?
    requires exists w :: IsFirstKeywordHit(keys, keywords[1..], contains, w, k)
    ensures exists w :: IsFirstKeywordHit(keys, keywords, contains, w, k)
  {
    var w: nat :| IsFirstKeywordHit(keys, keywords[1..], contains, w, k);
    assert keywords[w + 1] == keywords[1..][w];
    forall v | 0 <= v < w + 1
      ensures !AnyKeyMatches(keys, KeywordMatcher(keywords[v], contains))
    {
      if v > 0 {
        assert keywords[v] == keywords[1..][v - 1];
      }
    }
    assert IsFirstKeywordHit(keys, keywords, contains, w + 1, k);
  }

  /** The first key a matcher accepts is the one the key loop returns. */
  lemma FirstMatchIs(keys: seq<string>, m: Matcher, k: nat)
    requires IsFirstMatch(keys, m, k)
    ensures FirstMatch(keys, m) == Some(k)
  {
  }

  /** The first hit of the first hitting keyword is what the nested loops
      return. */
  lemma {:induction false} FirstKeywordMatchIs(keys: seq<string>, keywords: seq<string>, contains: bool, w: nat, k: nat)
    requires IsFirstKeywordHit(keys, keywords, contains, w, k)
    ensures FirstKeywordMatch(keys, keywords, contains) == Some(k)
    decreases |keywords|
  {
    if w == 0 {
      FirstMatchIs(keys, KeywordMatcher(keywords[0], contains), k);
    } else {
      assert !AnyKeyMatches(keys, KeywordMatcher(keywords[0], contains));
      assert keywords[1..][w - 1] == keywords[w];
      forall v | 0 <= v < w - 1
        ensures !AnyKeyMatches(keys, KeywordMatcher(keywords[1..][v], contains))
      {
        assert keywords[1..][v] == keywords[v + 1];
      }
      assert IsFirstKeywordHit(keys, keywords[1..], contains, w - 1, k);
      FirstKeywordMatchIs(keys, keywords[1..], contains, w - 1, k);
    }
  }

  /** Some keyword of the list matches some key. */
  ghost predicate KeywordHits(keys: seq<string>, keywords: seq<string>, containsOnly: bool) {
    exists w, i :: 0 <= w < |keywords| && 0 <= i < |keys| && Matches(KeywordMatcher(keywords[w], containsOnly), keys[i])
  }

  /** Some key is accepted by the matcher. */
  ghost predicate AnyKeyMatches(keys: seq<string>, m: Matcher) {
    exists i :: 0 <= i < |keys| && Matches(m, keys[i])
  }

  function KeywordMatcher(kw: string, containsOnly: bool): Matcher {
    if containsOnly then UpperContains(kw) else UpperEqOrContains(kw)
  }

  /** `gangguanMapping`: alternative spellings tried for the four fault fields. */
  function GangguanKeywords(fieldKey: string): Option<seq<string>> {
    if fieldKey == "A.Jenis Gangguan - Palang" then
      Some(["Jenis Gangguan Palang", "JENIS GANGGUAN PALANG", "Gangguan Palang", "GANGGUAN PALANG"])
    else if fieldKey == "B.Jenis Gangguan Reader / Periferal" then
      Some(["Jenis Gangguan Reader / Periferal", "JENIS GANGGUAN READER", "Gangguan Reader"])
    else if fieldKey == "C. Jenis Gangguan - Sistim" then
      Some(["Jenis Gangguan - Sistim", "JENIS GANGGUAN - SISTIM", "Gangguan Sistem", "Gangguan Sistim"])
    else if fieldKey == "D. Jenis Gangguan - Kelistrikan" then
      Some(["Gangguan Kelistrikan", "GANGGUAN KELISTRIKAN", "Jenis Gangguan - Kelistrikan"])
    else None
  }

  /** `petugasKeywords`: key fragments tried for the five officer fields. */
  function PetugasKeywords(fieldKey: string): Option<seq<string>> {
    if fieldKey == "PETUGAS KSPT" then Some(["KSPT"])
    else if fieldKey == "PETUGAS PULTOL" then Some(["PULTOL", "NAMA PULTOL"])
    else if fieldKey == "PETUGAS IT" then Some(["NAMA IT"])
    else if fieldKey == "PETUGAS TEKNISI" then Some(["NAMA TEKNISI", "TEKNISI"])
    else if fieldKey == "Petugas Security" then Some(["SECURITY"])
    else None
  }

  /** `dropdowns[k]?.length`: present with a non-empty list. */
  predicate NonEmptyAt(o: Options, k: string) {
    Lookup(o, k).Some? && |Lookup(o, k).value| > 0
  }

  /** The keyword step for an optional keyword table. */
  function KeywordStep(o: Options, table: Option<seq<string>>, containsOnly: bool): Option<nat> {
    match table
    case None => None
    case Some(kws) => FirstKeywordMatch(o.keys, kws, containsOnly)
  }

  /** `findOptions`: seven strategies, the first that answers wins.  Steps
      1-3 look up a single key and pass over an empty list; steps 4-7 return
      the first matching key's list whatever it holds. */
  function FindOptions(o: Options, fieldKey: string): (r: seq<string>)
    ensures NonEmptyAt(o, fieldKey) ==> r == Lookup(o, fieldKey).value
    ensures r == [] || exists k :: k in o.table && r == o.table[k]
  {
    var upper := Upper(fieldKey);
    var stripped := StripSectionPrefix(fieldKey);
    if NonEmptyAt(o, fieldKey) then Lookup(o, fieldKey).value
    else if NonEmptyAt(o, upper) then Lookup(o, upper).value
    else if NonEmptyAt(o, stripped) then Lookup(o, stripped).value
    else match KeywordStep(o, GangguanKeywords(fieldKey), false)
      case Some(k) => ValueAt(o, k)
      case None =>
        match FirstMatch(o.keys, SameLower(fieldKey))
        case Some(k) => ValueAt(o, k)
        case None =>
          match KeywordStep(o, PetugasKeywords(fieldKey), true)
          case Some(k) => ValueAt(o, k)
          case None =>
            match FirstMatch(o.keys, Partial(fieldKey))
            case Some(k) => ValueAt(o, k)
            case None => []
  }

  /** The options a form field is offered: only select fields look any up. */
  function FieldOptions(o: Options, fieldKey: string, kind: FieldType): (r: seq<string>)
    ensures kind != Select ==> r == []
    ensures kind == Select ==> r == FindOptions(o, fieldKey)
  {
    if kind == Select then FindOptions(o, fieldKey) else []
  }

  // -------------------------------------------------------------------
  // Lemmas

  /** Some strategy has something to say about `fieldKey`: one of the single
      key lookups finds a non-empty list, or some key passes one of the
      matching tests of steps 4 to 7. */
  ghost predicate SomeStrategyApplies(o: Options, fieldKey: string) {
    || NonEmptyAt(o, fieldKey)
    || NonEmptyAt(o, Upper(fieldKey))
    || NonEmptyAt(o, StripSectionPrefix(fieldKey))
    || (GangguanKeywords(fieldKey).Some? && KeywordHits(o.keys, GangguanKeywords(fieldKey).value, false))
    || AnyKeyMatches(o.keys, SameLower(fieldKey))
    || (PetugasKeywords(fieldKey).Some? && KeywordHits(o.keys, PetugasKeywords(fieldKey).value, true))
    || AnyKeyMatches(o.keys, Partial(fieldKey))
  }

  /** When no strategy applies the field gets the empty list. */
  lemma NoStrategyGivesEmpty(o: Options, fieldKey: string)
    requires !SomeStrategyApplies(o, fieldKey)
    ensures FindOptions(o, fieldKey) == []
  {
  }

  /** The steps after the third answer even with an empty list: with the
      entries `"Gangguan Palang" -> []` and `"Palang" -> ["X"]`, the fault
      field for barriers is offered nothing, although the later partial match
      would have found `"Palang"`. */
  lemma KeywordStepReturnsEmptyList()
    ensures FindOptions(PalangOptions(), "A.Jenis Gangguan - Palang") == []
    ensures Matches(Partial("A.Jenis Gangguan - Palang"), "Palang")
  {
    var key := "A.Jenis Gangguan - Palang";
    PalangSingleKeyMisses();
    PalangKeywordHit();
    AnsweredByFaultKeywords(PalangOptions(), key, 2, 0);
    PalangPartial();
  }

  /** Steps 1 to 3 find no non-empty list under a single key. */
  ghost predicate SingleKeysMiss(o: Options, fieldKey: string) {
    !NonEmptyAt(o, fieldKey) && !NonEmptyAt(o, Upper(fieldKey)) && !NonEmptyAt(o, StripSectionPrefix(fieldKey))
  }

  /** Step 4 finds nothing: the field has no fault keywords, or none hits a key. */
  ghost predicate FaultKeywordsMiss(o: Options, fieldKey: string) {
    GangguanKeywords(fieldKey).None? || !KeywordHits(o.keys, GangguanKeywords(fieldKey).value, false)
  }

  /** Step 6 finds nothing: the field has no officer keywords, or none is in a key. */
  ghost predicate OfficerKeywordsMiss(o: Options, fieldKey: string) {
    PetugasKeywords(fieldKey).None? || !KeywordHits(o.keys, PetugasKeywords(fieldKey).value, true)
  }

  /** Step 2: the exact key misses and the upper-case key holds a list. */
  lemma AnsweredByUpper(o: Options, fieldKey: string)
    requires !NonEmptyAt(o, fieldKey) && NonEmptyAt(o, Upper(fieldKey))
    ensures FindOptions(o, fieldKey) == o.table[Upper(fieldKey)]
  {
  }

  /** Step 3: both earlier keys miss and the key without its section prefix
      holds a list. */
  lemma AnsweredByStripped(o: Options, fieldKey: string)
    requires !NonEmptyAt(o, fieldKey) && !NonEmptyAt(o, Upper(fieldKey))
    requires NonEmptyAt(o, StripSectionPrefix(fieldKey))
    ensures FindOptions(o, fieldKey) == o.table[StripSectionPrefix(fieldKey)]
  {
  }

  /** Step 4: once the single-key lookups miss, the first fault keyword that
      hits any key decides, and the answer is the list of the first key it
      hits, even an empty one. */
  lemma AnsweredByFaultKeywords(o: Options, fieldKey: string, w: nat, k: nat)
    requires SingleKeysMiss(o, fieldKey) && GangguanKeywords(fieldKey).Some?
    requires IsFirstKeywordHit(o.keys, GangguanKeywords(fieldKey).value, false, w, k)
    ensures FindOptions(o, fieldKey) == ValueAt(o, k)
  {
    FirstKeywordMatchIs(o.keys, GangguanKeywords(fieldKey).value, false, w, k);
  }

  /** Step 5: with steps 1 to 4 missing, the first key equal to the field
      ignoring case decides. */
  lemma AnsweredBySameLower(o: Options, fieldKey: string, k: nat)
    requires SingleKeysMiss(o, fieldKey) && FaultKeywordsMiss(o, fieldKey)
    requires IsFirstMatch(o.keys, SameLower(fieldKey), k)
    ensures FindOptions(o, fieldKey) == ValueAt(o, k)
  {
    FirstMatchIs(o.keys, SameLower(fieldKey), k);
  }

  /** Step 6: with steps 1 to 5 missing, the first officer keyword contained
      in any key decides, and the answer is the first such key's list. */
  lemma AnsweredByOfficerKeywords(o: Options, fieldKey: string, w: nat, k: nat)
    requires SingleKeysMiss(o, fieldKey) && FaultKeywordsMiss(o, fieldKey)
    requires !AnyKeyMatches(o.keys, SameLower(fieldKey))
    requires PetugasKeywords(fieldKey).Some?
    requires IsFirstKeywordHit(o.keys, PetugasKeywords(fieldKey).value, true, w, k)
    ensures FindOptions(o, fieldKey) == ValueAt(o, k)
  {
    FirstKeywordMatchIs(o.keys, PetugasKeywords(fieldKey).value, true, w, k);
  }

  /** Step 7: with steps 1 to 6 missing, the first key that contains the
      field or is contained in it, ignoring case, decides. */
  lemma AnsweredByPartial(o: Options, fieldKey: string, k: nat)
    requires SingleKeysMiss(o, fieldKey) && FaultKeywordsMiss(o, fieldKey)
    requires !AnyKeyMatches(o.keys, SameLower(fieldKey)) && OfficerKeywordsMiss(o, fieldKey)
    requires IsFirstMatch(o.keys, Partial(fieldKey), k)
    ensures FindOptions(o, fieldKey) == ValueAt(o, k)
  {
    FirstMatchIs(o.keys, Partial(fieldKey), k);
  }

  lemma PalangPartial()
    ensures Matches(Partial("A.Jenis Gangguan - Palang"), "Palang")
  {
    var key := "A.Jenis Gangguan - Palang";
    assert key[19..] == "Palang";
    LowerSlice(key, 19, 25);
    assert Lower("Palang") == "palang";
    assert MatchesAt(Lower(key), "palang", 19);
    ContainsAt(Lower(key), "palang", 19);
  }

  function PalangOptions(): Options {
    Options(["Gangguan Palang", "Palang"], map["Gangguan Palang" := [], "Palang" := ["X"]])
  }

  lemma PalangSingleKeyMisses()
    ensures var key := "A.Jenis Gangguan - Palang";
      !NonEmptyAt(PalangOptions(), key) && !NonEmptyAt(PalangOptions(), Upper(key))
      && !NonEmptyAt(PalangOptions(), StripSectionPrefix(key))
  {
    var key := "A.Jenis Gangguan - Palang";
    var o := PalangOptions();
    assert forall k :: k in o.table ==> |k| <= 15;
    ShortKeyAbsent(PalangOptions(), key, 15);
    ShortKeyAbsent(PalangOptions(), Upper(key), 15);
    StripNoSpace(key);
    ShortKeyAbsent(PalangOptions(), StripSectionPrefix(key), 15);
  }

  /** A section prefix with no white space after the dot. */
  lemma StripNoSpace(s: string)
    requires |s| >= 3 && IsSectionLetter(s[0]) && s[1] == '.' && !IsSpace(s[2])
    ensures StripSectionPrefix(s) == s[2..]
  {
  }

  /** A section prefix followed by exactly one white-space character. */
  lemma StripOneSpace(s: string)
    requires |s| >= 4 && IsSectionLetter(s[0]) && s[1] == '.' && IsSpace(s[2]) && !IsSpace(s[3])
    ensures StripSectionPrefix(s) == s[3..]
  {
    assert s[2..][1..] == s[3..];
  }

  lemma ShortKeyAbsent(o: Options, k: string, n: nat)
    requires forall j :: j in o.table ==> |j| <= n
    requires |k| > n
    ensures !HasKey(o, k) && !NonEmptyAt(o, k)
  {
  }

  /** The third fault keyword, "Gangguan Palang", is the first to hit a key. */
  lemma PalangKeywordHit()
    ensures GangguanKeywords("A.Jenis Gangguan - Palang").Some?
    ensures IsFirstKeywordHit(PalangOptions().keys, GangguanKeywords("A.Jenis Gangguan - Palang").value, false, 2, 0)
  {
    var o := PalangOptions();
    assert Upper("Gangguan Palang") == "GANGGUAN PALANG";
    assert Upper("Palang") == "PALANG";
    assert Upper("Jenis Gangguan Palang") == "JENIS GANGGUAN PALANG";
    assert Upper("JENIS GANGGUAN PALANG") == "JENIS GANGGUAN PALANG";
    NotContainsLonger("GANGGUAN PALANG", "JENIS GANGGUAN PALANG");
    NotContainsLonger("PALANG", "JENIS GANGGUAN PALANG");
    assert FirstMatch(o.keys, UpperEqOrContains("Jenis Gangguan Palang")) == None;
    assert FirstMatch(o.keys, UpperEqOrContains("JENIS GANGGUAN PALANG")) == None;
    assert FirstMatch(o.keys, UpperEqOrContains("Gangguan Palang")) == Some(0);
  }
}

=== FILE: recap.dfy ===
/** The recapitulation dialog (src/components/RecapitulationDialog.tsx):
    status, fault and shift counts, grouped counts, the completion
    percentage, the month and year filters, the twelve-month breakdown, the
    year list and the CSV export.

    Each listed record is a field map (`SheetStore.Fields`; an absent field
    reads as ""), paired with its incident date as the caller parsed it. */
module Recap {
  import opened Strings
  import opened SheetStore

  // -------------------------------------------------------------------
  // Counting

  /** `xs.filter(p).length` */
  function CountIf<T>(xs: seq<T>, p: T -> bool): (n: nat)
    ensures n <= |xs|
  {
    if |xs| == 0 then 0 else (if p(xs[0]) then 1 else 0) + CountIf(xs[1..], p)
  }

  function Not<T>(p: T -> bool): T -> bool {
    (x: T) => !p(x)
  }

  /** Every record either passes a filter or its negation. */
  lemma {:induction false} CountComplement<T>(xs: seq<T>, p: T -> bool)
    ensures CountIf(xs, p) + CountIf(xs, Not(p)) == |xs|
  {
    if |xs| > 0 {
      CountComplement(xs[1..], p);
    }
  }

  lemma {:induction false} CountMonotone<T>(xs: seq<T>, p: T -> bool, q: T -> bool)
    requires forall x :: p(x) ==> q(x)
    ensures CountIf(xs, p) <= CountIf(xs, q)
  {
    if |xs| > 0 {
      CountMonotone(xs[1..], p, q);
    }
  }

  lemma {:induction false} CountAll<T>(xs: seq<T>, p: T -> bool)
    requires forall i :: 0 <= i < |xs| ==> p(xs[i])
    ensures CountIf(xs, p) == |xs|
  {
    if |xs| > 0 {
      CountAll(xs[1..], p);
    }
  }

  lemma {:induction false} CountNone<T>(xs: seq<T>, p: T -> bool)
    requires forall i :: 0 <= i < |xs| ==> !p(xs[i])
    ensures CountIf(xs, p) == 0
  {
    if |xs| > 0 {
      CountNone(xs[1..], p);
    }
  }

  lemma CountAppend<T>(xs: seq<T>, ys: seq<T>, p: T -> bool)
    ensures CountIf(xs + ys, p) == CountIf(xs, p) + CountIf(ys, p)
  {
    if |xs| > 0 {
      assert (xs + ys)[1..] == xs[1..] + ys;
      CountAppend(xs[1..], ys, p);
    } else {
      assert xs + ys == ys;
    }
  }

  // -------------------------------------------------------------------
  // Status

  function StatusOf(f: Fields): string { Lower(Get(f, "Status Tindakan")) }

  predicate IsSelesai(f: Fields) { StatusOf(f) == "selesai" }

  predicate IsProses(f: Fields) { StatusOf(f) == "proses" || StatusOf(f) == "dalam proses" }

  /** "pending" in any letter case, or no status at all. */
  predicate IsPending(f: Fields) { StatusOf(f) == "pending" || Get(f, "Status Tindakan") == "" }

  /** A status none of the three buckets takes, such as "Batal". */
  predicate IsUnrecognised(f: Fields) { !IsSelesai(f) && !IsProses(f) && !IsPending(f) }

  /** The three buckets never share a record. */
  lemma StatusBucketsDisjoint(f: Fields)
    ensures !(IsSelesai(f) && IsProses(f))
    ensures !(IsSelesai(f) && IsPending(f))
    ensures !(IsProses(f) && IsPending(f))
  {
    if Get(f, "Status Tindakan") == "" {
      assert StatusOf(f) == "";
    }
  }

  /** The buckets and the unrecognised rest partition the records. */
  lemma {:induction false} StatusPartition(xs: seq<Fields>)
    ensures CountIf(xs, IsSelesai) + CountIf(xs, IsProses) + CountIf(xs, IsPending)
            + CountIf(xs, IsUnrecognised) == |xs|
  {
    if |xs| > 0 {
      StatusBucketsDisjoint(xs[0]);
      StatusPartition(xs[1..]);
    }
  }

  /** "Batal" is counted in no bucket; an empty status counts as pending. */
  lemma StatusExamples()
    ensures IsUnrecognised(map["Status Tindakan" := "Batal"])
    ensures IsPending(map[])
    ensures IsProses(map["Status Tindakan" := "Dalam Proses"])
    ensures IsSelesai(map["Status Tindakan" := "SELESAI"])
  {
    var f: Fields := map["Status Tindakan" := "Batal"];
    assert StatusOf(f) == "batal";
    assert StatusOf(map["Status Tindakan" := "Dalam Proses"]) == "dalam proses";
    assert StatusOf(map["Status Tindakan" := "SELESAI"]) == "selesai";
  }

  // -------------------------------------------------------------------
  // Fault categories and shifts

  const FaultPalang := "A.Jenis Gangguan - Palang"
  const FaultReader := "B.Jenis Gangguan Reader / Periferal"
  const FaultSistem := "C. Jenis Gangguan - Sistim"
  const FaultListrik := "D. Jenis Gangguan - Kelistrikan"

  /** The record names a fault in that category: the field is set and not "-". */
  predicate HasFault(f: Fields, column: string) {
    Get(f, column) != "" && Get(f, column) != "-"
  }

  function FaultFilter(column: string): Fields -> bool {
    (f: Fields) => HasFault(f, column)
  }

  /** Records without a fault in the category: the field is empty or "-". */
  lemma FaultComplement(xs: seq<Fields>, column: string)
    ensures CountIf(xs, FaultFilter(column)) + CountIf(xs, f => Get(f, column) == "" || Get(f, column) == "-") == |xs|
  {
    CountComplement(xs, FaultFilter(column));
    CountSame(xs, Not(FaultFilter(column)), f => Get(f, column) == "" || Get(f, column) == "-");
  }

  lemma {:induction false} CountSame<T>(xs: seq<T>, p: T -> bool, q: T -> bool)
    requires forall x :: p(x) == q(x)
    ensures CountIf(xs, p) == CountIf(xs, q)
  {
    CountMonotone(xs, p, q);
    CountMonotone(xs, q, p);
  }

  /** The shift field in lower case ("" when absent). */
  function ShiftOf(f: Fields): string { Lower(Get(f, "Shift Kejadian")) }

  predicate ShiftI(s: string) {
    Contains(s, "i (") || Contains(s, "i(") || s == "i" || Contains(s, "satu")
  }

  predicate ShiftII(s: string) {
    Contains(s, "ii (") || Contains(s, "ii(") || s == "ii" || Contains(s, "dua")
  }

  predicate ShiftIII(s: string) {
    Contains(s, "iii (") || Contains(s, "iii(") || s == "iii" || Contains(s, "tiga")
  }

  /** Anything the third shift test takes, the second takes too, and anything
      the second takes written with a parenthesis, the first takes: the
      tests are nested, not exclusive. */
  lemma ShiftTestsNest(s: string)
    ensures Contains(s, "iii (") ==> ShiftII(s) && ShiftI(s)
    ensures Contains(s, "ii (") ==> ShiftI(s)
  {
    if Contains(s, "iii (") {
      OccursFromIff(s, "iii (", 0);
      var k :| 0 <= k && MatchesAt(s, "iii (", k);
      assert s[k + 1..k + 5] == "ii (";
      assert MatchesAt(s, "ii (", k + 1);
      ContainsAt(s, "ii (", k + 1);
    }
    if Contains(s, "ii (") {
      OccursFromIff(s, "ii (", 0);
      var k :| 0 <= k && MatchesAt(s, "ii (", k);
      assert s[k + 1..k + 4] == "i (";
      assert MatchesAt(s, "i (", k + 1);
      ContainsAt(s, "i (", k + 1);
    }
  }

  /** "III (Tiga)" is counted in all three shifts. */
  lemma ShiftThreeCountsThrice()
    ensures var s := Lower("III (Tiga)");
      ShiftI(s) && ShiftII(s) && ShiftIII(s)
  {
    var s := Lower("III (Tiga)");
    assert s == "iii (tiga)";
    assert MatchesAt(s, "iii (", 0);
    ContainsAt(s, "iii (", 0);
    ShiftTestsNest(s);
  }

  /** "II (Dua)" is counted in the first and second shift, not the third. */
  lemma ShiftTwoCountsTwice()
    ensures var s := Lower("II (Dua)");
      ShiftI(s) && ShiftII(s) && !ShiftIII(s)
  {
    var s := Lower("II (Dua)");
    assert s == "ii (dua)";
    assert MatchesAt(s, "ii (", 0);
    ContainsAt(s, "ii (", 0);
    ShiftTestsNest(s);
    assert !Contains(s, "iii (");
    assert !Contains(s, "iii(");
    NotContainsByChar(s, "tiga", 't');
  }

  /** A bare "iii" is counted in the third shift only. */
  lemma BareThreeCountsOnce()
    ensures ShiftIII("iii") && !ShiftII("iii") && !ShiftI("iii")
  {
    NotContainsByChar("iii", "i (", '(');
    NotContainsByChar("iii", "i(", '(');
    NotContainsByChar("iii", "satu", 's');
    NotContainsByChar("iii", "ii (", '(');
    NotContainsByChar("iii", "ii(", '(');
    NotContainsByChar("iii", "dua", 'd');
  }

  /** "I ( satu )" is counted in the first shift only. */
  lemma ShiftOneSpacedCountsOnce()
    ensures var s := Lower("I ( satu )");
      ShiftI(s) && !ShiftII(s) && !ShiftIII(s)
  {
    var s := Lower("I ( satu )");
    assert s == "i ( satu )";
    assert MatchesAt(s, "i (", 0);
    ContainsAt(s, "i (", 0);
    assert !Contains(s, "ii (");
    assert !Contains(s, "ii(");
    NotContainsByChar(s, "dua", 'd');
    assert !Contains(s, "iii (");
    assert !Contains(s, "iii(");
    NotContainsByChar(s, "tiga", 'g');
  }

  function ShiftFilter(which: nat): Fields -> bool
    requires 1 <= which <= 3
  {
    (f: Fields) => if which == 1 then ShiftI(ShiftOf(f)) else if which == 2 then ShiftII(ShiftOf(f)) else ShiftIII(ShiftOf(f))
  }

  // -------------------------------------------------------------------
  // Grouped counts

  /** Counts per value in first-seen order (a JavaScript object of counters). */
  type Groups = seq<(string, nat)>

  const Unknown := "Tidak Diketahui"

  /** `d[column] || 'Tidak Diketahui'` */
  function GroupKey(f: Fields, column: string): (k: string)
    ensures k != ""
  {
    if Get(f, column) == "" then Unknown else Get(f, column)
  }

  predicate Counted(f: Fields, column: string) { GroupKey(f, column) != "-" }

  predicate GroupKeysDistinct(g: Groups) {
    forall i, j :: 0 <= i < j < |g| ==> g[i].0 != g[j].0
  }

  /** Position of the counter for `k`, if there is one. */
  function GroupIndex(g: Groups, k: string): (r: Option<nat>)
    ensures r.Some? ==> r.value < |g| && g[r.value].0 == k
    ensures r.None? ==> forall i :: 0 <= i < |g| ==> g[i].0 != k
  {
    if |g| == 0 then None
    else if g[0].0 == k then Some(0)
    else match GroupIndex(g[1..], k)
      case None =>
        assert forall i :: 1 <= i < |g| ==> g[i] == g[1..][i - 1];
        None
      case Some(j) =>
        assert g[j + 1] == g[1..][j];
        Some(j + 1)
  }

  function SumCounts(g: Groups): nat {
    if |g| == 0 then 0 else g[0].1 + SumCounts(g[1..])
  }

  lemma {:induction false} SumCountsUpdate(g: Groups, i: nat, v: nat)
    requires i < |g|
    ensures SumCounts(g[i := (g[i].0, v)]) + g[i].1 == SumCounts(g) + v
  {
    if i > 0 {
      assert g[i := (g[i].0, v)][1..] == g[1..][i - 1 := (g[i].0, v)];
      SumCountsUpdate(g[1..], i - 1, v);
    }
  }

  lemma {:induction false} SumCountsAppend(g: Groups, e: (string, nat))
    ensures SumCounts(g + [e]) == SumCounts(g) + e.1
  {
    if |g| > 0 {
      assert (g + [e])[1..] == g[1..] + [e];
      SumCountsAppend(g[1..], e);
    } else {
      assert (g + [e])[1..] == [];
    }
  }

  /** `stats[key] = (stats[key] || 0) + 1`: an existing counter grows in
      place, a new one is appended with 1. */
  function Bump(g: Groups, key: string): (g': Groups)
    requires GroupKeysDistinct(g)
    ensures GroupKeysDistinct(g')
    ensures SumCounts(g') == SumCounts(g) + 1
    ensures |g'| == |g| || (|g'| == |g| + 1 && g'[|g|] == (key, 1) && GroupIndex(g, key).None?)
    ensures forall i :: 0 <= i < |g| ==> g'[i].0 == g[i].0
    ensures forall i :: 0 <= i < |g| ==> g'[i].1 == g[i].1 + (if g[i].0 == key then 1 else 0)
  {
    match GroupIndex(g, key)
    case Some(i) =>
      SumCountsUpdate(g, i, g[i].1 + 1);
      g[i := (key, g[i].1 + 1)]
    case None =>
      SumCountsAppend(g, (key, 1));
      g + [(key, 1)]
  }

  /** The grouped counts of one column over `xs`, in first-seen order. */
  function GroupCounts(xs: seq<Fields>, column: string): (g: Groups)
    ensures GroupKeysDistinct(g)
    decreases |xs|
  {
    if |xs| == 0 then []
    else
      var g := GroupCounts(xs[..|xs| - 1], column);
      var f := xs[|xs| - 1];
      if Counted(f, column) then Bump(g, GroupKey(f, column)) else g
  }

  function KeyFilter(column: string, k: string): Fields -> bool {
    (f: Fields) => GroupKey(f, column) == k
  }

  function CountedFilter(column: string): Fields -> bool {
    (f: Fields) => Counted(f, column)
  }

  lemma CountIfSnoc<T>(xs: seq<T>, p: T -> bool)
    requires |xs| > 0
    ensures CountIf(xs, p) == CountIf(xs[..|xs| - 1], p) + (if p(xs[|xs| - 1]) then 1 else 0)
  {
    CountAppend(xs[..|xs| - 1], [xs[|xs| - 1]], p);
    assert xs[..|xs| - 1] + [xs[|xs| - 1]] == xs;
  }

  /** The grouped counts are exact: each stored counter is the number of
      records with that value, every counter is at least 1, neither "-" nor
      "" is a key, and the counters add up to the records whose field is
      not "-" (an empty field counts under "Tidak Diketahui"). */
  lemma {:induction false} GroupCountsExact(xs: seq<Fields>, column: string)
    ensures var g := GroupCounts(xs, column);
      && SumCounts(g) == CountIf(xs, CountedFilter(column))
      && (forall i :: 0 <= i < |g| ==> g[i].1 == CountIf(xs, KeyFilter(column, g[i].0)))
      && (forall i :: 0 <= i < |g| ==> g[i].1 >= 1 && g[i].0 != "-" && g[i].0 != "")
    decreases |xs|
  {
    var g := GroupCounts(xs, column);
    if |xs| > 0 {
      var init := xs[..|xs| - 1];
      var f := xs[|xs| - 1];
      GroupCountsExact(init, column);
      var g0 := GroupCounts(init, column);
      var key := GroupKey(f, column);
      CountIfSnoc(xs, CountedFilter(column));
      forall i | 0 <= i < |g|
        ensures g[i].1 == CountIf(xs, KeyFilter(column, g[i].0))
        ensures g[i].1 >= 1 && g[i].0 != "-" && g[i].0 != ""
      {
        CountIfSnoc(xs, KeyFilter(column, g[i].0));
        if Counted(f, column) && i == |g0| {
          GroupAbsentCountZero(init, column, key);
        }
      }
    }
  }

  /** A value with no counter has never been seen among counted records. */
  lemma {:induction false} GroupAbsentCountZero(xs: seq<Fields>, column: string, k: string)
    requires k != "-"
    requires GroupIndex(GroupCounts(xs, column), k).None?
    ensures CountIf(xs, KeyFilter(column, k)) == 0
    decreases |xs|
  {
    if |xs| > 0 {
      var init := xs[..|xs| - 1];
      CountIfSnoc(xs, KeyFilter(column, k));
      GroupAbsentCountZero(init, column, k);
    }
  }

  // -------------------------------------------------------------------
  // Completion rate

  /** `Math.round(selesai / total * 100)`, or 0 with no records: the integer
      nearest to the percentage, halves rounded up. */
  function CompletionRate(selesai: nat, total: nat): (r: nat)
    requires selesai <= total
    ensures total == 0 ==> r == 0
    ensures r <= 100
    ensures total > 0 ==> r * (2 * total) <= 200 * selesai + total < r * (2 * total) + 2 * total
  {
    if total == 0 then 0
    else
      var a, d := 200 * selesai + total, 2 * total;
      DivBounds(a, d);
      assert a < 101 * d;
      MulLtCancel(a / d, 101, d);
      a / d
  }

  /** The quotient brackets the dividend. */
  lemma DivBounds(a: nat, d: nat)
    requires d > 0
    ensures (a / d) * d <= a < (a / d) * d + d
  {
  }

  lemma MulLtCancel(x: int, y: int, d: int)
    requires d > 0 && x * d < y * d
    ensures x < y
  {
  }

  lemma CompletionRateEnds(total: nat)
    ensures total > 0 ==> CompletionRate(total, total) == 100
    ensures CompletionRate(0, total) == 0
  {
    if total > 0 {
      DivBetween(200 * total + total, 2 * total, 100);
      DivBetween(total, 2 * total, 0);
    }
  }

  lemma DivBetween(a: int, d: int, q: int)
    requires d > 0 && q * d <= a < (q + 1) * d
    ensures a / d == q
  {
    var r := a / d;
    assert a == r * d + a % d && 0 <= a % d < d;
    assert (r - q) * d == r * d - q * d;
    assert (q - r) * d == q * d - r * d;
    LessThanOneMultiple(r - q, d);
    LessThanOneMultiple(q - r, d);
  }

  lemma CompletionRateMonotone(s1: nat, s2: nat, total: nat)
    requires s1 <= s2 <= total
    ensures CompletionRate(s1, total) <= CompletionRate(s2, total)
  {
    if total > 0 {
      DivMonotone(200 * s1 + total, 200 * s2 + total, 2 * total);
    }
  }

  lemma DivMonotone(a: nat, b: nat, d: nat)
    requires a <= b && d > 0
    ensures a / d <= b / d
  {
    var qa, qb := a / d, b / d;
    var ra, rb := a % d, b % d;
    assert qa * d + ra <= qb * d + rb;
    assert (qa - qb) * d < d;
    LessThanOneMultiple(qa - qb, d);
  }

  lemma LessThanOneMultiple(x: int, d: int)
    requires d > 0 && x * d < d
    ensures x < 1
  {
  }

  // -------------------------------------------------------------------
  // Dates, filters, breakdown and years

  /** The incident date as `new Date(...)` would read it: no date, an
      invalid one, or a year and a month 1..12. */
  datatype ParsedDate = Unparsed | On(year: int, month: int)

  predicate ValidDate(d: ParsedDate) {
    d.On? ==> 1 <= d.month <= 12
  }

  datatype Entry = Entry(fields: Fields, date: ParsedDate)

  predicate ValidEntries(es: seq<Entry>) {
    forall i :: 0 <= i < |es| ==> ValidDate(es[i].date)
  }

  function FieldsOf(es: seq<Entry>): (fs: seq<Fields>)
    ensures |fs| == |es| && forall i :: 0 <= i < |es| ==> fs[i] == es[i].fields
  {
    seq(|es|, i requires 0 <= i < |es| => es[i].fields)
  }

  function Filter<T>(xs: seq<T>, p: T -> bool): (r: seq<T>)
    ensures |r| == CountIf(xs, p)
    ensures forall i :: 0 <= i < |r| ==> r[i] in xs && p(r[i])
    ensures forall i :: 0 <= i < |xs| && p(xs[i]) ==> xs[i] in r
  {
    if |xs| == 0 then [] else (if p(xs[0]) then [xs[0]] else []) + Filter(xs[1..], p)
  }

  predicate InYear(e: Entry, year: int) { e.date.On? && e.date.year == year }

  predicate InMonth(e: Entry, month: int, year: int) { InYear(e, year) && e.date.month == month }

  /** `monthlyData`: records dated in the selected month of the selected year. */
  function MonthlyData(es: seq<Entry>, month: int, year: int): seq<Entry> {
    Filter(es, MonthYearFilter(month, year))
  }

  function MonthYearFilter(month: int, year: int): Entry -> bool {
    (e: Entry) => InMonth(e, month, year)
  }

  function YearFilter(year: int): Entry -> bool {
    (e: Entry) => InYear(e, year)
  }

  /** `yearlyData`: records dated in the selected year. */
  function YearlyData(es: seq<Entry>, year: int): seq<Entry> {
    Filter(es, YearFilter(year))
  }

  /** A month's records are among its year's records. */
  lemma MonthWithinYear(es: seq<Entry>, month: int, year: int)
    ensures |MonthlyData(es, month, year)| <= |YearlyData(es, year)|
    ensures forall e :: e in MonthlyData(es, month, year) ==> e in YearlyData(es, year)
  {
    CountMonotone(es, MonthYearFilter(month, year), YearFilter(year));
  }

  const MonthLabels: seq<string> := ["Januari", "Februari", "Maret", "April", "Mei", "Juni",
    "Juli", "Agustus", "September", "Oktober", "November", "Desember"]

  datatype MonthRow = MonthRow(month: string, total: nat, selesai: nat)

  function MonthFilter(m: int): Entry -> bool {
    (e: Entry) => e.date.On? && e.date.month == m
  }

  function SelesaiInMonth(m: int): Entry -> bool {
    (e: Entry) => e.date.On? && e.date.month == m && IsSelesai(e.fields)
  }

  /** `monthlyBreakdown` over the yearly records. */
  function MonthlyBreakdown(yearly: seq<Entry>): (rows: seq<MonthRow>)
    ensures |rows| == 12
    ensures forall m :: 0 <= m < 12 ==> rows[m].month == MonthLabels[m]
    ensures forall m :: 0 <= m < 12 ==> rows[m].selesai <= rows[m].total
  {
    assert forall m :: 1 <= m <= 12 ==> CountIf(yearly, SelesaiInMonth(m)) <= CountIf(yearly, MonthFilter(m)) by {
      forall m | 1 <= m <= 12 {
        CountMonotone(yearly, SelesaiInMonth(m), MonthFilter(m));
      }
    }
    seq(12, m requires 0 <= m < 12 =>
      MonthRow(MonthLabels[m], CountIf(yearly, MonthFilter(m + 1)), CountIf(yearly, SelesaiInMonth(m + 1))))
  }

  function SumTotals(rows: seq<MonthRow>): nat {
    if |rows| == 0 then 0 else rows[0].total + SumTotals(rows[1..])
  }

  /** Number of records dated in one of the months `lo..hi` - 1. */
  function MonthsUpTo(es: seq<Entry>, lo: int, hi: int): nat
    decreases hi - lo
  {
    if hi <= lo then 0 else CountIf(es, MonthFilter(lo)) + MonthsUpTo(es, lo + 1, hi)
  }

  /** The twelve month totals add up to the dated records: with valid dates,
      the yearly count. */
  lemma {:induction false} BreakdownSumsToYear(es: seq<Entry>, year: int)
    requires ValidEntries(es)
    ensures SumTotals(MonthlyBreakdown(YearlyData(es, year))) == |YearlyData(es, year)|
  {
    var y := YearlyData(es, year);
    var rows := MonthlyBreakdown(y);
    forall i | 0 <= i < |y|
      ensures y[i].date.On? && 1 <= y[i].date.month <= 12
    {
      assert y[i] in es;
    }
    SumTotalsIsMonths(rows, y, 0);
    MonthsUpToRange(y, 1, 13);
    CountAll(y, MonthRange(1, 13));
  }

  lemma {:induction false} SumTotalsIsMonths(rows: seq<MonthRow>, y: seq<Entry>, k: nat)
    requires rows == MonthlyBreakdown(y) && k <= 12
    ensures SumTotals(rows[k..]) == MonthsUpTo(y, k + 1, 13)
    decreases 12 - k
  {
    if k < 12 {
      assert rows[k..][1..] == rows[k + 1..];
      SumTotalsIsMonths(rows, y, k + 1);
    } else {
      assert rows[k..] == [];
    }
  }

  function MonthRange(lo: int, hi: int): Entry -> bool {
    (e: Entry) => e.date.On? && lo <= e.date.month < hi
  }

  /** The per-month counts of the months `lo..hi - 1` add up to the records
      dated in one of those months. */
  lemma {:induction false} MonthsUpToRange(es: seq<Entry>, lo: int, hi: int)
    ensures MonthsUpTo(es, lo, hi) == CountIf(es, MonthRange(lo, hi))
    decreases hi - lo
  {
    if hi <= lo {
      CountNone(es, MonthRange(lo, hi));
    } else {
      MonthsUpToRange(es, lo + 1, hi);
      CountDisjointUnion(es, MonthFilter(lo), MonthRange(lo + 1, hi), MonthRange(lo, hi));
    }
  }

  lemma {:induction false} CountDisjointUnion<T>(xs: seq<T>, p: T -> bool, q: T -> bool, r: T -> bool)
    requires forall x :: r(x) == (p(x) || q(x))
    requires forall x :: !(p(x) && q(x))
    ensures CountIf(xs, r) == CountIf(xs, p) + CountIf(xs, q)
  {
    if |xs| > 0 {
      CountDisjointUnion(xs[1..], p, q, r);
    }
  }

  /** Insert into a strictly descending list, keeping it strictly descending
      (`Set` plus `sort((a, b) => b - a)`). */
  function InsertDesc(ys: seq<int>, y: int): (r: seq<int>)
    requires StrictlyDescending(ys)
    ensures StrictlyDescending(r)
    ensures forall v :: v in r <==> v in ys || v == y
  {
    if |ys| == 0 then [y]
    else if y == ys[0] then ys
    else if y > ys[0] then [y] + ys
    else
      var rest := InsertDesc(ys[1..], y);
      assert forall i :: 0 <= i < |rest| ==> rest[i] < ys[0] by {
        forall i | 0 <= i < |rest|
          ensures rest[i] < ys[0]
        {
          assert rest[i] in rest;
          if rest[i] != y {
            var k :| 0 <= k < |ys[1..]| && ys[1..][k] == rest[i];
            assert ys[k + 1] == rest[i];
          }
        }
      }
      [ys[0]] + rest
  }

  predicate StrictlyDescending(ys: seq<int>) {
    forall i, j :: 0 <= i < j < |ys| ==> ys[i] > ys[j]
  }

  /** The years of the dated records, seen so far. */
  function YearsOf(es: seq<Entry>): (ys: seq<int>)
    ensures StrictlyDescending(ys)
    ensures forall y :: y in ys <==> exists i :: 0 <= i < |es| && InYear(es[i], y)
  {
    if |es| == 0 then []
    else
      var ys := YearsOf(es[..|es| - 1]);
      assert forall i :: 0 <= i < |es| - 1 ==> es[..|es| - 1][i] == es[i];
      var e := es[|es| - 1];
      if e.date.On? then InsertDesc(ys, e.date.year) else ys
  }

  /** `years`: every year some record is dated in, plus the current year,
      newest first and without repeats. */
  function Years(es: seq<Entry>, currentYear: int): (ys: seq<int>)
    ensures StrictlyDescending(ys)
    ensures currentYear in ys
    ensures forall y :: y in ys <==> y == currentYear || exists i :: 0 <= i < |es| && InYear(es[i], y)
  {
    InsertDesc(YearsOf(es), currentYear)
  }

  // -------------------------------------------------------------------
  // Statistics

  datatype Stats = Stats(
    total: nat, selesai: nat, proses: nat, pending: nat,
    gangguanPalang: nat, gangguanReader: nat, gangguanSistem: nat, gangguanListrik: nat,
    shiftI: nat, shiftII: nat, shiftIII: nat,
    garduStats: Groups, lokasiStats: Groups, ksptStats: Groups, pultolStats: Groups,
    completionRate: nat)

  /** `calculateStats` over one filtered set of records. */
  function CalculateStats(xs: seq<Fields>): (s: Stats)
    ensures s.total == |xs|
    ensures s.selesai + s.proses + s.pending <= s.total
    ensures s.gangguanPalang <= s.total && s.gangguanReader <= s.total
    ensures s.gangguanSistem <= s.total && s.gangguanListrik <= s.total
    ensures s.shiftI <= s.total && s.shiftII <= s.total && s.shiftIII <= s.total
    ensures s.completionRate <= 100
    ensures s.total == 0 ==> s.completionRate == 0
    ensures s.total > 0 && s.selesai == s.total ==> s.completionRate == 100
  {
    StatusPartition(xs);
    var selesai := CountIf(xs, IsSelesai);
    var proses := CountIf(xs, IsProses);
    var pending := CountIf(xs, IsPending);
    var palang := CountIf(xs, FaultFilter(FaultPalang));
    var reader := CountIf(xs, FaultFilter(FaultReader));
    var sistem := CountIf(xs, FaultFilter(FaultSistem));
    var listrik := CountIf(xs, FaultFilter(FaultListrik));
    var s1 := CountIf(xs, ShiftFilter(1));
    var s2 := CountIf(xs, ShiftFilter(2));
    var s3 := CountIf(xs, ShiftFilter(3));
    var rate := CompletionRate(selesai, |xs|);
    CompletionRateEnds(|xs|);
    Stats(|xs|, selesai, proses, pending, palang, reader, sistem, listrik, s1, s2, s3,
      GroupCounts(xs, "Gardu Kejadian"), GroupCounts(xs, "Lokasi Kejadian"),
      GroupCounts(xs, "PETUGAS KSPT"), GroupCounts(xs, "PETUGAS PULTOL"), rate)
  }

  // -------------------------------------------------------------------
  // CSV export

  const CsvHeaders: seq<string> := ["No", "Tanggal", "Waktu", "Shift", "Gardu", "Lokasi", "Petugas KSPT",
    "Petugas PulTol", "Status", "G. Palang", "G. Reader", "G. Sistem", "G. Listrik"]

  /** The record fields exported, in column order after the running number. */
  const CsvFields: seq<string> := ["Tanggal Kejadian", "Waktu Kejadian", "Shift Kejadian", "Gardu Kejadian",
    "Lokasi Kejadian", "PETUGAS KSPT", "PETUGAS PULTOL", "Status Tindakan", FaultPalang, FaultReader,
    FaultSistem, FaultListrik]

  /** The 13 cells of the record at 0-based position `index`. */
  function CsvCells(index: nat, f: Fields): (cells: seq<string>)
    ensures |cells| == |CsvHeaders| == 13
    ensures cells[0] == Decimal(index + 1)
    ensures forall k :: 1 <= k < 13 ==> cells[k] == Get(f, CsvFields[k - 1])
  {
    [Decimal(index + 1)] + seq(12, k requires 0 <= k < 12 => Get(f, CsvFields[k]))
  }

  /** `"${cell}"`: wrapped in double quotes, nothing escaped. */
  function Quote(cell: string): (q: string)
    ensures |q| == |cell| + 2 && q[0] == '"' && q[|q| - 1] == '"' && q[1..|q| - 1] == cell
  {
    "\"" + cell + "\""
  }

  function QuoteAll(cells: seq<string>): (qs: seq<string>)
    ensures |qs| == |cells| && forall k :: 0 <= k < |cells| ==> qs[k] == Quote(cells[k])
  {
    seq(|cells|, k requires 0 <= k < |cells| => Quote(cells[k]))
  }

  function DataLine(index: nat, f: Fields): string {
    Join(QuoteAll(CsvCells(index, f)), ",")
  }

  /** `headers.join(',')`: the header line, not quoted. */
  function HeaderLine(): string {
    Join(CsvHeaders, ",")
  }

  function DataLines(xs: seq<Fields>): (lines: seq<string>)
    ensures |lines| == |xs|
    ensures forall i :: 0 <= i < |xs| ==> lines[i] == DataLine(i, xs[i])
  {
    seq(|xs|, i requires 0 <= i < |xs| => DataLine(i, xs[i]))
  }

  function CsvLines(xs: seq<Fields>): (lines: seq<string>)
    ensures |lines| == |xs| + 1
    ensures lines[0] == HeaderLine()
    ensures lines[1..] == DataLines(xs)
  {
    [HeaderLine()] + DataLines(xs)
  }

  /** `exportToCSV`: nothing for no records, otherwise the header line and
      one line per record joined with "\n". */
  function ExportCsv(xs: seq<Fields>): (r: Option<string>)
    ensures r.None? <==> |xs| == 0
  {
    if |xs| == 0 then None else Some(Join(CsvLines(xs), "\n"))
  }

  /** No exported text holds the separator. */
  predicate FreeOf(f: Fields, c: char) {
    forall k :: 0 <= k < |CsvFields| ==> c !in Get(f, CsvFields[k])
  }

  lemma DecimalFreeOf(n: nat, c: char)
    requires !IsDigit(c)
    ensures c !in Decimal(n)
  {
    DecimalDigits(n);
  }

  lemma JoinFreeOf(cells: seq<string>, sep: string, c: char)
    requires c !in sep && forall k :: 0 <= k < |cells| ==> c !in cells[k]
    ensures c !in Join(cells, sep)
  {
    if |cells| > 1 {
      JoinFreeOf(cells[1..], sep, c);
    }
  }

  /** When no exported field holds a line break, the export splits back into
      exactly one header line and one line per record, in order. */
  lemma CsvLineCount(xs: seq<Fields>)
    requires |xs| > 0
    requires forall i :: 0 <= i < |xs| ==> FreeOf(xs[i], '\n')
    ensures Split(ExportCsv(xs).value, '\n') == CsvLines(xs)
    ensures |Split(ExportCsv(xs).value, '\n')| == |xs| + 1
  {
    CsvLinesUnbroken(xs);
    SplitJoin(CsvLines(xs), '\n');
  }

  lemma CsvLinesUnbroken(xs: seq<Fields>)
    requires forall i :: 0 <= i < |xs| ==> FreeOf(xs[i], '\n')
    ensures forall j :: 0 <= j < |CsvLines(xs)| ==> '\n' !in CsvLines(xs)[j]
  {
    var lines := CsvLines(xs);
    forall j | 0 <= j < |lines|
      ensures '\n' !in lines[j]
    {
      if j == 0 {
        HeaderLineUnbroken();
      } else {
        assert lines[j] == DataLines(xs)[j - 1];
        DataLineFreeOf(j - 1, xs[j - 1], '\n');
      }
    }
  }

  lemma HeaderLineUnbroken()
    ensures '\n' !in HeaderLine()
  {
    assert forall k :: 0 <= k < |CsvHeaders| ==> '\n' !in CsvHeaders[k];
    JoinFreeOf(CsvHeaders, ",", '\n');
  }

  lemma DataLineFreeOf(index: nat, f: Fields, c: char)
    requires FreeOf(f, c) && c != '"' && c != ',' && !IsDigit(c)
    ensures c !in DataLine(index, f)
  {
    var cells := CsvCells(index, f);
    DecimalFreeOf(index + 1, c);
    forall k | 0 <= k < 13
      ensures c !in Quote(cells[k])
    {
      assert Quote(cells[k]) == ['"'] + cells[k] + ['"'];
    }
    JoinFreeOf(QuoteAll(cells), ",", c);
  }

  /** When no exported field holds a comma or a quote, a data line splits on
      commas into its 13 quoted cells; unquoting them gives the running
      number, which reads back as `index + 1`, and the 12 field values. */
  lemma DataLineCells(index: nat, f: Fields)
    requires FreeOf(f, ',') && FreeOf(f, '"')
    ensures var parts := Split(DataLine(index, f), ',');
      && |parts| == 13
      && (forall k :: 0 <= k < 13 ==> |parts[k]| >= 2 && parts[k][0] == '"' && parts[k][|parts[k]| - 1] == '"')
      && parts[0][1..|parts[0]| - 1] == Decimal(index + 1)
      && AllDigits(parts[0][1..|parts[0]| - 1])
      && DigitsValue(parts[0][1..|parts[0]| - 1]) == index + 1
      && (forall k :: 1 <= k < 13 ==> parts[k][1..|parts[k]| - 1] == Get(f, CsvFields[k - 1]))
  {
    var cells := CsvCells(index, f);
    var qs := QuoteAll(cells);
    DecimalFreeOf(index + 1, ',');
    DecimalDigits(index + 1);
    forall k | 0 <= k < 13
      ensures ',' !in qs[k]
    {
      assert qs[k] == ['"'] + cells[k] + ['"'];
    }
    SplitJoin(qs, ',');
  }

  /** Quotes inside a field are not doubled (section 2, rule 7 of RFC 4180 is
      not met), so two different records can export the same line: a quote
      and comma typed into the date field reads as a cell boundary. */
  lemma CsvNotInjective(index: nat, base: Fields)
    ensures var a := base["Tanggal Kejadian" := "1\",\"2"]["Waktu Kejadian" := "3"];
      var b := base["Tanggal Kejadian" := "1"]["Waktu Kejadian" := "2\",\"3"];
      a != b && DataLine(index, a) == DataLine(index, b)
  {
    var a := base["Tanggal Kejadian" := "1\",\"2"]["Waktu Kejadian" := "3"];
    var b := base["Tanggal Kejadian" := "1"]["Waktu Kejadian" := "2\",\"3"];
    assert a["Tanggal Kejadian"] != b["Tanggal Kejadian"];
    forall k | 2 <= k < 12
      ensures Get(a, CsvFields[k]) == Get(b, CsvFields[k])
    {
      assert CsvFields[k] != "Tanggal Kejadian" && CsvFields[k] != "Waktu Kejadian";
    }
    assert Get(a, CsvFields[0]) == "1\",\"2" && Get(a, CsvFields[1]) == "3";
    assert Get(b, CsvFields[0]) == "1" && Get(b, CsvFields[1]) == "2\",\"3";
    QuotedCellsMerge(index, a, b);
  }

  /** Records whose first two exported fields, quoted and joined by a comma,
      give the same text, and whose other exported fields agree, export the
      same line. */
  lemma QuotedCellsMerge(index: nat, a: Fields, b: Fields)
    requires forall k :: 2 <= k < 12 ==> Get(a, CsvFields[k]) == Get(b, CsvFields[k])
    requires Quote(Get(a, CsvFields[0])) + "," + Quote(Get(a, CsvFields[1]))
      == Quote(Get(b, CsvFields[0])) + "," + Quote(Get(b, CsvFields[1]))
    ensures DataLine(index, a) == DataLine(index, b)
  {
    var ca := QuoteAll(CsvCells(index, a));
    var cb := QuoteAll(CsvCells(index, b));
    assert ca[3..] == cb[3..];
    JoinTwoAndRest(ca, cb);
  }

  /** Lines that agree except for the two cells after the first, whose joint
      text with the comma between them is equal, are equal. */
  lemma JoinTwoAndRest(ca: seq<string>, cb: seq<string>)
    requires |ca| == |cb| == 13 && ca[0] == cb[0] && ca[3..] == cb[3..]
    requires ca[1] + "," + ca[2] == cb[1] + "," + cb[2]
    ensures Join(ca, ",") == Join(cb, ",")
  {
    assert ca[1..][1..] == ca[2..];
    assert cb[1..][1..] == cb[2..];
    assert ca[2..][1..] == ca[3..];
    assert cb[2..][1..] == cb[3..];
    var rest := Join(ca[3..], ",");
    assert Join(ca[1..], ",") == ca[1] + "," + (ca[2] + "," + rest);
    assert Join(cb[1..], ",") == cb[1] + "," + (cb[2] + "," + rest);
    assert ca[1] + "," + (ca[2] + "," + rest) == (ca[1] + "," + ca[2]) + "," + rest;
    assert cb[1] + "," + (cb[2] + "," + rest) == (cb[1] + "," + cb[2]) + "," + rest;
  }
}

=== FILE: report.dfy ===
/** The report compiler behind `POST /api/generate-pdf`
    (src/app/api/generate-pdf/route.ts).

    It covers four things:
    - how a stored photo reference becomes a file for the document;
    - how each field value is cleaned before it is printed (`safe_get` in
      the embedded script);
    - which sections and table rows the document holds, and in which order;
    - the photo block's layout, and the name and URL of the produced file.

    The document is a value. File writes, the script run and the rendering
    are outcomes supplied from outside.  A Drive or web photo is never
    fetched: the download throws first, and the route answers 500. */
module Report {
  import opened Strings
  import opened SheetStore

  // ---------------------------------------------------------------------
  // Photo references (`downloadImage`)

  /** What a stored photo reference names, in the order the branches are tried. */
  datatype PhotoSource =
    | NoPhoto
    | Inline(payload: string)   // base64 text of a `data:image` URL
    | LocalFile(path: string)   // below /uploads/ or /reports/ of the public directory
    | Drive(fileId: string)
    | Web(url: string)
    | Unsupported

  // The Drive URLs are written in pieces, split around each `i`: proofs
  // about which characters they hold then stay small.
  const DriveHost := "dr" + "i" + "ve.google.com"
  const DriveLinkStem := "https://" + DriveHost + "/uc?export="
  const DriveDownloadPrefix := DriveLinkStem + "download&" + "id="
  /** The view URL the upload route stores (src/app/api/upload/route.ts:100). */
  const DriveViewPrefix := DriveLinkStem + "v" + "i" + "ew&" + "id="

  /** The Drive file id of a link: after the first `id=` up to `&` (and up to a
      second `id=`, as `split` cuts there too); failing that, after the first
      `/d/` up to `/`; failing both, empty. */
  function DriveFileId(url: string): string {
    if Contains(url, "id=") then
      IndexFromSpec(url, "id=", 0);
      Before(SecondPiece(url, "id=").value, "&")
    else if Contains(url, "/d/") then
      IndexFromSpec(url, "/d/", 0);
      Before(SecondPiece(url, "/d/").value, "/")
    else ""
  }

  /** Where a Drive file is fetched from. */
  function DownloadUrl(fileId: string): (u: string)
    ensures StartsWith(u, DriveDownloadPrefix) && u[|DriveDownloadPrefix|..] == fileId
  {
    DriveDownloadPrefix + fileId
  }

  /** Is `u` an inline image whose text after the first comma (up to a second
      one) is non-empty? */
  predicate HasInlinePayload(u: string) {
    StartsWith(u, "data:image") && SecondPiece(u, ",").Some? && SecondPiece(u, ",").value != ""
  }

  predicate IsLocalReference(u: string) {
    StartsWith(u, "/uploads/") || StartsWith(u, "/reports/")
  }

  predicate IsWebReference(u: string) {
    StartsWith(u, "http://") || StartsWith(u, "https://")
  }

  /** The branch `downloadImage` takes for a reference (`None`: the field is
      absent).  An inline image without payload and a Drive link without a
      file id fall through to the later branches. */
  function ClassifyPhoto(ref: Option<string>): (src: PhotoSource)
    ensures ref.None? || ref.value == "" || ref.value == "-" ==> src == NoPhoto
    ensures src.Inline? <==> ref.Some? && HasInlinePayload(ref.value)
    ensures src.Inline? ==> StartsWith(ref.value, "data:image") && src.payload == SecondPiece(ref.value, ",").value
    ensures src.LocalFile? <==> ref.Some? && !HasInlinePayload(ref.value) && IsLocalReference(ref.value)
    ensures src.LocalFile? ==> src.path == ref.value
    ensures src.Drive? ==> Contains(ref.value, DriveHost) && src.fileId == DriveFileId(ref.value) && src.fileId != ""
    ensures src.Web? ==> src.url == ref.value && IsWebReference(ref.value)
    ensures src.Unsupported? ==> !IsLocalReference(ref.value) && !IsWebReference(ref.value)
  {
    match ref
    case None => NoPhoto
    case Some(u) =>
      if u == "" || u == "-" then NoPhoto
      else if HasInlinePayload(u) then Inline(SecondPiece(u, ",").value)
      else if IsLocalReference(u) then LocalFile(u)
      else if Contains(u, DriveHost) && DriveFileId(u) != "" then Drive(DriveFileId(u))
      else if IsWebReference(u) then Web(u)
      else Unsupported
  }

  /** The outside world as `downloadImage` sees it: the files of the public
      directory, and whether a temporary file can be written. */
  datatype Env = Env(publicFiles: set<string>, canWrite: bool)

  /** The file a reference resolves to. */
  datatype PhotoFile =
    | Decoded(payload: string)   // base64 payload written to a temporary file
    | Public(path: string)       // an existing file of the public directory

  /** How `downloadImage` ends: it returns a path or null, or its promise
      rejects. */
  datatype Download = Saved(file: Option<PhotoFile>) | Threw

  /** The TypeError a call of `fs.createWriteStream` raises on the promise API. */
  const WriteStreamError := "fs.createWriteStream is not a function"

  /** What `downloadImage` does with a classified reference.  The Drive and
      web branches first call `fs.createWriteStream`, but `fs` is the promise
      API (`fs/promises`), which has no such function: the call throws inside
      the promise executor before any request is sent, and the promise
      rejects.  No Drive or web photo is ever downloaded. */
  function ResolvePhoto(src: PhotoSource, env: Env): (r: Download)
    ensures r.Threw? <==> src.Drive? || src.Web?
    ensures src.NoPhoto? || src.Unsupported? ==> r == Saved(None)
    ensures src.Inline? ==>
      r.Saved? && (r.file.Some? <==> env.canWrite) && (r.file.Some? ==> r.file.value == Decoded(src.payload))
    ensures src.LocalFile? ==>
      r.Saved? && (r.file.Some? <==> src.path in env.publicFiles) && (r.file.Some? ==> r.file.value == Public(src.path))
  {
    match src
    case NoPhoto => Saved(None)
    case Inline(payload) => if env.canWrite then Saved(Some(Decoded(payload))) else Saved(None)
    case LocalFile(path) => if path in env.publicFiles then Saved(Some(Public(path))) else Saved(None)
    case Drive(_) => Threw
    case Web(_) => Threw
    case Unsupported => Saved(None)
  }

  /** The download of the photo field `key`. */
  function PhotoDownload(data: Fields, env: Env, key: string): Download {
    ResolvePhoto(ClassifyPhoto(FieldRef(data, key)), env)
  }

  // ---------------------------------------------------------------------
  // Field values (`safe_get`)

  /** Python's `s.replace('\\' + c, ' ')`: every backslash followed by `c`,
      taken left to right without overlap, becomes one space. */
  function ReplacePair(s: string, c: char): (r: string)
    ensures |r| <= |s|
    ensures |s| > 0 ==> |r| > 0 && (r[0] == s[0] || r[0] == ' ')
    decreases |s|
  {
    if |s| < 2 then s
    else if s[0] == '\\' && s[1] == c then " " + ReplacePair(s[2..], c)
    else [s[0]] + ReplacePair(s[1..], c)
  }

  /** No backslash in `s` is followed by `c`. */
  predicate PairFree(s: string, c: char) {
    forall i :: 0 <= i < |s| - 1 ==> !(s[i] == '\\' && s[i + 1] == c)
  }

  /** No escape written out as text: backslash-n, backslash-r, backslash-t. */
  predicate Clean(s: string) {
    PairFree(s, 'n') && PairFree(s, 'r') && PairFree(s, 't')
  }

  function Scrub(s: string): string {
    ReplacePair(ReplacePair(ReplacePair(s, 'n'), 'r'), 't')
  }

  /** The printed text of a field: "-" when it is absent or empty, otherwise
      its value with the written-out escapes turned into spaces. */
  function SafeGet(data: Fields, key: string): (r: string)
    ensures r != "" && Clean(r)
    ensures Get(data, key) == "" ==> r == "-"
    ensures Get(data, key) != "" ==> r == Unescape(Get(data, key))
    ensures Get(data, key) != "" && Clean(Get(data, key)) ==> r == Get(data, key)
  {
    var v := Get(data, key);
    if v == "" then "-"
    else
      ScrubClean(v);
      ScrubFixes(v);
      ScrubIsUnescape(v);
      Scrub(v)
  }

  predicate IsEscapeLetter(c: char) {
    c == 'n' || c == 'r' || c == 't'
  }

  /** The reading the three passes amount to, in one left-to-right pass: a
      backslash followed by n, r or t becomes one space, and every other
      character is kept. */
  function Unescape(s: string): string
    decreases |s|
  {
    if |s| < 2 then s
    else if s[0] == '\\' && IsEscapeLetter(s[1]) then " " + Unescape(s[2..])
    else [s[0]] + Unescape(s[1..])
  }

  /** A pass works piecewise when no pair straddles the seam. */
  lemma {:induction false} ReplacePairAppend(a: string, b: string, c: char)
    requires |a| == 0 || |b| == 0 || !(a[|a| - 1] == '\\' && b[0] == c)
    ensures ReplacePair(a + b, c) == ReplacePair(a, c) + ReplacePair(b, c)
    decreases |a|
  {
    if |a| == 0 {
      assert a + b == b;
    } else if |a| == 1 {
      if |b| > 0 {
        assert (a + b)[1..] == b;
      } else {
        assert a + b == a;
      }
    } else if a[0] == '\\' && a[1] == c {
      assert (a + b)[2..] == a[2..] + b;
      ReplacePairAppend(a[2..], b, c);
    } else {
      assert (a + b)[1..] == a[1..] + b;
      ReplacePairAppend(a[1..], b, c);
    }
  }

  /** The three passes over a head that does not end in a backslash, then
      over the rest. */
  lemma ScrubAppend(h: string, t: string)
    requires |h| > 0 && h[|h| - 1] != '\\' && |h| <= 2
    ensures Scrub(h + t) == Scrub(h) + Scrub(t)
  {
    var h1 := ReplacePair(h, 'n');
    var h2 := ReplacePair(h1, 'r');
    ReplacePairAppend(h, t, 'n');
    assert |h1| > 0 && h1[|h1| - 1] != '\\';
    ReplacePairAppend(h1, ReplacePair(t, 'n'), 'r');
    assert |h2| > 0 && h2[|h2| - 1] != '\\';
    ReplacePairAppend(h2, ReplacePair(ReplacePair(t, 'n'), 'r'), 't');
  }

  /** The three passes in turn agree with the one-pass reading. */
  lemma {:induction false} ScrubIsUnescape(s: string)
    ensures Scrub(s) == Unescape(s)
    decreases |s|
  {
    if |s| >= 2 {
      if s[0] == '\\' && IsEscapeLetter(s[1]) {
        var h := s[..2];
        assert s == h + s[2..];
        ScrubAppend(h, s[2..]);
        ScrubEscapePair(s[1]);
        assert h == ['\\', s[1]];
        ScrubIsUnescape(s[2..]);
      } else {
        var h := s[..1];
        assert s == h + s[1..];
        ScrubFirstSafe(s);
        ScrubIsUnescape(s[1..]);
      }
    } else {
      assert ReplacePair(s, 'n') == s && ReplacePair(s, 'r') == s && ReplacePair(s, 't') == s;
    }
  }

  lemma ScrubEscapePair(e: char)
    requires IsEscapeLetter(e)
    ensures Scrub(['\\', e]) == " "
  {
    var h := ['\\', e];
    assert ReplacePair(" ", 'r') == " " && ReplacePair(" ", 't') == " ";
    if e == 'n' {
      assert ReplacePair(h, 'n') == " ";
    } else if e == 'r' {
      assert ReplacePair(h, 'n') == h;
      assert ReplacePair(h, 'r') == " ";
    } else {
      assert ReplacePair(h, 'n') == h;
      assert ReplacePair(h, 'r') == h;
      assert ReplacePair(h, 't') == " ";
    }
  }

  /** A first character that starts no escape is kept and the rest read on
      their own. */
  lemma ScrubFirstSafe(s: string)
    requires |s| >= 2 && !(s[0] == '\\' && IsEscapeLetter(s[1]))
    ensures Scrub(s) == [s[0]] + Scrub(s[1..])
  {
    var h := s[..1];
    var t := s[1..];
    assert s == h + t;
    assert ReplacePair(h, 'n') == h && ReplacePair(h, 'r') == h && ReplacePair(h, 't') == h;
    var t1 := ReplacePair(t, 'n');
    var t2 := ReplacePair(t1, 'r');
    ReplacePairAppend(h, t, 'n');
    ReplacePairAppend(h, t1, 'r');
    ReplacePairAppend(h, t2, 't');
  }

  /** One pass of the reading works piecewise when no escape straddles the seam. */
  lemma {:induction false} UnescapeAppend(a: string, b: string)
    requires |a| == 0 || |b| == 0 || !(a[|a| - 1] == '\\' && IsEscapeLetter(b[0]))
    ensures Unescape(a + b) == Unescape(a) + Unescape(b)
    decreases |a|
  {
    var s := a + b;
    if |a| == 0 {
      assert s == b;
    } else if |b| == 0 {
      assert s == a;
    } else if |a| == 1 {
      assert s[0] == a[0] && s[1] == b[0] && s[1..] == b;
      assert Unescape(s) == [a[0]] + Unescape(b);
    } else if a[0] == '\\' && IsEscapeLetter(a[1]) {
      assert s[0] == a[0] && s[1] == a[1] && s[2..] == a[2..] + b;
      UnescapeAppend(a[2..], b);
      assert Unescape(s) == " " + Unescape(a[2..] + b);
    } else {
      assert s[0] == a[0] && s[1] == a[1] && s[1..] == a[1..] + b;
      UnescapeAppend(a[1..], b);
      assert Unescape(s) == [a[0]] + Unescape(a[1..] + b);
    }
  }

  /** Each written-out escape becomes exactly one space, and the text on
      either side is read on its own. */
  lemma EscapeBecomesSpace(a: string, e: char, b: string)
    requires IsEscapeLetter(e)
    ensures Unescape(a + ['\\', e] + b) == Unescape(a) + " " + Unescape(b)
  {
    var m := ['\\', e] + b;
    assert a + ['\\', e] + b == a + m;
    UnescapeAppend(a, m);
    assert m[2..] == b;
  }

  /** The printed value of a field holding an escape: the text before it, one
      space, the text after it. */
  lemma SafeGetSpaces(data: Fields, key: string, a: string, e: char, b: string)
    requires IsEscapeLetter(e) && Get(data, key) == a + ['\\', e] + b
    ensures SafeGet(data, key) == Unescape(a) + " " + Unescape(b)
  {
    EscapeBecomesSpace(a, e, b);
  }

  lemma {:induction false} ReplacePairRemoves(s: string, c: char)
    requires c != ' '
    ensures PairFree(ReplacePair(s, c), c)
    decreases |s|
  {
    if |s| >= 2 {
      if s[0] == '\\' && s[1] == c {
        ReplacePairRemoves(s[2..], c);
        SeamFree(" ", ReplacePair(s[2..], c), c);
      } else {
        ReplacePairRemoves(s[1..], c);
        SeamFree([s[0]], ReplacePair(s[1..], c), c);
      }
    }
  }

  /** Replacing one escape with a space never creates another one. */
  lemma {:induction false} ReplacePairKeeps(s: string, c: char, d: char)
    requires d != ' ' && PairFree(s, d)
    ensures PairFree(ReplacePair(s, c), d)
    decreases |s|
  {
    if |s| >= 2 {
      if s[0] == '\\' && s[1] == c {
        assert PairFree(s[2..], d);
        ReplacePairKeeps(s[2..], c, d);
        SeamFree(" ", ReplacePair(s[2..], c), d);
      } else {
        assert PairFree(s[1..], d);
        ReplacePairKeeps(s[1..], c, d);
        SeamFree([s[0]], ReplacePair(s[1..], c), d);
      }
    }
  }

  /** A one-character front joins a pair-free rest without a new pair when it
      is not a backslash, or when the rest does not start with `d`. */
  lemma SeamFree(a: string, b: string, d: char)
    requires |a| == 1 && PairFree(b, d)
    requires a[0] == '\\' ==> |b| == 0 || b[0] != d
    ensures PairFree(a + b, d)
  {
    forall i | 0 <= i < |a + b| - 1
      ensures !((a + b)[i] == '\\' && (a + b)[i + 1] == d)
    {
      if i > 0 {
        assert (a + b)[i] == b[i - 1] && (a + b)[i + 1] == b[i];
      }
    }
  }

  /** Text free of one escape is left as it is. */
  lemma {:induction false} ReplacePairFixes(s: string, c: char)
    requires PairFree(s, c)
    ensures ReplacePair(s, c) == s
    decreases |s|
  {
    if |s| >= 2 {
      assert !(s[0] == '\\' && s[1] == c);
      assert PairFree(s[1..], c);
      ReplacePairFixes(s[1..], c);
      assert s == [s[0]] + s[1..];
    }
  }

  lemma ScrubClean(s: string)
    ensures Clean(Scrub(s))
  {
    var a := ReplacePair(s, 'n');
    var b := ReplacePair(a, 'r');
    ReplacePairRemoves(s, 'n');
    ReplacePairRemoves(a, 'r');
    ReplacePairKeeps(a, 'r', 'n');
    ReplacePairRemoves(b, 't');
    ReplacePairKeeps(b, 't', 'n');
    ReplacePairKeeps(b, 't', 'r');
  }

  lemma ScrubFixes(s: string)
    ensures Clean(s) ==> Scrub(s) == s
  {
    if Clean(s) {
      ReplacePairFixes(s, 'n');
      ReplacePairFixes(s, 'r');
      ReplacePairFixes(s, 't');
    }
  }

  /** Printing a printed value again changes nothing. */
  lemma SafeGetIdempotent(data: Fields, key: string)
    ensures SafeGet(map[key := SafeGet(data, key)], key) == SafeGet(data, key)
  {
  }

  /** The three escapes are replaced one after another, all occurrences each. */
  lemma SafeGetExample()
    ensures SafeGet(map["Kronologi Kejadian" := "a\\nb"], "Kronologi Kejadian") == "a b"
    ensures SafeGet(map["Kronologi Kejadian" := ""], "Kronologi Kejadian") == "-"
    ensures SafeGet(map[], "Kronologi Kejadian") == "-"
  {
  }

  // ---------------------------------------------------------------------
  // The document

  /** A table row as the template lists it: the printed name, and the field
      whose value fills it, given by its column in `ColumnHeaders` (the
      header's text follows in a comment). */
  datatype Line = Line(name: string, column: nat)

  predicate InRange(lines: seq<Line>) {
    forall i :: 0 <= i < |lines| ==> lines[i].column < ColumnCount
  }

  const InfoLines := [
    Line("Tanggal Kejadian", 1),  // Tanggal Kejadian
    Line("Waktu Kejadian", 2),    // Waktu Kejadian
    Line("Shift", 3),             // Shift Kejadian
    Line("Gardu", 4),             // Gardu Kejadian
    Line("Lokasi", 12)]           // Lokasi Kejadian
  const ChronologyColumn := 13    // Kronologi Kejadian
  const FaultLines := [
    Line("Gangguan Palang", 21),            // A.Jenis Gangguan - Palang
    Line("Gangguan Reader/Periferal", 22),  // B.Jenis Gangguan Reader / Periferal
    Line("Gangguan Sistem", 23),            // C. Jenis Gangguan - Sistim
    Line("Gangguan Kelistrikan", 24)]       // D. Jenis Gangguan - Kelistrikan
  const ActionLines := [
    Line("KSPT", 16),      // Tindakan KSPT
    Line("IT", 17),        // Tindakan IT
    Line("Teknisi", 18),   // Tindakan Teknisi
    Line("PulTol", 19),    // Tindakan PulTol
    Line("Security", 20)]  // Tindakan Security
  const StaffLines := [
    Line("Petugas KSPT", 7),       // PETUGAS KSPT
    Line("Petugas PulTol", 8),     // PETUGAS PULTOL
    Line("Petugas IT", 10),        // PETUGAS IT
    Line("Petugas Teknisi", 11),   // PETUGAS TEKNISI
    Line("Petugas Security", 9)]   // Petugas Security
  const StatusLines := [
    Line("Status", 25),        // Status Tindakan
    Line("Jumlah Alarm", 26),  // Jumlah Alarm
    Line("Jumlah Reset", 27)]  // Jumlah Reset
  const ExtraLines := [
    Line("Waktu Menginformasikan", 5),   // Waktu Mengirformasikan
    Line("Waktu Penanganan", 6),         // Waktu Penanganan
    Line("Antrian Kendaraan", 14),       // Antrian Kendaraan
    Line("Keluhan Pengguna Jalan", 15)]  // Keluhan Pengguna Jalan

  /** The printed value of a column. */
  function ColumnValue(data: Fields, column: nat): string
    requires column < ColumnCount
  {
    SafeGet(data, ColumnHeaders[column])
  }

  /** The photo block of section 8; sizes in millimetres. */
  datatype PhotoBlock =
    | SideBySide(width: nat, height: nat)
    | SingleImage(name: string, width: nat, height: nat)
    | Caption(text: string)

  datatype Body =
    | Text(text: string)
    | Table(header: seq<string>, rows: seq<seq<string>>)
    | Photos(block: PhotoBlock)

  datatype Section = Section(title: string, body: Body)

  const NoPhotoText := "Tidak ada foto dokumentasi"

  /** The photo block from which photo files exist; `renders` says whether
      the image files can be read by the renderer. */
  function PhotoLayout(before: bool, after: bool, renders: bool, data: Fields): (b: PhotoBlock)
    ensures before && after && renders ==> b == SideBySide(75, 50)
    ensures before != after && renders ==>
      b == SingleImage(if before then "Foto Sebelum" else "Foto Sesudah", 100, 60)
    ensures !before && !after ==> b == Caption(NoPhotoText)
  {
    if before && after then
      if renders then SideBySide(75, 50) else Caption("Foto tidak dapat ditampilkan")
    else if before then
      if renders then SingleImage("Foto Sebelum", 100, 60)
      else Caption("Foto Sebelum: " + SafeGet(data, "Foto Sebelum"))
    else if after then
      if renders then SingleImage("Foto Sesudah", 100, 60)
      else Caption("Foto Sesudah: " + SafeGet(data, "Foto Sesudah"))
    else Caption(NoPhotoText)
  }

  function ImagesShown(b: PhotoBlock): nat {
    match b
    case SideBySide(_, _) => 2
    case SingleImage(_, _, _) => 1
    case Caption(_) => 0
  }

  /** Two columns of name and value, one row per line. */
  function LabelledRows(lines: seq<Line>, data: Fields): (rows: seq<seq<string>>)
    requires InRange(lines)
    ensures |rows| == |lines|
    ensures forall i :: 0 <= i < |lines| ==> rows[i] == [lines[i].name, ColumnValue(data, lines[i].column)]
  {
    seq(|lines|, i requires 0 <= i < |lines| => [lines[i].name, ColumnValue(data, lines[i].column)])
  }

  /** Like `LabelledRows`, with a running number from 1 in front. */
  function NumberedRows(lines: seq<Line>, data: Fields): (rows: seq<seq<string>>)
    requires InRange(lines)
    ensures |rows| == |lines|
    ensures forall i :: 0 <= i < |lines| ==>
      rows[i] == [Decimal(i + 1), lines[i].name, ColumnValue(data, lines[i].column)]
  {
    seq(|lines|, i requires 0 <= i < |lines| => [Decimal(i + 1), lines[i].name, ColumnValue(data, lines[i].column)])
  }

  /** The eight sections of the report, in order. */
  function Document(data: Fields, photos: PhotoBlock): (doc: seq<Section>)
    ensures |doc| == 8
    ensures doc[7].body == Photos(photos)
  {
    [Section("1. INFORMASI KEJADIAN", Table([], LabelledRows(InfoLines, data))),
     Section("2. KRONOLOGI KEJADIAN", Text(ColumnValue(data, ChronologyColumn))),
     Section("3. JENIS GANGGUAN", Table(["No", "Jenis Gangguan", "Keterangan"], NumberedRows(FaultLines, data))),
     Section("4. TINDAKAN", Table(["No", "Pelaksana", "Tindakan"], NumberedRows(ActionLines, data))),
     Section("5. PETUGAS", Table(["Jabatan", "Nama"], LabelledRows(StaffLines, data))),
     Section("6. STATUS TINDAKAN", Table([], LabelledRows(StatusLines, data))),
     Section("7. INFORMASI TAMBAHAN", Table([], LabelledRows(ExtraLines, data))),
     Section("8. FOTO DOKUMENTASI", Photos(photos))]
  }

  function ColumnsOf(lines: seq<Line>): (cols: seq<nat>)
    ensures |cols| == |lines| && forall i :: 0 <= i < |lines| ==> cols[i] == lines[i].column
  {
    seq(|lines|, i requires 0 <= i < |lines| => lines[i].column)
  }

  /** Every column the sections 1 to 7 print, in document order. */
  function ReportColumns(): seq<nat> {
    ColumnsOf(InfoLines) + [ChronologyColumn] + ColumnsOf(FaultLines) + ColumnsOf(ActionLines)
      + ColumnsOf(StaffLines) + ColumnsOf(StatusLines) + ColumnsOf(ExtraLines)
  }

  /** The report as compiled, or the error that ended the route first. */
  datatype Compiled = Built(doc: seq<Section>) | Aborted(message: string)

  /** Whether the downloads of both photo fields returned.  The "Foto Sebelum"
      download comes first; when it throws, the second is never started. */
  predicate PhotosDownloaded(data: Fields, env: Env) {
    PhotoDownload(data, env, "Foto Sebelum").Saved? && PhotoDownload(data, env, "Foto Sesudah").Saved?
  }

  /** The whole report: both photos downloaded, the layout chosen from the
      files found, the sections built.  A download that throws ends it. */
  function Compile(data: Fields, env: Env, renders: bool): (r: Compiled)
    ensures r.Aborted? <==> !PhotosDownloaded(data, env)
    ensures r.Aborted? ==> r.message == WriteStreamError
    ensures r.Built? ==> |r.doc| == 8
    ensures r.Built? ==>
      r.doc == Document(data, PhotoLayout(PhotoDownload(data, env, "Foto Sebelum").file.Some?,
                                          PhotoDownload(data, env, "Foto Sesudah").file.Some?, renders, data))
  {
    var before := PhotoDownload(data, env, "Foto Sebelum");
    if before.Threw? then Aborted(WriteStreamError)
    else
      var after := PhotoDownload(data, env, "Foto Sesudah");
      if after.Threw? then Aborted(WriteStreamError)
      else Built(Document(data, PhotoLayout(before.file.Some?, after.file.Some?, renders, data)))
  }

  /** The public path a resolved photo names, if it is a public file. */
  function PublicPaths(f: Option<PhotoFile>): set<string> {
    if f.Some? && f.value.Public? then {f.value.path} else {}
  }

  /** The public directory after the route's clean-up: once the script has
      run, both paths `downloadImage` returned are unlinked, and for a
      reference below /uploads/ or /reports/ that path is the public file
      itself.  A failed script run skips the clean-up. */
  function AfterCleanup(files: set<string>, scriptRan: bool, before: Option<PhotoFile>, after: Option<PhotoFile>): (r: set<string>)
    ensures r <= files
    ensures !scriptRan ==> r == files
    ensures scriptRan ==> forall p :: p in files ==>
      (p !in r <==> Some(Public(p)) == before || Some(Public(p)) == after)
  {
    if scriptRan then files - PublicPaths(before) - PublicPaths(after) else files
  }

  /** The public directory once the route for `data` has ended.  A download
      that throws ends the route before the script and the clean-up. */
  function FilesAfterReport(data: Fields, env: Env, scriptRan: bool): (r: set<string>)
    ensures !PhotosDownloaded(data, env) ==> r == env.publicFiles
  {
    if PhotosDownloaded(data, env) then
      AfterCleanup(env.publicFiles, scriptRan, PhotoDownload(data, env, "Foto Sebelum").file,
                   PhotoDownload(data, env, "Foto Sesudah").file)
    else env.publicFiles
  }

  /** Generating a report deletes a locally stored photo: the next report of
      the same record finds no file behind its "Foto Sebelum" reference.
      This needs the other download to return; see `ThrowKeepsLocalPhoto`. */
  lemma ReportDeletesLocalPhoto(data: Fields, env: Env, u: string)
    requires FieldRef(data, "Foto Sebelum") == Some(u) && IsLocalReference(u) && u in env.publicFiles
    requires PhotoDownload(data, env, "Foto Sesudah").Saved?
    ensures u !in FilesAfterReport(data, env, true)
    ensures ResolvePhoto(ClassifyPhoto(Some(u)), env.(publicFiles := FilesAfterReport(data, env, true))) == Saved(None)
  {
    LocalBeforeDrive(u);
  }

  /** When the other photo is a web or Drive link, the route throws before
      the clean-up, and the local photo stays. */
  lemma ThrowKeepsLocalPhoto(data: Fields, env: Env, u: string, scriptRan: bool)
    requires FieldRef(data, "Foto Sebelum") == Some(u) && IsLocalReference(u) && u in env.publicFiles
    requires FieldRef(data, "Foto Sesudah").Some? && IsWebReference(FieldRef(data, "Foto Sesudah").value)
    ensures u in FilesAfterReport(data, env, scriptRan)
    ensures ResolvePhoto(ClassifyPhoto(Some(u)), env.(publicFiles := FilesAfterReport(data, env, scriptRan))) == Saved(Some(Public(u)))
  {
    LocalBeforeDrive(u);
    WebReferenceThrows(FieldRef(data, "Foto Sesudah").value, env);
  }

  /** A photo field as `downloadImage` receives it: absent or its text. */
  function FieldRef(data: Fields, key: string): Option<string> {
    if key in data then Some(data[key]) else None
  }

  // ---------------------------------------------------------------------
  // Output

  /** `toISOString().replace(/[:.]/g, '-')` */
  function Dashed(iso: string): (r: string)
    ensures |r| == |iso|
    ensures ':' !in r && '.' !in r
    ensures forall i :: 0 <= i < |iso| && iso[i] != ':' && iso[i] != '.' ==> r[i] == iso[i]
    ensures forall i :: 0 <= i < |iso| && (iso[i] == ':' || iso[i] == '.') ==> r[i] == '-'
  {
    seq(|iso|, i requires 0 <= i < |iso| => if iso[i] == ':' || iso[i] == '.' then '-' else iso[i])
  }

  const ReportPrefix := "Laporan_Kejadian_"

  function ReportFileName(iso: string): (name: string) {
    ReportPrefix + Dashed(iso) + ".pdf"
  }

  function ReportUrl(iso: string): string {
    "/reports/" + ReportFileName(iso)
  }

  datatype Response =
    | Created(url: string, filename: string)
    | Failure(status: int, message: string)

  /** The reply of the route: the URL of the produced file, or 500 with the
      error text when the file does not exist after the script ran. */
  function GenerateResponse(iso: string, created: bool, error: string): (r: Response)
    ensures r.Created? <==> created
    ensures r.Created? ==> r.url == "/reports/" + r.filename && r.filename == ReportFileName(iso)
    ensures r.Failure? ==> r.status == 500 && StartsWith(r.message, "Gagal membuat PDF: ")
  {
    if created then Created(ReportUrl(iso), ReportFileName(iso))
    else Failure(500, "Gagal membuat PDF: " + error)
  }

  /** The reply of the whole route.  A download that throws is caught by the
      route's handler and answered with 500 before the script is written;
      otherwise the script's outcome decides. */
  function RouteReply(data: Fields, env: Env, iso: string, created: bool, error: string): (r: Response)
    ensures !PhotosDownloaded(data, env) ==> r == Failure(500, "Gagal membuat PDF: " + WriteStreamError)
    ensures r.Created? <==> PhotosDownloaded(data, env) && created
    ensures r.Created? ==> r.filename == ReportFileName(iso) && r.url == "/reports/" + r.filename
  {
    match Compile(data, env, true)
    case Aborted(message) => Failure(500, "Gagal membuat PDF: " + message)
    case Built(_) => GenerateResponse(iso, created, error)
  }

  // ---------------------------------------------------------------------
  // Lemmas: photo references

  /** The first `id=` of a Drive link starts after the stem `https://drive.google.com/uc?export=`. */
  lemma StemSkip(url: string)
    requires StartsWith(url, DriveLinkStem)
    ensures |DriveLinkStem| == 35
    ensures IndexFrom(url, "id=", 0) == IndexFrom(url, "id=", 35)
  {
    var p := "id=";
    var tail := "ve.google.com" + "/uc?export=";
    assert 'i' !in "https://dr" && 'i' !in "ve.google.com" && 'i' !in "/uc?export=";
    assert DriveLinkStem == "https://dr" + "i" + tail;
    assert url[..35] == DriveLinkStem;
    assert url[0..10] == "https://dr";
    IndexFromSkip(url, p, 0, 10);
    assert url[11] == 'v';
    assert IndexFrom(url, p, 10) == IndexFrom(url, p, 11);
    assert url[11..35] == tail;
    IndexFromSkip(url, p, 11, 35);
  }

  /** A Drive link whose first `id=` sits at `k` and is followed by a plain id
      yields that id. */
  lemma DriveIdAt(url: string, k: nat, id: string)
    requires IndexFrom(url, "id=", 0) == Some(k) && url[k + 3..] == id
    requires !Contains(id, "&") && !Contains(id, "id=")
    ensures DriveFileId(url) == id
  {
    IndexFromSpec(url, "id=", 0);
    BeforeAbsent(id, "id=");
    BeforeAbsent(id, "&");
  }

  /** A link on the Drive host is classified as a Drive reference to `id`
      when its id extracts to `id`. */
  lemma DriveLinkClassified(url: string, id: string)
    requires StartsWith(url, DriveLinkStem) && DriveFileId(url) == id && id != ""
    ensures ClassifyPhoto(Some(url)) == Drive(id)
  {
    assert url[..35] == DriveLinkStem;
    assert url[0] == 'h';
    assert url[8..24] == DriveHost;
    ContainsAt(url, DriveHost, 8);
  }

  /** In a view URL the first `id=` is the one the upload route put there. */
  lemma ViewIdPosition(id: string)
    ensures IndexFrom(DriveViewPrefix + id, "id=", 0) == Some(40)
    ensures (DriveViewPrefix + id)[43..] == id
  {
    var url := DriveViewPrefix + id;
    var p := "id=";
    assert url == DriveLinkStem + ("v" + "i" + "ew&" + "id=" + id);
    StemSkip(url);
    assert url[35] == 'v' && url[36] == 'i' && url[37] == 'e';
    assert IndexFrom(url, p, 35) == IndexFrom(url, p, 36);
    assert IndexFrom(url, p, 36) == IndexFrom(url, p, 37);
    assert url[37..40] == "ew&";
    IndexFromSkip(url, p, 37, 40);
    assert url[40..43] == p;
    MatchAtIff(url, p, 40, 0);
  }

  /** The view URL the upload route stores resolves back to the stored id. */
  lemma ViewUrlRoundTrip(id: string)
    requires id != "" && !Contains(id, "&") && !Contains(id, "id=")
    ensures ClassifyPhoto(Some(DriveViewPrefix + id)) == Drive(id)
  {
    var url := DriveViewPrefix + id;
    ViewIdPosition(id);
    DriveIdAt(url, 40, id);
    assert url == DriveLinkStem + ("v" + "i" + "ew&" + "id=" + id);
    DriveLinkClassified(url, id);
  }

  /** The sharing link form `https://drive.google.com/file/d/<id>/view`. */
  const DriveFilePrefix := "https://" + DriveHost + "/file/d/"

  /** In a sharing link the first `/d/` is the one that ends the prefix. */
  lemma FileLinkSlashD(url: string)
    requires StartsWith(url, DriveFilePrefix)
    ensures |DriveFilePrefix| == 32
    ensures IndexFrom(url, "/d/", 0) == Some(29)
  {
    var p := "/d/";
    assert url[..32] == DriveFilePrefix;
    assert url[0..6] == "https:";
    IndexFromSkip(url, p, 0, 6);
    assert url[7] == '/' && url[8] == 'd' && url[9] == 'r';
    assert IndexFrom(url, p, 6) == IndexFrom(url, p, 7);
    assert IndexFrom(url, p, 7) == IndexFrom(url, p, 8);
    assert url[8..24] == DriveHost;
    IndexFromSkip(url, p, 8, 24);
    assert url[25] == 'f';
    assert IndexFrom(url, p, 24) == IndexFrom(url, p, 25);
    assert url[25..29] == "file";
    IndexFromSkip(url, p, 25, 29);
    assert url[29..32] == p;
    MatchAtIff(url, p, 29, 0);
  }

  /** After the `/d/`, an id without `/` runs up to the `/view`. */
  lemma FileLinkRest(id: string)
    requires '/' !in id
    ensures Before(id + "/view", "/d/") == id + "/view"
    ensures Before(id + "/view", "/") == id
  {
    var rest := id + "/view";
    var p := "/d/";
    assert rest[0..|id|] == id;
    IndexFromSkip(rest, p, 0, |id|);
    assert rest[|id|..] == "/view";
    assert !MatchAt(rest, p, |id|, 0);
    IndexFromSkip(rest, p, |id| + 1, |rest|);
    IndexFromSkip(rest, "/", 0, |id|);
    MatchAtIff(rest, "/", |id|, 0);
  }

  /** A sharing link `https://drive.google.com/file/d/<id>/view` names the
      file `<id>`, read by the `/d/` branch. */
  lemma FileLinkClassified(id: string)
    requires id != "" && '/' !in id && '=' !in id
    ensures DriveFileId(DriveFilePrefix + id + "/view") == id
    ensures ClassifyPhoto(Some(DriveFilePrefix + id + "/view")) == Drive(id)
  {
    var url := DriveFilePrefix + id + "/view";
    assert '=' !in DriveFilePrefix && '=' !in "/view";
    assert '=' !in url;
    NotContainsByChar(url, "id=", '=');
    assert url[..32] == DriveFilePrefix;
    FileLinkSlashD(url);
    ContainsAt(url, "/d/", 29);
    assert url[32..] == id + "/view";
    FileLinkRest(id);
    assert url[0] == 'h';
    assert url[8..24] == DriveHost;
    ContainsAt(url, DriveHost, 8);
  }

  /** In a download URL the first `id=` is the one `DownloadUrl` put there. */
  lemma DownloadIdPosition(id: string)
    ensures IndexFrom(DownloadUrl(id), "id=", 0) == Some(44)
    ensures DownloadUrl(id)[47..] == id
  {
    var url := DownloadUrl(id);
    var p := "id=";
    assert url == DriveLinkStem + ("download&" + "id=" + id);
    StemSkip(url);
    assert url[35..44] == "download&";
    IndexFromSkip(url, p, 35, 44);
    assert url[44..47] == p;
    MatchAtIff(url, p, 44, 0);
  }

  /** The download URL names the same file again. */
  lemma DownloadUrlRoundTrip(id: string)
    requires id != "" && !Contains(id, "&") && !Contains(id, "id=")
    ensures ClassifyPhoto(Some(DownloadUrl(id))) == Drive(id)
  {
    var url := DownloadUrl(id);
    DownloadIdPosition(id);
    DriveIdAt(url, 44, id);
    assert url == DriveLinkStem + ("download&" + "id=" + id);
    DriveLinkClassified(url, id);
  }

  /** Public paths are recognised before any Drive or web test, whatever they hold. */
  lemma LocalBeforeDrive(u: string)
    requires IsLocalReference(u)
    ensures ClassifyPhoto(Some(u)) == LocalFile(u)
  {
    assert u[0] == '/';
  }

  /** An inline image without a comma has no payload; without a Drive host
      in it, no later branch takes it either. */
  lemma NoCommaUnsupported(head: string)
    requires StartsWith(head, "data:image") && ',' !in head && '.' !in head
    ensures ClassifyPhoto(Some(head)) == Unsupported
  {
    assert head[0] == 'd';
    NotContainsByChar(head, ",", ',');
    IndexFromSpec(head, ",", 0);
    assert '.' in DriveHost;
    NotContainsByChar(head, DriveHost, '.');
  }

  /** An inline image whose payload is empty is not inline either. */
  lemma EmptyPayloadUnsupported(head: string)
    requires StartsWith(head, "data:image") && ',' !in head && '.' !in head
    ensures ClassifyPhoto(Some(head + ",")) == Unsupported
  {
    var u := head + ",";
    assert u[0] == 'd';
    IndexFromSkip(u, ",", 0, |head|);
    assert u[|head|..|head| + 1] == ",";
    MatchAtIff(u, ",", |head|, 0);
    assert u[|head| + 1..] == "";
    assert '.' in DriveHost;
    NotContainsByChar(u, DriveHost, '.');
    StartsWithConcat(head, ",", "data:image");
  }

  /** A web link without an id (a Drive link among them) goes to the generic
      http(s) branch. */
  lemma NoDriveIdIsWeb(u: string)
    requires IsWebReference(u) && !Contains(u, "id=") && !Contains(u, "/d/")
    ensures ClassifyPhoto(Some(u)) == Web(u)
  {
    assert u[0] == 'h';
  }

  /** Every http(s) reference, a Drive link or any other, makes the download
      throw: both of its branches open the write stream first. */
  lemma WebReferenceThrows(u: string, env: Env)
    requires IsWebReference(u)
    ensures ClassifyPhoto(Some(u)).Drive? || ClassifyPhoto(Some(u)).Web?
    ensures ResolvePhoto(ClassifyPhoto(Some(u)), env) == Threw
  {
    assert u[0] == 'h';
  }

  /** A report whose photo field holds any http(s) link, the Drive view URL
      an upload stores among them, fails with 500. */
  lemma WebPhotoFailsReport(data: Fields, env: Env, key: string, iso: string, created: bool, error: string)
    requires key == "Foto Sebelum" || key == "Foto Sesudah"
    requires FieldRef(data, key).Some? && IsWebReference(FieldRef(data, key).value)
    ensures RouteReply(data, env, iso, created, error) == Failure(500, "Gagal membuat PDF: " + WriteStreamError)
  {
    WebReferenceThrows(FieldRef(data, key).value, env);
  }

  /** A report is produced only when neither photo is a Drive or web reference. */
  lemma CreatedMeansNoRemotePhoto(data: Fields, env: Env, iso: string, created: bool, error: string)
    requires RouteReply(data, env, iso, created, error).Created?
    ensures !ClassifyPhoto(FieldRef(data, "Foto Sebelum")).Drive? && !ClassifyPhoto(FieldRef(data, "Foto Sebelum")).Web?
    ensures !ClassifyPhoto(FieldRef(data, "Foto Sesudah")).Drive? && !ClassifyPhoto(FieldRef(data, "Foto Sesudah")).Web?
  {
  }

  // ---------------------------------------------------------------------
  // Lemmas: the document

  /** With readable files, the block shows exactly the photos that exist. */
  lemma LayoutShowsEveryPhoto(before: bool, after: bool, data: Fields)
    ensures ImagesShown(PhotoLayout(before, after, true, data)) == (if before then 1 else 0) + (if after then 1 else 0)
  {
  }

  /** The no-photo text appears exactly when neither photo exists. */
  lemma NoPhotoTextIff(before: bool, after: bool, renders: bool, data: Fields)
    ensures PhotoLayout(before, after, renders, data) == Caption(NoPhotoText) <==> !before && !after
  {
    var b := PhotoLayout(before, after, renders, data);
    if (before || after) && b.Caption? {
      assert b.text[0] == 'F';
    }
  }

  /** In a compiled report, the printed photo block says "no photo" exactly
      when neither reference resolves to a file. */
  lemma CompiledPhotoBlock(data: Fields, env: Env, renders: bool)
    requires PhotosDownloaded(data, env)
    ensures var before := PhotoDownload(data, env, "Foto Sebelum").file;
      var after := PhotoDownload(data, env, "Foto Sesudah").file;
      Compile(data, env, renders).Built?
      && (Compile(data, env, renders).doc[7].body == Photos(Caption(NoPhotoText)) <==> before.None? && after.None?)
  {
    var before := PhotoDownload(data, env, "Foto Sebelum").file;
    var after := PhotoDownload(data, env, "Foto Sesudah").file;
    NoPhotoTextIff(before.Some?, after.Some?, renders, data);
  }

  /** `ReportColumns()` spelled out, and the position of each column 1..27 in it. */
  const PrintedColumns: seq<nat> := [1, 2, 3, 4, 12, 13, 21, 22, 23, 24, 16, 17, 18, 19, 20, 7, 8, 10, 11, 9, 25, 26, 27, 5, 6, 14, 15]
  const PrintedAt: seq<nat> := [0, 1, 2, 3, 23, 24, 15, 16, 19, 17, 18, 4, 5, 25, 26, 10, 11, 12, 13, 14, 6, 7, 8, 9, 20, 21, 22]

  lemma ReportColumnsSpelled()
    ensures ReportColumns() == PrintedColumns
  {
  }

  // The two tables invert each other; checked in thirds to keep each proof small.
  lemma PrintedInverseA()
    ensures forall i :: 0 <= i < 9 ==> 1 <= PrintedColumns[i] <= 27 && PrintedAt[PrintedColumns[i] - 1] == i
  {
  }

  lemma PrintedInverseB()
    ensures forall i :: 9 <= i < 18 ==> 1 <= PrintedColumns[i] <= 27 && PrintedAt[PrintedColumns[i] - 1] == i
  {
  }

  lemma PrintedInverseC()
    ensures forall i :: 18 <= i < 27 ==> 1 <= PrintedColumns[i] <= 27 && PrintedAt[PrintedColumns[i] - 1] == i
  {
  }

  lemma PrintedCoverA()
    ensures forall k :: 0 <= k < 9 ==> PrintedColumns[PrintedAt[k]] == k + 1
  {
  }

  lemma PrintedCoverB()
    ensures forall k :: 9 <= k < 18 ==> PrintedColumns[PrintedAt[k]] == k + 1
  {
  }

  lemma PrintedCoverC()
    ensures forall k :: 18 <= k < 27 ==> PrintedColumns[PrintedAt[k]] == k + 1
  {
  }

  /** Sections 1 to 7 print every stored column except the creation time
      (column 0) and the two photos (columns 28 and 29), each exactly once. */
  lemma ReportColumnsExact()
    ensures |ReportColumns()| == 27
    ensures forall i :: 0 <= i < 27 ==> 1 <= ReportColumns()[i] <= 27
    ensures forall i, j :: 0 <= i < j < 27 ==> ReportColumns()[i] != ReportColumns()[j]
    ensures forall c :: 1 <= c <= 27 ==> c in ReportColumns()
  {
    ReportColumnsSpelled();
    PrintedInverseA();
    PrintedInverseB();
    PrintedInverseC();
    PrintedCoverA();
    PrintedCoverB();
    PrintedCoverC();
    var cols := PrintedColumns;
    forall i, j | 0 <= i < j < 27
      ensures cols[i] != cols[j]
    {
      assert PrintedAt[cols[i] - 1] == i && PrintedAt[cols[j] - 1] == j;
    }
    forall c | 1 <= c <= 27
      ensures c in cols
    {
      assert cols[PrintedAt[c - 1]] == c;
    }
  }

  /** Rows depend on no field outside the columns they name. */
  lemma RowsAgree(lines: seq<Line>, d1: Fields, d2: Fields)
    requires forall i :: 0 <= i < |lines| ==> 1 <= lines[i].column <= 27
    requires forall c :: 1 <= c <= 27 ==> Get(d1, ColumnHeaders[c]) == Get(d2, ColumnHeaders[c])
    ensures LabelledRows(lines, d1) == LabelledRows(lines, d2)
    ensures NumberedRows(lines, d1) == NumberedRows(lines, d2)
  {
    forall i | 0 <= i < |lines|
      ensures ColumnValue(d1, lines[i].column) == ColumnValue(d2, lines[i].column)
    {
    }
  }

  /** The document reads only columns 1 to 27: records that agree there
      print the same sections. */
  lemma DocumentReadsOnlyReportColumns(d1: Fields, d2: Fields, photos: PhotoBlock)
    requires forall c :: 1 <= c <= 27 ==> Get(d1, ColumnHeaders[c]) == Get(d2, ColumnHeaders[c])
    ensures Document(d1, photos) == Document(d2, photos)
  {
    RowsAgree(InfoLines, d1, d2);
    RowsAgree(FaultLines, d1, d2);
    RowsAgree(ActionLines, d1, d2);
    RowsAgree(StaffLines, d1, d2);
    RowsAgree(StatusLines, d1, d2);
    RowsAgree(ExtraLines, d1, d2);
    assert ColumnValue(d1, ChronologyColumn) == ColumnValue(d2, ChronologyColumn);
  }

  /** Every value cell of every table is non-empty and free of written-out escapes. */
  lemma ValueCellsPrintable(data: Fields, photos: PhotoBlock)
    ensures var doc := Document(data, photos);
      forall s, r :: 0 <= s < |doc| && doc[s].body.Table? && 0 <= r < |doc[s].body.rows| ==>
        var row := doc[s].body.rows[r];
        |row| > 0 && row[|row| - 1] != "" && Clean(row[|row| - 1])
  {
  }

  // ---------------------------------------------------------------------
  // Lemmas: output

  /** The produced file's URL is itself a public-path photo reference. */
  lemma ReportUrlIsLocal(iso: string)
    ensures ClassifyPhoto(Some(ReportUrl(iso))) == LocalFile(ReportUrl(iso))
  {
    assert ReportUrl(iso)[..9] == "/reports/";
    LocalBeforeDrive(ReportUrl(iso));
  }

  /** The only dot of the file name is the one before the extension. */
  lemma FileNameSingleDot(iso: string)
    ensures var name := ReportFileName(iso);
      StartsWith(name, ReportPrefix) && EndsWith(name, ".pdf") &&
      forall i :: 0 <= i < |name| - 4 ==> name[i] != '.'
  {
    var name := ReportFileName(iso);
    var stamp := Dashed(iso);
    forall i | 0 <= i < |name| - 4
      ensures name[i] != '.'
    {
      if i < |ReportPrefix| {
        assert name[i] == ReportPrefix[i];
      } else {
        assert name[i] == stamp[i - |ReportPrefix|];
        assert stamp[i - |ReportPrefix|] in stamp;
      }
    }
  }
}

=== FILE: sheet_store.dfy ===
/** The spreadsheet used as the incident table (src/lib/google-sheets.ts).

    The backing sheet is a grid of text cells: grid row 0 is the header row,
    grid row k (k >= 1) holds the record whose id is k.  Every read and write
    covers the 30 columns A..AD, one per entry of `ColumnHeaders`.  The store
    is assumed to keep strings verbatim. */
module SheetStore {
  import opened Strings

  /** Number of columns in every range used: A..AD. */
  const ColumnCount: nat := 30

  /** `COLUMN_HEADERS`: the header row, in storage order. */
  const ColumnHeaders: seq<string> := [
    "Header Timestamp", "Tanggal Kejadian", "Waktu Kejadian", "Shift Kejadian", "Gardu Kejadian",
    "Waktu Mengirformasikan", "Waktu Penanganan", "PETUGAS KSPT", "PETUGAS PULTOL", "Petugas Security",
    "PETUGAS IT", "PETUGAS TEKNISI", "Lokasi Kejadian", "Kronologi Kejadian", "Antrian Kendaraan",
    "Keluhan Pengguna Jalan", "Tindakan KSPT", "Tindakan IT", "Tindakan Teknisi", "Tindakan PulTol",
    "Tindakan Security", "A.Jenis Gangguan - Palang", "B.Jenis Gangguan Reader / Periferal",
    "C. Jenis Gangguan - Sistim", "D. Jenis Gangguan - Kelistrikan", "Status Tindakan", "Jumlah Alarm",
    "Jumlah Reset", "Foto Sebelum", "Foto Sesudah"]

  /** Column of the server-stamped creation time. */
  const TimestampColumn: nat := 0

  type Row = seq<string>

  /** The sheet's cells; row 0 is the header row. */
  type Grid = seq<Row>

  /** Field name to text: a client submission, or a listed record's fields. */
  type Fields = map<string, string>

  /** A listed record: its positional id and its 30 fields. */
  datatype Incident = Incident(id: int, fields: Fields)

  datatype Error = NotFound | SheetNotFound | BackendUnavailable

  datatype Result<T> = Ok(value: T) | Err(error: Error)

  /** `data[key]`, with an absent field read as the empty string. */
  function Get(fields: Fields, key: string): string {
    if key in fields then fields[key] else ""
  }

  predicate Distinct(s: seq<string>) {
    forall i, j :: 0 <= i < j < |s| ==> s[i] != s[j]
  }

  lemma HeadersDistinct()
    ensures |ColumnHeaders| == ColumnCount
    ensures Distinct(ColumnHeaders)
  {
    assert |ColumnHeaders| == 30;
    SignaturesApartA();
    SignaturesApartB();
    SignaturesApartC();
    SignaturesApartD();
  }

  // The 435 header pairs, in four groups of rows so that each proof stays small.

  lemma SignaturesApartA()
    ensures forall i, j :: 0 <= i < 4 && i < j < 30 ==> Signature(ColumnHeaders[i]) != Signature(ColumnHeaders[j])
  {
  }

  lemma SignaturesApartB()
    ensures forall i, j :: 4 <= i < 9 && i < j < 30 ==> Signature(ColumnHeaders[i]) != Signature(ColumnHeaders[j])
  {
  }

  lemma SignaturesApartC()
    ensures forall i, j :: 9 <= i < 15 && i < j < 30 ==> Signature(ColumnHeaders[i]) != Signature(ColumnHeaders[j])
  {
  }

  lemma SignaturesApartD()
    ensures forall i, j :: 15 <= i < j < 30 ==> Signature(ColumnHeaders[i]) != Signature(ColumnHeaders[j])
  {
  }

  /** Length, first and last character: enough to tell the headers apart. */
  function Signature(h: string): (int, char, char) {
    if |h| == 0 then (0, ' ', ' ') else (|h|, h[0], h[|h| - 1])
  }

  lemma HeaderRowNotBlank()
    ensures !FirstRowBlank(ColumnHeaders)
  {
    assert Cell(ColumnHeaders, 0) == "Header Timestamp";
  }

  function HeaderSet(): set<string> {
    set h | h in ColumnHeaders
  }

  /** `row[i] || ''`: a missing or short cell reads as the empty string. */
  function Cell(row: Row, i: nat): string {
    if i < |row| then row[i] else ""
  }

  /** The record fields of one data row (the `COLUMN_HEADERS.forEach` in
      `fetchKejadianData`). */
  function RowFields(row: Row): (f: Fields)
    ensures f.Keys == HeaderSet()
    ensures forall i :: 0 <= i < ColumnCount ==> f[ColumnHeaders[i]] == Cell(row, i)
  {
    HeadersDistinct();
    ZipFields(ColumnHeaders, row)
  }

  /** Header `hs[i]` mapped to cell `i` of `row`, for distinct headers. */
  function ZipFields(hs: seq<string>, row: Row): (f: Fields)
    requires Distinct(hs)
    ensures f.Keys == set h | h in hs
    ensures forall i :: 0 <= i < |hs| ==> f[hs[i]] == Cell(row, i)
  {
    var f := map i | 0 <= i < |hs| :: hs[i] := Cell(row, i);
    assert f.Keys == set h | h in hs by {
      forall h | h in hs
        ensures h in f.Keys
      {
        var i :| 0 <= i < |hs| && hs[i] == h;
      }
    }
    f
  }

  /** Number of data rows below the header. */
  function DataCount(g: Grid): nat {
    if |g| == 0 then 0 else |g| - 1
  }

  /** `fetchKejadianData`: data row k (0-based) becomes the record with id k + 1. */
  function ListRecords(g: Grid): (r: seq<Incident>)
    ensures |r| == DataCount(g)
    ensures forall k :: 0 <= k < |r| ==> r[k].id == k + 1
    ensures forall k, i :: 0 <= k < |r| && 0 <= i < ColumnCount ==>
      ColumnHeaders[i] in r[k].fields && r[k].fields[ColumnHeaders[i]] == Cell(g[k + 1], i)
  {
    seq(DataCount(g), k requires 0 <= k < DataCount(g) => Incident(k + 1, RowFields(g[k + 1])))
  }

  /** `COLUMN_HEADERS.map(h => data[h]?.toString() || '')`: the 30 cells of a
      submission in header order, with absent fields as "". */
  function SerializeRow(data: Fields): (row: Row)
    ensures |row| == ColumnCount
  {
    seq(ColumnCount, i requires 0 <= i < ColumnCount => Get(data, ColumnHeaders[i]))
  }

  /** The field set a submission is stored as: every header, absent ones empty. */
  function Stored(data: Fields): (f: Fields)
    ensures f.Keys == HeaderSet()
  {
    map h | h in ColumnHeaders :: Get(data, h)
  }

  /** The row `addKejadianRow` appends: cell 0 replaced by the server time. */
  function AppendedRow(data: Fields, now: string): (row: Row)
    ensures |row| == ColumnCount
    ensures row[TimestampColumn] == now
    ensures forall i :: 0 < i < ColumnCount ==> row[i] == Get(data, ColumnHeaders[i])
  {
    SerializeRow(data)[TimestampColumn := now]
  }

  /** `addKejadianRow`: one row added after the last one. */
  function Append(g: Grid, data: Fields, now: string): (g': Grid)
    ensures |g'| == |g| + 1 && g'[..|g|] == g
  {
    g + [AppendedRow(data, now)]
  }

  /** `updateKejadianRow(rowIndex, data)`: overwrite sheet row `rowIndex + 2`
      (A1 numbering), which is grid row `rowIndex + 1`.  There is no guard:
      `rowIndex = -1` addresses the header row.  A row outside the sheet is
      reported as `NotFound`. */
  function Update(g: Grid, rowIndex: int, data: Fields): (r: Result<Grid>)
    ensures r.Ok? <==> 0 <= rowIndex + 1 < |g|
    ensures r.Ok? ==>
      && |r.value| == |g|
      && r.value[rowIndex + 1] == SerializeRow(data)
      && forall k :: 0 <= k < |g| && k != rowIndex + 1 ==> r.value[k] == g[k]
  {
    var target := rowIndex + 1;
    if 0 <= target < |g| then Ok(g[target := SerializeRow(data)]) else Err(NotFound)
  }

  /** The grid part of `deleteKejadianRow(rowId)`: remove grid row `rowId`
      (`startIndex = rowId`, `endIndex = rowId + 1`).  No guard keeps
      `rowId = 0` off the header row. */
  function DeleteGridRow(g: Grid, rowId: int): (r: Result<Grid>)
    ensures r.Ok? <==> 0 <= rowId < |g|
    ensures r.Ok? ==>
      && |r.value| == |g| - 1
      && (forall k :: 0 <= k < rowId ==> r.value[k] == g[k])
      && (forall k :: rowId <= k < |g| - 1 ==> r.value[k] == g[k + 1])
  {
    if 0 <= rowId < |g| then Ok(g[..rowId] + g[rowId + 1..]) else Err(NotFound)
  }

  /** `initializeSheet`: write the header row when the first row reads empty. */
  function InitializeSheet(g: Grid): (g': Grid)
    ensures |g'| == if |g| == 0 then 1 else |g|
    ensures !FirstRowBlank(g'[0])
    ensures |g| > 0 && !FirstRowBlank(g[0]) ==> g' == g
    ensures forall k :: 1 <= k < |g| ==> g'[k] == g[k]
  {
    HeaderRowNotBlank();
    if |g| == 0 then [ColumnHeaders]
    else if FirstRowBlank(g[0]) then g[0 := ColumnHeaders]
    else g
  }

  /** The range A1:AD1 yields no values: every cell of the first 30 is empty. */
  predicate FirstRowBlank(row: Row) {
    forall i :: 0 <= i < ColumnCount ==> Cell(row, i) == ""
  }

  /** `isGoogleConfigured`: an e-mail longer than 10 characters and a key
      containing "BEGIN PRIVATE KEY". */
  predicate IsGoogleConfigured(email: Option<string>, key: Option<string>) {
    email.Some? && key.Some? && email.value != "" && key.value != ""
    && |email.value| > 10 && Contains(key.value, "BEGIN PRIVATE KEY")
  }

  // -------------------------------------------------------------------
  // Sheet identity: resolution with a process-lifetime cache, and the
  // separate lookup `deleteKejadianRow` performs.

  /** Title and numeric id of one tab, as the metadata request reports them. */
  datatype SheetProps = SheetProps(title: string, sheetId: Option<int>)

  datatype SheetInfo = SheetInfo(name: string, gid: int)

  /** The two module-level variables `cachedInputSheetName`/`cachedInputSheetGid`. */
  datatype SheetCache = Uncached | Cached(info: SheetInfo)

  /** `title.toLowerCase() === 'input_kejadian' || title.toLowerCase().includes('input')` */
  predicate LooksLikeInput(title: string) {
    Lower(title) == "input_kejadian" || Contains(Lower(title), "input")
  }

  /** Position of the first tab satisfying `LooksLikeInput` (`Array.find`). */
  function FindInput(sheets: seq<SheetProps>): (r: Option<nat>)
    ensures r.Some? ==>
      && r.value < |sheets| && LooksLikeInput(sheets[r.value].title)
      && forall j :: 0 <= j < r.value ==> !LooksLikeInput(sheets[j].title)
    ensures r.None? ==> forall j :: 0 <= j < |sheets| ==> !LooksLikeInput(sheets[j].title)
  {
    if |sheets| == 0 then None
    else if LooksLikeInput(sheets[0].title) then Some(0)
    else match FindInput(sheets[1..])
      case None => None
      case Some(k) => Some(k + 1)
  }

  /** Position of the first tab titled exactly "Input_Kejadian". */
  function FindExact(sheets: seq<SheetProps>): (r: Option<nat>)
    ensures r.Some? ==>
      && r.value < |sheets| && sheets[r.value].title == "Input_Kejadian"
      && forall j :: 0 <= j < r.value ==> sheets[j].title != "Input_Kejadian"
    ensures r.None? ==> forall j :: 0 <= j < |sheets| ==> sheets[j].title != "Input_Kejadian"
  {
    if |sheets| == 0 then None
    else if sheets[0].title == "Input_Kejadian" then Some(0)
    else match FindExact(sheets[1..])
      case None => None
      case Some(k) => Some(k + 1)
  }

  const DefaultSheetName := "Input_Kejadian"

  /** The uncached part of `getInputSheetInfo`: the first tab that looks like
      the input tab, else the name "Input_Kejadian" with gid 0. */
  function ResolveInputSheet(sheets: seq<SheetProps>): SheetInfo {
    match FindInput(sheets)
    case None => SheetInfo(DefaultSheetName, 0)
    case Some(k) =>
      var s := sheets[k];
      SheetInfo(if s.title != "" then s.title else DefaultSheetName,
                match s.sheetId case Some(id) => id case None => 0)
  }

  /** `getInputSheetInfo`: answer from the cache when it holds a name, else
      fetch the tab list (`fetched`, `Err` when the request fails), resolve
      it and cache the answer, fallback included. */
  function InputSheetInfo(cache: SheetCache, fetched: Result<seq<SheetProps>>): (r: (Result<SheetInfo>, SheetCache))
    ensures cache.Cached? && cache.info.name != "" ==> r == (Ok(cache.info), cache)
    ensures r.0.Ok? ==> r.1 == Cached(r.0.value) && r.0.value.name != ""
    ensures r.0.Err? ==> r.1 == cache && fetched.Err?
  {
    if cache.Cached? && cache.info.name != "" then (Ok(cache.info), cache)
    else match fetched
      case Err(e) => (Err(e), cache)
      case Ok(sheets) =>
        var info := ResolveInputSheet(sheets);
        (Ok(info), Cached(info))
  }

  /** The tab `deleteKejadianRow` picks: the first titled exactly
      "Input_Kejadian", failing that the first that looks like the input tab. */
  function DeleteTab(sheets: seq<SheetProps>): (r: Option<nat>)
    ensures r.Some? ==> r.value < |sheets| && LooksLikeInput(sheets[r.value].title)
    ensures r.None? <==> forall k :: 0 <= k < |sheets| ==> !LooksLikeInput(sheets[k].title)
  {
    match FindExact(sheets)
    case Some(k) =>
      ExactTitleLooksLikeInput(sheets[k].title);
      Some(k)
    case None => FindInput(sheets)
  }

  /** The sheet id `deleteKejadianRow` deletes from: that of the chosen tab;
      an error when no tab is chosen or the chosen tab reports no id. */
  function DeleteSheetId(sheets: seq<SheetProps>): (r: Result<int>)
    ensures r.Ok? ==> exists k :: (0 <= k < |sheets| && sheets[k].sheetId == Some(r.value)
                                   && LooksLikeInput(sheets[k].title))
    ensures (forall k :: 0 <= k < |sheets| ==> !LooksLikeInput(sheets[k].title)) ==> r == Err(SheetNotFound)
    ensures FindExact(sheets).Some? ==> r == IdOf(sheets, FindExact(sheets).value)
    ensures FindExact(sheets).None? && FindInput(sheets).Some? ==> r == IdOf(sheets, FindInput(sheets).value)
  {
    match DeleteTab(sheets)
    case None => Err(SheetNotFound)
    case Some(k) => IdOf(sheets, k)
  }

  /** The id of the chosen tab; a tab without one is an error. */
  function IdOf(sheets: seq<SheetProps>, k: nat): (r: Result<int>)
    requires k < |sheets|
    ensures r.Ok? <==> sheets[k].sheetId.Some?
    ensures r.Ok? ==> sheets[k].sheetId == Some(r.value)
  {
    match sheets[k].sheetId
    case None => Err(SheetNotFound)
    case Some(id) => Ok(id)
  }

  /** One tab of the spreadsheet: what the metadata request reports about it,
      and its cells. */
  datatype Tab = Tab(props: SheetProps, grid: Grid)

  /** The tab list as the metadata request reports it. */
  function PropsOf(tabs: seq<Tab>): (ps: seq<SheetProps>)
    ensures |ps| == |tabs| && forall i :: 0 <= i < |tabs| ==> ps[i] == tabs[i].props
  {
    seq(|tabs|, i requires 0 <= i < |tabs| => tabs[i].props)
  }

  /** `deleteKejadianRow(rowId)`: find the tab, then remove grid row `rowId`
      of that tab.  Every other tab is left as it is. */
  function DeleteRecord(tabs: seq<Tab>, rowId: int): (r: Result<seq<Tab>>)
    ensures DeleteSheetId(PropsOf(tabs)).Err? ==> r.Err?
    ensures r.Ok? ==>
      && DeleteSheetId(PropsOf(tabs)).Ok? && DeleteTab(PropsOf(tabs)).Some?
      && var k := DeleteTab(PropsOf(tabs)).value;
      && k < |tabs| && |r.value| == |tabs|
      && DeleteGridRow(tabs[k].grid, rowId).Ok?
      && r.value[k] == Tab(tabs[k].props, DeleteGridRow(tabs[k].grid, rowId).value)
      && forall j :: 0 <= j < |tabs| && j != k ==> r.value[j] == tabs[j]
    ensures DeleteSheetId(PropsOf(tabs)).Ok? && DeleteTab(PropsOf(tabs)).Some? ==>
      var k := DeleteTab(PropsOf(tabs)).value;
      (r.Ok? <==> DeleteGridRow(tabs[k].grid, rowId).Ok?)
  {
    var props := PropsOf(tabs);
    match DeleteSheetId(props)
    case Err(e) => Err(e)
    case Ok(_) =>
      var k := DeleteTab(props).value;
      match DeleteGridRow(tabs[k].grid, rowId)
      case Err(e) => Err(e)
      case Ok(g') => Ok(tabs[k := Tab(tabs[k].props, g')])
  }

  // -------------------------------------------------------------------
  // Lemmas

  lemma ExactTitleLooksLikeInput(title: string)
    requires title == "Input_Kejadian"
    ensures LooksLikeInput(title)
  {
    assert Lower(title) == "input_kejadian";
  }

  /** Listing reads back exactly the first 30 cells of each data row, padded
      with "": mapping a listed record back to a row gives the stored row. */
  lemma ListThenSerialize(g: Grid, k: nat)
    requires k < DataCount(g)
    ensures SerializeRow(ListRecords(g)[k].fields) == seq(ColumnCount, i requires 0 <= i < ColumnCount => Cell(g[k + 1], i))
  {
  }

  /** A full-width row survives serialisation and listing unchanged. */
  lemma RowRoundTrip(row: Row)
    requires |row| == ColumnCount
    ensures SerializeRow(RowFields(row)) == row
  {
  }

  /** Serialising a submission and listing it back yields `Stored(data)`:
      every header, with absent fields as "". */
  lemma SubmissionRoundTrip(data: Fields)
    ensures RowFields(SerializeRow(data)) == Stored(data)
  {
    var f := RowFields(SerializeRow(data));
    forall h | h in HeaderSet()
      ensures f[h] == Stored(data)[h]
    {
      var i :| 0 <= i < |ColumnHeaders| && ColumnHeaders[i] == h;
    }
  }

  /** Appending: earlier records keep their ids and fields, the new record is
      last, with id one past the previous count; its timestamp is the server
      time whatever the client sent, and every other field is as submitted. */
  lemma ListAfterAppend(g: Grid, data: Fields, now: string)
    requires |g| >= 1
    ensures var before := ListRecords(g);
      var after := ListRecords(Append(g, data, now));
      |after| == |before| + 1
      && after[..|before|] == before
      && after[|before|].id == |before| + 1
      && after[|before|].fields[ColumnHeaders[TimestampColumn]] == now
      && forall i :: 0 < i < ColumnCount ==>
           after[|before|].fields[ColumnHeaders[i]] == Get(data, ColumnHeaders[i])
  {
    var before := ListRecords(g);
    var after := ListRecords(Append(g, data, now));
    forall k | 0 <= k < |before|
      ensures after[k] == before[k]
    {
      assert Append(g, data, now)[k + 1] == g[k + 1];
    }
  }

  /** `update(rowIndex, data)` followed by a listing: the record with id
      `rowIndex + 1` now holds `Stored(data)`, every other record is unchanged. */
  lemma ListAfterUpdate(g: Grid, rowIndex: int, data: Fields)
    requires 0 <= rowIndex < DataCount(g)
    ensures Update(g, rowIndex, data).Ok?
    ensures var before := ListRecords(g);
      var after := ListRecords(Update(g, rowIndex, data).value);
      |after| == |before|
      && after[rowIndex] == Incident(rowIndex + 1, Stored(data))
      && forall k :: 0 <= k < |before| && k != rowIndex ==> after[k] == before[k]
  {
    var g' := Update(g, rowIndex, data).value;
    var before := ListRecords(g);
    var after := ListRecords(g');
    RecordAt(g', rowIndex);
    SubmissionRoundTrip(data);
    forall k | 0 <= k < |before| && k != rowIndex
      ensures after[k] == before[k]
    {
      RecordAt(g', k);
      RecordAt(g, k);
      assert g'[k + 1] == g[k + 1];
    }
  }

  /** `rowIndex = -1` is not rejected: it overwrites the header row and
      leaves every listed record as it was. */
  lemma UpdateMinusOneHitsHeader(g: Grid, data: Fields)
    requires |g| >= 1
    ensures Update(g, -1, data).Ok?
    ensures Update(g, -1, data).value[0] == SerializeRow(data)
    ensures ListRecords(Update(g, -1, data).value) == ListRecords(g)
  {
  }

  /** Deleting record `rowId`: earlier records keep their ids, every later
      record moves down by one id and keeps its fields. */
  lemma ListAfterDelete(g: Grid, rowId: int)
    requires 1 <= rowId <= DataCount(g)
    ensures DeleteGridRow(g, rowId).Ok?
    ensures var before := ListRecords(g);
      var after := ListRecords(DeleteGridRow(g, rowId).value);
      |after| == |before| - 1
      && (forall k :: 0 <= k < rowId - 1 ==> after[k] == before[k])
      && (forall k :: rowId - 1 <= k < |after| ==>
            after[k] == Incident(before[k + 1].id - 1, before[k + 1].fields))
  {
    var g' := DeleteGridRow(g, rowId).value;
    var before := ListRecords(g);
    var after := ListRecords(g');
    forall k | 0 <= k < rowId - 1
      ensures after[k] == before[k]
    {
      RecordAt(g', k);
      RecordAt(g, k);
      assert g'[k + 1] == g[k + 1];
    }
    forall k | rowId - 1 <= k < |after|
      ensures after[k] == Incident(before[k + 1].id - 1, before[k + 1].fields)
    {
      RecordAt(g', k);
      RecordAt(g, k + 1);
      assert g'[k + 1] == g[k + 2];
    }
  }

  /** One record of a listing, read straight from its grid row. */
  lemma RecordAt(g: Grid, k: int)
    requires 0 <= k < DataCount(g)
    ensures ListRecords(g)[k] == Incident(k + 1, RowFields(g[k + 1]))
  {
  }

  /** `rowId = 0` is not rejected: it deletes the header row, so the first
      record's row becomes the header and every other record moves down by one. */
  lemma DeleteZeroHitsHeader(g: Grid)
    requires |g| >= 2
    ensures DeleteGridRow(g, 0).Ok?
    ensures DeleteGridRow(g, 0).value[0] == g[1]
    ensures var before := ListRecords(g);
      var after := ListRecords(DeleteGridRow(g, 0).value);
      |after| == |before| - 1
      && forall k :: 0 <= k < |after| ==> after[k] == Incident(before[k + 1].id - 1, before[k + 1].fields)
  {
    var g' := DeleteGridRow(g, 0).value;
    var before := ListRecords(g);
    var after := ListRecords(g');
    forall k | 0 <= k < |after|
      ensures after[k] == Incident(before[k + 1].id - 1, before[k + 1].fields)
    {
      assert g'[k + 1] == g[k + 2];
    }
  }

  /** Writing the header row never changes what is listed. */
  lemma InitializeKeepsRecords(g: Grid)
    requires |g| >= 1
    ensures ListRecords(InitializeSheet(g)) == ListRecords(g)
    ensures FirstRowBlank(g[0]) ==> InitializeSheet(g)[0] == ColumnHeaders
  {
  }

  /** Initialising twice is initialising once. */
  lemma InitializeIdempotent(g: Grid)
    ensures InitializeSheet(InitializeSheet(g)) == InitializeSheet(g)
  {
  }

  /** Once a call has succeeded, the cache answers every later call with the
      same sheet, whatever the tab list would now say. */
  lemma CacheNeverRecomputed(cache: SheetCache, first: Result<seq<SheetProps>>, later: Result<seq<SheetProps>>)
    requires InputSheetInfo(cache, first).0.Ok?
    ensures var (info, cache') := InputSheetInfo(cache, first);
      InputSheetInfo(cache', later) == (info, cache')
  {
  }

  /** The fallback is cached too: with no input-like tab the name is
      "Input_Kejadian" with gid 0, and it sticks. */
  lemma FallbackIsCached(sheets: seq<SheetProps>)
    requires forall k :: 0 <= k < |sheets| ==> !LooksLikeInput(sheets[k].title)
    ensures InputSheetInfo(Uncached, Ok(sheets)) == (Ok(SheetInfo("Input_Kejadian", 0)), Cached(SheetInfo("Input_Kejadian", 0)))
  {
  }

  /** The resolver and delete's own lookup can pick different tabs: with an
      earlier "Input_Lama" and a later "Input_Kejadian", records are listed
      and updated in the first while deletions hit the second. */
  lemma ResolverAndDeleteDisagree()
    ensures var sheets := [SheetProps("Input_Lama", Some(5)), SheetProps("Input_Kejadian", Some(7))];
      ResolveInputSheet(sheets) == SheetInfo("Input_Lama", 5) && DeleteSheetId(sheets) == Ok(7)
  {
    var sheets := [SheetProps("Input_Lama", Some(5)), SheetProps("Input_Kejadian", Some(7))];
    assert Lower("Input_Lama") == "input_lama";
    assert MatchesAt("input_lama", "input", 0);
    ContainsAt("input_lama", "input", 0);
    assert FindInput(sheets) == Some(0);
    assert FindExact(sheets) == Some(1);
  }

  /** Delete prefers the first tab titled exactly "Input_Kejadian", even when
      an earlier tab looks like the input tab. */
  lemma DeletePrefersExactTitle(sheets: seq<SheetProps>, k: nat)
    requires k < |sheets| && sheets[k].title == "Input_Kejadian"
    requires forall j :: 0 <= j < k ==> sheets[j].title != "Input_Kejadian"
    ensures DeleteTab(sheets) == Some(k) && DeleteSheetId(sheets) == IdOf(sheets, k)
  {
    match FindExact(sheets)
    case None =>
    case Some(e) =>
  }

  /** Without an exactly titled tab, delete takes the first input-like tab,
      which is the one the resolver takes. */
  lemma DeleteFallsBackToInput(sheets: seq<SheetProps>, k: nat)
    requires forall j :: 0 <= j < |sheets| ==> sheets[j].title != "Input_Kejadian"
    requires k < |sheets| && LooksLikeInput(sheets[k].title)
    requires forall j :: 0 <= j < k ==> !LooksLikeInput(sheets[j].title)
    ensures DeleteTab(sheets) == Some(k) && DeleteSheetId(sheets) == IdOf(sheets, k)
  {
    match FindInput(sheets)
    case None =>
    case Some(e) =>
  }

  /** Delete and the resolver pick the same tab exactly when no input-like
      tab comes before the first exactly titled one. */
  lemma DeleteAgreesWithResolver(sheets: seq<SheetProps>)
    ensures DeleteTab(sheets) == FindInput(sheets) <==>
      (FindExact(sheets).Some? ==> forall i :: 0 <= i < FindExact(sheets).value ==> !LooksLikeInput(sheets[i].title))
  {
    match FindExact(sheets)
    case None =>
    case Some(e) =>
      ExactTitleLooksLikeInput(sheets[e].title);
  }

  /** When delete and the resolver agree, the listed tab is the one that
      loses grid row `rowId`, so `ListAfterDelete` describes its listing, and
      no other tab changes. */
  lemma DeleteFromListedTab(tabs: seq<Tab>, rowId: int)
    requires FindInput(PropsOf(tabs)).Some? && DeleteTab(PropsOf(tabs)) == FindInput(PropsOf(tabs))
    requires var k := FindInput(PropsOf(tabs)).value;
      tabs[k].props.sheetId.Some? && 1 <= rowId <= DataCount(tabs[k].grid)
    ensures var k := FindInput(PropsOf(tabs)).value;
      && DeleteRecord(tabs, rowId).Ok?
      && DeleteRecord(tabs, rowId).value[k].grid == DeleteGridRow(tabs[k].grid, rowId).value
      && forall j :: 0 <= j < |tabs| && j != k ==> DeleteRecord(tabs, rowId).value[j] == tabs[j]
  {
  }

  /** With an input-like tab ahead of "Input_Kejadian", a delete removes a
      row of "Input_Kejadian" and leaves the listed tab as it was. */
  lemma DeleteSkipsListedTab(listed: Grid, other: Grid)
    requires |other| >= 2
    ensures var tabs := [Tab(SheetProps("Input_Lama", Some(5)), listed), Tab(SheetProps("Input_Kejadian", Some(7)), other)];
      && FindInput(PropsOf(tabs)) == Some(0)
      && DeleteRecord(tabs, 1).Ok?
      && DeleteRecord(tabs, 1).value[0] == tabs[0]
      && DeleteRecord(tabs, 1).value[1].grid == DeleteGridRow(other, 1).value
  {
    var tabs := [Tab(SheetProps("Input_Lama", Some(5)), listed), Tab(SheetProps("Input_Kejadian", Some(7)), other)];
    assert PropsOf(tabs) == [SheetProps("Input_Lama", Some(5)), SheetProps("Input_Kejadian", Some(7))];
    ResolverAndDeleteDisagree();
    DeletePrefersExactTitle(PropsOf(tabs), 1);
  }
}

=== FILE: sheets_route.dfy ===
/** The incident API route (src/app/api/sheets/route.ts).

    `GET` lists the records, or the dropdown options with `?type=dropdowns`;
    `POST` appends one record.  When the credentials are not configured, or
    a spreadsheet call fails, reads fall back to built-in sample data while
    writes are refused.  The spreadsheet service is a value: the input tab's
    grid, the reference ("Bantuan") tab, the tab list, the process-wide sheet
    cache, and the set of calls that fail during this request. */
module SheetsRoute {
  import opened Strings
  import opened SheetStore
  import Dropdowns
  import Recap

  // -------------------------------------------------------------------
  // The service a request talks to

  /** The spreadsheet calls the two handlers make. */
  datatype Call = ListTabs | ReadHeader | WriteHeader | ReadRows | ReadReference | AppendRow

  datatype Service = Service(
    grid: Grid,                      // the tab the resolved name designates
    reference: seq<seq<string>>,     // the "Bantuan!A:Z" tab
    tabs: seq<SheetProps>,
    cache: SheetCache,
    failing: set<Call>)

  /** The two environment variables `isGoogleConfigured` reads. */
  datatype Credentials = Credentials(email: Option<string>, key: Option<string>)

  predicate Configured(c: Credentials) {
    IsGoogleConfigured(c.email, c.key)
  }

  /** `getInputSheetInfo` against the service: a failing tab listing is an
      error, and the cache keeps whatever the call stored in it. */
  function ResolveSheet(svc: Service): (r: (Result<SheetInfo>, Service))
    ensures r.1 == svc.(cache := r.1.cache)
    ensures r.0.Ok? ==> r.1.cache == Cached(r.0.value)
    ensures r.0.Err? ==> r.1 == svc && ListTabs in svc.failing
  {
    var fetched := if ListTabs in svc.failing then Err(BackendUnavailable) else Ok(svc.tabs);
    var (info, cache) := InputSheetInfo(svc.cache, fetched);
    (info, svc.(cache := cache))
  }

  /** The header row is missing: `values` comes back absent or empty. */
  predicate HeaderMissing(g: Grid) {
    |g| == 0 || FirstRowBlank(g[0])
  }

  /** `initializeSheet`: resolve the tab, read A1:AD1, and write the header
      row when it is missing.  `false` when one of these calls throws. */
  function Initialize(svc: Service): (r: (bool, Service))
    ensures r.0 ==> r.1.grid == InitializeSheet(svc.grid)
    ensures !r.0 ==> r.1.grid == svc.grid
    ensures r.1.reference == svc.reference && r.1.tabs == svc.tabs && r.1.failing == svc.failing
  {
    var (info, s) := ResolveSheet(svc);
    if info.Err? || ReadHeader in s.failing then (false, s)
    else if HeaderMissing(s.grid) && WriteHeader in s.failing then (false, s)
    else (true, s.(grid := InitializeSheet(s.grid)))
  }

  /** `fetchKejadianData`: resolve the tab, then read A2:AD. */
  function FetchRecords(svc: Service): (r: (Result<seq<Incident>>, Service))
    ensures r.0.Ok? ==> r.0.value == ListRecords(svc.grid)
    ensures r.1.grid == svc.grid
  {
    var (info, s) := ResolveSheet(svc);
    if info.Err? || ReadRows in s.failing then (Err(BackendUnavailable), s)
    else (Ok(ListRecords(s.grid)), s)
  }

  // -------------------------------------------------------------------
  // GET

  /** What the `data` field of a reply carries. */
  datatype Payload = Records(records: seq<Incident>) | Choices(options: Dropdowns.Options)

  datatype GetReply = GetReply(success: bool, data: Payload, isDemo: bool,
                               message: Option<string>, sheetGid: Option<int>)

  const DemoMessage := "Mode demo - Google Sheets belum dikonfigurasi"
  const FallbackMessage := "Menggunakan data demo - Gagal menghubungi Google Sheets"

  /** `searchParams.get('type') === 'dropdowns'`. */
  predicate WantsDropdowns(kind: Option<string>) {
    kind == Some("dropdowns")
  }

  /** The two sample constants the route answers with in demo mode;
      `BuiltInSamples` below holds the route's own. */
  datatype Samples = Samples(records: seq<Incident>, options: Dropdowns.Options)

  /** The sample the request asks for. */
  function Sample(kind: Option<string>, demo: Samples): Payload {
    if WantsDropdowns(kind) then Choices(demo.options) else Records(demo.records)
  }

  function DemoReply(kind: Option<string>, demo: Samples, message: string): GetReply {
    GetReply(true, Sample(kind, demo), true, Some(message), None)
  }

  /** `GET`: sample data when not configured; otherwise the options, or
      the records after initialising the header row together with the
      input tab's gid; sample data again when any call throws.  The
      returned service carries what the calls changed (header row, cache). */
  function HandleGet(creds: Credentials, kind: Option<string>, demo: Samples, svc: Service): (r: (GetReply, Service))
    ensures r.0.success
    ensures !Configured(creds) ==> r == (DemoReply(kind, demo, DemoMessage), svc)
    ensures r.0.isDemo ==> r.0.data == Sample(kind, demo) && r.0.sheetGid.None?
    ensures !r.0.isDemo ==> Configured(creds) && r.0.message.None?
    ensures WantsDropdowns(kind) ==> r.1 == svc && r.0.sheetGid.None?
    ensures Configured(creds) && WantsDropdowns(kind) ==>
      (r.0.isDemo <==> ReadReference in svc.failing)
      && (!r.0.isDemo ==> r.0.data == Choices(Dropdowns.BuildOptions(svc.reference)))
    ensures Configured(creds) && !WantsDropdowns(kind) && !r.0.isDemo ==>
      && r.1.grid == InitializeSheet(svc.grid)
      && r.0.data == Records(ListRecords(r.1.grid))
      && r.0.sheetGid.Some?
    ensures r.1.grid == svc.grid || r.1.grid == InitializeSheet(svc.grid)
  {
    if !Configured(creds) then (DemoReply(kind, demo, DemoMessage), svc)
    else if WantsDropdowns(kind) then
      if ReadReference in svc.failing then (DemoReply(kind, demo, FallbackMessage), svc)
      else (GetReply(true, Choices(Dropdowns.BuildOptions(svc.reference)), false, None, None), svc)
    else
      match ReadRecords(svc)
      case (None, s) => (DemoReply(kind, demo, FallbackMessage), s)
      case (Some((records, gid)), s) => (GetReply(true, Records(records), false, None, Some(gid)), s)
  }

  /** The configured records path: `initializeSheet`, `fetchKejadianData`,
      `getInputSheetGid` in turn, stopping at the first call that throws. */
  function ReadRecords(svc: Service): (r: (Option<(seq<Incident>, int)>, Service))
    ensures r.0.Some? ==> r.1.grid == InitializeSheet(svc.grid) && r.0.value.0 == ListRecords(r.1.grid)
    ensures r.1.grid == svc.grid || r.1.grid == InitializeSheet(svc.grid)
  {
    var (ok, s1) := Initialize(svc);
    if !ok then (None, s1)
    else
      var (data, s2) := FetchRecords(s1);
      if data.Err? then (None, s2)
      else
        var (info, s3) := ResolveSheet(s2);
        if info.Err? then (None, s3)
        else (Some((data.value, info.value.gid)), s3)
  }

  /** The cache can answer without the tab list. */
  predicate CacheAnswers(cache: SheetCache) {
    cache.Cached? && cache.info.name != ""
  }

  /** Whether one of the calls the configured path makes throws, stated
      call by call rather than by running the handler. */
  predicate PathFails(kind: Option<string>, svc: Service) {
    if WantsDropdowns(kind) then ReadReference in svc.failing
    else
      || (!CacheAnswers(svc.cache) && ListTabs in svc.failing)
      || ReadHeader in svc.failing
      || (HeaderMissing(svc.grid) && WriteHeader in svc.failing)
      || ReadRows in svc.failing
  }

  /** The sheet the configured records path works on: the cached one, or
      the one the tab list resolves to. */
  function ExpectedSheet(svc: Service): SheetInfo {
    if CacheAnswers(svc.cache) then svc.cache.info else ResolveInputSheet(svc.tabs)
  }

  /** Sample data is served exactly when the credentials are missing or a
      call on the requested path throws; the message tells the two apart. */
  lemma GetDemoIff(creds: Credentials, kind: Option<string>, demo: Samples, svc: Service)
    ensures var r := HandleGet(creds, kind, demo, svc).0;
      && (r.isDemo <==> !Configured(creds) || PathFails(kind, svc))
      && (r.isDemo && Configured(creds) ==> r.message == Some(FallbackMessage))
  {
    if Configured(creds) && !WantsDropdowns(kind) {
      InitializeOutcome(svc);
    }
  }

  /** `initializeSheet` fails exactly on the calls it makes. */
  lemma InitializeOutcome(svc: Service)
    ensures var (ok, s) := Initialize(svc);
      && (ok <==> !(!CacheAnswers(svc.cache) && ListTabs in svc.failing)
                  && ReadHeader !in svc.failing
                  && !(HeaderMissing(svc.grid) && WriteHeader in svc.failing))
      && (ok ==> CacheAnswers(s.cache) && s.cache.info == ExpectedSheet(svc))
  {
  }

  /** On success the gid reported is the one of the sheet the cache holds,
      or the tab list resolves to, and that sheet is cached afterwards. */
  lemma GetReportsResolvedGid(creds: Credentials, kind: Option<string>, demo: Samples, svc: Service)
    requires Configured(creds) && !WantsDropdowns(kind)
    requires !PathFails(kind, svc)
    ensures var (r, s) := HandleGet(creds, kind, demo, svc);
      && !r.isDemo
      && r.sheetGid == Some(ExpectedSheet(svc).gid)
      && s.cache == Cached(ExpectedSheet(svc))
  {
    InitializeOutcome(svc);
  }

  /** Whatever path a read takes, the listed records are the same before
      and after: writing a missing header row touches no data row. */
  lemma GetKeepsRecords(creds: Credentials, kind: Option<string>, demo: Samples, svc: Service)
    ensures ListRecords(HandleGet(creds, kind, demo, svc).1.grid) == ListRecords(svc.grid)
  {
    if |svc.grid| >= 1 {
      InitializeKeepsRecords(svc.grid);
    }
  }

  // -------------------------------------------------------------------
  // POST

  datatype PostReply = PostReply(status: int, success: bool, isDemo: Option<bool>, error: Option<string>)

  const NotConfiguredError := "Google Sheets belum dikonfigurasi. Silakan setup kredensial terlebih dahulu."
  const AppendError := "Gagal menambahkan data ke Google Sheets"

  /** `POST`: refuse with 400 when not configured; otherwise parse the body
      (`None` when it is not JSON) and append it through `addKejadianRow`,
      answering 500 when anything throws. */
  function HandlePost(creds: Credentials, body: Option<Fields>, now: string, svc: Service): (r: (PostReply, Service))
    ensures !Configured(creds) ==> r.0 == PostReply(400, false, Some(true), Some(NotConfiguredError)) && r.1 == svc
    ensures r.0.success <==> r.0.status == 200
    ensures r.0.success ==> Configured(creds) && body.Some? && r.1.grid == Append(svc.grid, body.value, now)
    ensures !r.0.success ==> r.1.grid == svc.grid
    ensures Configured(creds) && !r.0.success ==> r.0 == PostReply(500, false, None, Some(AppendError))
  {
    if !Configured(creds) then (PostReply(400, false, Some(true), Some(NotConfiguredError)), svc)
    else match body
      case None => (PostReply(500, false, None, Some(AppendError)), svc)
      case Some(data) =>
        var (info, s) := ResolveSheet(svc);
        if info.Err? || AppendRow in s.failing then (PostReply(500, false, None, Some(AppendError)), s)
        else (PostReply(200, true, Some(false), None), s.(grid := Append(s.grid, data, now)))
  }

  /** A configured, well-formed write succeeds exactly when neither the tab
      lookup nor the append throws. */
  lemma PostSucceedsIff(creds: Credentials, data: Fields, now: string, svc: Service)
    requires Configured(creds)
    ensures HandlePost(creds, Some(data), now, svc).0.success <==>
      !(!CacheAnswers(svc.cache) && ListTabs in svc.failing) && AppendRow !in svc.failing
  {
  }

  /** A successful write shows up in the next listing as a new last record
      stamped with the server time; the earlier records are untouched. */
  lemma PostThenList(creds: Credentials, data: Fields, now: string, svc: Service)
    requires |svc.grid| >= 1
    requires HandlePost(creds, Some(data), now, svc).0.success
    ensures var before := ListRecords(svc.grid);
      var after := ListRecords(HandlePost(creds, Some(data), now, svc).1.grid);
      && |after| == |before| + 1
      && after[..|before|] == before
      && after[|before|].id == |before| + 1
      && after[|before|].fields[ColumnHeaders[TimestampColumn]] == now
  {
    ListAfterAppend(svc.grid, data, now);
  }

  /** A ten-character e-mail address is not enough: the write is refused
      with the demo flag, whatever the key. */
  lemma ShortEmailRefused(email: string, key: string, body: Option<Fields>, now: string, svc: Service)
    requires |email| <= 10
    ensures HandlePost(Credentials(Some(email), Some(key)), body, now, svc).0.status == 400
    ensures HandlePost(Credentials(Some(email), Some(key)), body, now, svc).1 == svc
  {
  }

  // -------------------------------------------------------------------
  // Sample data

  /** The `toISOString()` times stamped on the three sample records: now,
      an hour ago and two hours ago. */
  datatype Stamps = Stamps(now: string, hourAgo: string, twoHoursAgo: string)

  // Each sample row is written in three blocks of ten cells, in header order.

  function SampleRowOne(stamp: string): (row: Row) {
    [stamp, "2024-01-15", "08:30", "Pagi", "Gardu 1", "08:35", "08:45", "Ahmad", "Budi", "Candra"]
    + ["Dani", "Eko", "Gerbang Tol KM 15", "Palang pintu tol tidak dapat bergerak naik", "15",
       "Antrian terlalu lama", "Koordinasi dengan tim teknis", "Cek sistem dan restart server",
       "Perbaikan motor palang", "Pengaturan lalu lintas manual"]
    + ["Pengamanan lokasi", "Motor Rusak", "-", "-", "-", "Selesai", "2", "1", "", ""]
  }

  function SampleRowTwo(stamp: string): (row: Row) {
    [stamp, "2024-01-15", "10:15", "Pagi", "Gardu 2", "10:20", "", "Fani", "Gita", "Hadi"]
    + ["", "Iwan", "Gerbang Tol KM 25", "Reader kartu tidak dapat membaca kartu", "8",
       "Kartu tidak terbaca", "Sedang dalam proses penanganan", "", "Sedang menuju lokasi",
       "Membantu secara manual"]
    + ["Pengamanan lokasi", "-", "Reader Error", "-", "-", "Proses", "1", "0", "", ""]
  }

  function SampleRowThree(stamp: string): (row: Row) {
    [stamp, "2024-01-15", "06:00", "Malam", "Gardu 3", "06:05", "", "Joko", "Krisna", "Lukman"]
    + ["", "", "Gerbang Tol KM 35", "Sistem komputer mati total", "25", "Sistem tidak berfungsi",
       "Menunggu tim IT", "", "", "Membuka palang manual"]
    + ["Pengamanan lokasi", "-", "-", "Server Down", "-", "Pending", "3", "0", "", ""]
  }

  /** `SAMPLE_DATA`: shaped like a listing, ids counting from 1 and every
      record holding every header. */
  function SampleData(t: Stamps): (r: seq<Incident>)
    ensures |r| == 3
    ensures forall k :: 0 <= k < |r| ==> r[k].id == k + 1 && r[k].fields.Keys == HeaderSet()
  {
    [SampleRecord(1, SampleRowOne(t.now)),
     SampleRecord(2, SampleRowTwo(t.hourAgo)),
     SampleRecord(3, SampleRowThree(t.twoHoursAgo))]
  }

  /** One sample record, written out in header order. */
  function SampleRecord(id: int, row: Row): (r: Incident)
    ensures r.id == id && r.fields.Keys == HeaderSet()
  {
    Incident(id, RowFields(row))
  }

  function BuiltInSamples(t: Stamps): Samples {
    Samples(SampleData(t), SampleDropdowns())
  }

  function SampleFields(t: Stamps): seq<Fields> {
    var d := SampleData(t);
    [d[0].fields, d[1].fields, d[2].fields]
  }

  // The keys of the sample options.
  const ShiftKey := "Shift Kejadian"
  const GarduKey := "Gardu Kejadian"
  const LokasiKey := "Lokasi Kejadian"
  const StatusKey := "Status Tindakan"
  const PalangKey := "Jenis Gangguan - Palang"
  const ReaderKey := "Jenis Gangguan Reader / Periferal"
  const ListrikKey := "Jenis Gangguan - Kelistrikan"
  const SistimKey := "Jenis Gangguan - Sistim"
  /** The form's field "C. Jenis Gangguan - Sistim". */
  const SistimField := "C. " + SistimKey
  const SistimChoices := ["Server Down", "Network Error", "Database Error", "Lainnya"]

  /** `SAMPLE_DROPDOWNS`, keys in declaration order. */
  function SampleDropdowns(): Dropdowns.Options {
    Dropdowns.Options(SampleKeys, SampleTable())
  }

  const SampleKeys := [ShiftKey, GarduKey, LokasiKey, StatusKey, PalangKey, ReaderKey, SistimKey, ListrikKey]

  function SampleTable(): map<string, seq<string>> {
    map[
      ShiftKey := ["Pagi", "Siang", "Malam"],
      GarduKey := ["Gardu 1", "Gardu 2", "Gardu 3", "Gardu 4", "Gardu 5"],
      LokasiKey := ["Gerbang Tol KM 15", "Gerbang Tol KM 25", "Gerbang Tol KM 35", "Gerbang Tol KM 45"],
      StatusKey := ["Pending", "Proses", "Selesai"],
      PalangKey := ["Motor Rusak", "Sensor Error", "Palang Patah", "Lainnya"],
      ReaderKey := ["Reader Error", "Printer Rusak", "Scanner Error", "Lainnya"],
      SistimKey := SistimChoices,
      ListrikKey := ["Listrik Mati", "UPS Error", "Kabel Putus", "Lainnya"]]
  }

  // -------------------------------------------------------------------
  // The samples as test vectors

  /** The recap statistics of the sample records: one record in each status
      bucket, and none in any shift bucket, "Pagi" and "Malam" matching no
      shift test. */
  lemma SampleStats(t: Stamps)
    ensures var st := Recap.CalculateStats(SampleFields(t));
      && st.total == 3
      && st.selesai == 1 && st.proses == 1 && st.pending == 1
      && st.shiftI == 0 && st.shiftII == 0 && st.shiftIII == 0
  {
    var xs := SampleFields(t);
    SampleRecordOne(t.now);
    SampleRecordTwo(t.hourAgo);
    SampleRecordThree(t.twoHoursAgo);
    assert xs == [xs[0], xs[1], xs[2]];
    Recap.StatusBucketsDisjoint(xs[0]);
    Recap.StatusBucketsDisjoint(xs[1]);
    Recap.StatusBucketsDisjoint(xs[2]);
    CountThree(xs, Recap.IsSelesai);
    CountThree(xs, Recap.IsProses);
    CountThree(xs, Recap.IsPending);
    CountThree(xs, Recap.ShiftFilter(1));
    CountThree(xs, Recap.ShiftFilter(2));
    CountThree(xs, Recap.ShiftFilter(3));
  }

  /** The first sample: finished, morning shift. */
  lemma SampleRecordOne(stamp: string)
    ensures var f := RowFields(SampleRowOne(stamp));
      Recap.IsSelesai(f) && !Recap.ShiftI(Recap.ShiftOf(f))
      && !Recap.ShiftII(Recap.ShiftOf(f)) && !Recap.ShiftIII(Recap.ShiftOf(f))
  {
    var row := SampleRowOne(stamp);
    SampleColumnsNamed();
    assert Cell(row, 3) == "Pagi" && Cell(row, 25) == "Selesai";
    assert Lower("Selesai") == "selesai";
    PagiMalamNoShift();
  }

  /** The second sample: in progress, morning shift. */
  lemma SampleRecordTwo(stamp: string)
    ensures var f := RowFields(SampleRowTwo(stamp));
      Recap.IsProses(f) && !Recap.ShiftI(Recap.ShiftOf(f))
      && !Recap.ShiftII(Recap.ShiftOf(f)) && !Recap.ShiftIII(Recap.ShiftOf(f))
  {
    var row := SampleRowTwo(stamp);
    SampleColumnsNamed();
    assert Cell(row, 3) == "Pagi" && Cell(row, 25) == "Proses";
    assert Lower("Proses") == "proses";
    PagiMalamNoShift();
  }

  /** The third sample: pending, night shift. */
  lemma SampleRecordThree(stamp: string)
    ensures var f := RowFields(SampleRowThree(stamp));
      Recap.IsPending(f) && !Recap.ShiftI(Recap.ShiftOf(f))
      && !Recap.ShiftII(Recap.ShiftOf(f)) && !Recap.ShiftIII(Recap.ShiftOf(f))
  {
    var row := SampleRowThree(stamp);
    SampleColumnsNamed();
    assert Cell(row, 3) == "Malam" && Cell(row, 25) == "Pending";
    assert Lower("Pending") == "pending";
    PagiMalamNoShift();
  }

  /** The columns the recap reads the shift and the status from. */
  lemma SampleColumnsNamed()
    ensures ColumnHeaders[3] == "Shift Kejadian" && ColumnHeaders[25] == "Status Tindakan"
  {
  }

  lemma PagiMalamNoShift()
    ensures NoShift(Lower("Pagi")) && NoShift(Lower("Malam"))
  {
    assert Lower("Pagi") == "pagi";
    assert Lower("Malam") == "malam";
    NoShiftByChars("pagi");
    NoShiftByChars("malam");
  }

  predicate NoShift(s: string) {
    !Recap.ShiftI(s) && !Recap.ShiftII(s) && !Recap.ShiftIII(s)
  }

  /** A value with no parenthesis and none of the letters of "satu", "dua"
      and "tiga" that are absent here, and that is not a bare numeral, is in
      no shift bucket. */
  lemma NoShiftByChars(s: string)
    requires '(' !in s && 's' !in s && 'd' !in s && 't' !in s
    requires s != "i" && s != "ii" && s != "iii"
    ensures NoShift(s)
  {
    NotContainsByChar(s, "i (", '(');
    NotContainsByChar(s, "i(", '(');
    NotContainsByChar(s, "ii (", '(');
    NotContainsByChar(s, "ii(", '(');
    NotContainsByChar(s, "iii (", '(');
    NotContainsByChar(s, "iii(", '(');
    NotContainsByChar(s, "satu", 's');
    NotContainsByChar(s, "dua", 'd');
    NotContainsByChar(s, "tiga", 't');
  }

  /** A filter count over three elements, element by element. */
  lemma CountThree<T>(xs: seq<T>, p: T -> bool)
    requires |xs| == 3
    ensures Recap.CountIf(xs, p) == (if p(xs[0]) then 1 else 0) + (if p(xs[1]) then 1 else 0) + (if p(xs[2]) then 1 else 0)
  {
    var ys := xs[1..];
    var zs := ys[1..];
    assert ys[0] == xs[1] && zs[0] == xs[2] && zs[1..] == [];
    assert Recap.CountIf(zs, p) == if p(xs[2]) then 1 else 0;
    assert Recap.CountIf(ys, p) == (if p(xs[1]) then 1 else 0) + Recap.CountIf(zs, p);
  }

  /** With the sample options, the fault field for system failures misses
      its own key and its upper-case form, and is answered by the third
      step: the key with "C." and the space after it stripped. */
  lemma SampleSistimViaStrip()
    ensures var o := SampleDropdowns();
      && !Dropdowns.NonEmptyAt(o, SistimField)
      && !Dropdowns.NonEmptyAt(o, Upper(SistimField))
      && Dropdowns.StripSectionPrefix(SistimField) == SistimKey
      && Dropdowns.FindOptions(o, SistimField) == SistimChoices
  {
    var o := SampleDropdowns();
    SampleKeysInitials();
    SistimFieldStrips();
    InitialAbsent(o, SistimField);
    UpperInitial(SistimField);
    InitialAbsent(o, Upper(SistimField));
    SistimLookup();
    Dropdowns.AnsweredByStripped(o, SistimField);
  }

  lemma SistimFieldStrips()
    ensures |SistimField| > 0 && SistimField[0] == 'C'
    ensures Dropdowns.StripSectionPrefix(SistimField) == SistimKey
  {
    assert SistimField[3..] == SistimKey;
    Dropdowns.StripOneSpace(SistimField);
  }

  lemma SistimLookup()
    ensures SistimKey in SampleTable() && SampleTable()[SistimKey] == SistimChoices
  {
  }

  /** The third step answers once the first two miss and it hits. */
  lemma UpperInitial(k: string)
    requires |k| > 0
    ensures |Upper(k)| > 0 && Upper(k)[0] == UpperChar(k[0])
  {
  }

  /** No key of the sample options starts with "C" or "P". */
  lemma SampleKeysInitials()
    ensures forall j :: j in SampleTable() ==> |j| > 12 && j[0] != 'C' && j[0] != 'P'
  {
  }

  /** A key of the map is absent when no key starts with its first letter. */
  lemma InitialAbsent(o: Dropdowns.Options, k: string)
    requires |k| > 0
    requires forall j :: j in o.table ==> |j| > 0 && j[0] != k[0]
    ensures !Dropdowns.NonEmptyAt(o, k)
  {
  }

  /** With the sample options the KSPT officer field is offered nothing:
      no single-key lookup hits, the officer keyword "KSPT" occurs in no
      key, and no key equals or overlaps the field name. */
  lemma SampleKsptEmpty()
    ensures Dropdowns.FindOptions(SampleDropdowns(), "PETUGAS KSPT") == []
  {
    SampleKeysInitials();
    SampleKeysLack();
    KsptEmptyWhen(SampleDropdowns());
  }

  /** The KSPT officer field gets nothing from options whose keys start
      with no "P" and each lack "K" or "P" in both cases. */
  lemma KsptEmptyWhen(o: Dropdowns.Options)
    requires forall j :: j in o.table ==> |j| > 0 && j[0] != 'P'
    requires forall i :: 0 <= i < |o.keys| ==> LacksKsptLetter(o.keys[i])
    ensures Dropdowns.FindOptions(o, "PETUGAS KSPT") == []
  {
    var key := "PETUGAS KSPT";
    KeysMissKspt(o.keys);
    InitialAbsent(o, key);
    UpperInitial(key);
    InitialAbsent(o, Upper(key));
    assert Dropdowns.StripSectionPrefix(key) == key;
    KsptNoStrategy(o);
    Dropdowns.NoStrategyGivesEmpty(o, key);
  }

  lemma KsptNoStrategy(o: Dropdowns.Options)
    requires forall i :: 0 <= i < |o.keys| ==> MissesKspt(o.keys[i])
    requires !Dropdowns.NonEmptyAt(o, "PETUGAS KSPT") && !Dropdowns.NonEmptyAt(o, Upper("PETUGAS KSPT"))
    requires !Dropdowns.NonEmptyAt(o, Dropdowns.StripSectionPrefix("PETUGAS KSPT"))
    ensures !Dropdowns.SomeStrategyApplies(o, "PETUGAS KSPT")
  {
    var key := "PETUGAS KSPT";
    KsptHasNoFaultKeywords();
    assert Dropdowns.KeywordMatcher("KSPT", true) == Dropdowns.UpperContains("KSPT");
    assert !Dropdowns.AnyKeyMatches(o.keys, Dropdowns.SameLower(key));
    assert !Dropdowns.KeywordHits(o.keys, ["KSPT"], true);
    assert !Dropdowns.AnyKeyMatches(o.keys, Dropdowns.Partial(key));
  }

  lemma KsptHasNoFaultKeywords()
    ensures Dropdowns.GangguanKeywords("PETUGAS KSPT") == None
    ensures Dropdowns.PetugasKeywords("PETUGAS KSPT") == Some(["KSPT"])
  {
  }

  /** Every sample key is longer than the field name and lacks "K" or "P"
      in both cases. */
  lemma SampleKeysLack()
    ensures forall i :: 0 <= i < |SampleKeys| ==> LacksKsptLetter(SampleKeys[i])
  {
    SampleKeysLackA();
    SampleKeysLackB();
  }

  lemma SampleKeysLackA()
    ensures LacksKsptLetter(ShiftKey) && LacksKsptLetter(GarduKey)
    ensures LacksKsptLetter(LokasiKey) && LacksKsptLetter(StatusKey)
  {
    assert 'P' !in ShiftKey && 'p' !in ShiftKey;
    assert 'P' !in GarduKey && 'p' !in GarduKey;
    assert 'P' !in LokasiKey && 'p' !in LokasiKey;
    assert 'P' !in StatusKey && 'p' !in StatusKey;
  }

  lemma SampleKeysLackB()
    ensures LacksKsptLetter(PalangKey) && LacksKsptLetter(ReaderKey)
    ensures LacksKsptLetter(SistimKey) && LacksKsptLetter(ListrikKey)
  {
    assert 'K' !in PalangKey && 'k' !in PalangKey;
    assert 'K' !in ReaderKey && 'k' !in ReaderKey;
    assert 'K' !in SistimKey && 'k' !in SistimKey;
    assert 'P' !in ListrikKey && 'p' !in ListrikKey;
  }

  /** Longer than "PETUGAS KSPT", and without one of the letters "K", "P". */
  predicate LacksKsptLetter(k: string) {
    |k| > 12 && (('K' !in k && 'k' !in k) || ('P' !in k && 'p' !in k))
  }

  /** Keys that each lack "K" or "P" all miss the KSPT officer field. */
  lemma KeysMissKspt(keys: seq<string>)
    requires forall i :: 0 <= i < |keys| ==> LacksKsptLetter(keys[i])
    ensures forall i :: 0 <= i < |keys| ==> MissesKspt(keys[i])
  {
    forall i | 0 <= i < |keys|
      ensures MissesKspt(keys[i])
    {
      if 'K' !in keys[i] && 'k' !in keys[i] {
        MissesKsptBy(keys[i], 'K');
      } else {
        MissesKsptBy(keys[i], 'P');
      }
    }
  }

  predicate MissesKspt(k: string) {
    && !Dropdowns.Matches(Dropdowns.SameLower("PETUGAS KSPT"), k)
    && !Dropdowns.Matches(Dropdowns.UpperContains("KSPT"), k)
    && !Dropdowns.Matches(Dropdowns.Partial("PETUGAS KSPT"), k)
  }

  /** A key longer than the field name that lacks one letter of "KSPT" in
      both cases misses the field in steps 5 to 7. */
  lemma MissesKsptBy(k: string, c: char)
    requires c == 'K' || c == 'P'
    requires |k| > 12 && c !in k && LowerChar(c) !in k
    ensures MissesKspt(k)
  {
    assert Upper("KSPT") == "KSPT";
    assert Lower("PETUGAS KSPT") == "petugas kspt";
    assert c !in Upper(k) by {
      forall i | 0 <= i < |k|
        ensures Upper(k)[i] != c
      {
        assert k[i] != c && k[i] != LowerChar(c);
      }
    }
    assert LowerChar(c) !in Lower(k) by {
      forall i | 0 <= i < |k|
        ensures Lower(k)[i] != LowerChar(c)
      {
        assert k[i] != c && k[i] != LowerChar(c);
      }
    }
    NotContainsByChar(Upper(k), "KSPT", c);
    NotContainsByChar(Lower(k), "petugas kspt", LowerChar(c));
    NotContainsLonger("petugas kspt", Lower(k));
  }
}

=== FILE: strings.dfy ===
/** String helpers shared by every module: ASCII case mapping, prefix and
    substring tests with the meaning of JavaScript's `startsWith` and
    `includes`, first-occurrence search as used by `split(sep)[k]`, joining
    and decimal rendering of naturals.  Only ASCII is modelled: case mapping
    leaves every other character unchanged. */
module Strings {

  datatype Option<T> = None | Some(value: T)

  function LowerChar(c: char): char {
    if 'A' <= c <= 'Z' then (c as int + 32) as char else c
  }

  function UpperChar(c: char): char {
    if 'a' <= c <= 'z' then (c as int - 32) as char else c
  }

  /** `s.toLowerCase()` restricted to ASCII. */
  function Lower(s: string): string {
    seq(|s|, i requires 0 <= i < |s| => LowerChar(s[i]))
  }

  /** `s.toUpperCase()` restricted to ASCII. */
  function Upper(s: string): string {
    seq(|s|, i requires 0 <= i < |s| => UpperChar(s[i]))
  }

  lemma LowerSlice(s: string, i: nat, j: nat)
    requires i <= j <= |s|
    ensures Lower(s)[i..j] == Lower(s[i..j])
  {
  }

  /** `s.startsWith(p)` */
  predicate StartsWith(s: string, p: string) {
    |p| <= |s| && s[..|p|] == p
  }

  /** `s.endsWith(p)` */
  predicate EndsWith(s: string, p: string) {
    |p| <= |s| && s[|s| - |p|..] == p
  }

  /** Does `p` match `s` at position `i`, comparing from `p[j]` on? */
  predicate MatchAt(s: string, p: string, i: nat, j: nat)
    requires i + |p| <= |s| && j <= |p|
    decreases |p| - j
  {
    j == |p| || (s[i + j] == p[j] && MatchAt(s, p, i, j + 1))
  }

  predicate OccursFrom(s: string, p: string, i: nat)
    decreases |s| - i
  {
    i + |p| <= |s| && (MatchAt(s, p, i, 0) || OccursFrom(s, p, i + 1))
  }

  /** `s.includes(p)` */
  predicate Contains(s: string, p: string) {
    OccursFrom(s, p, 0)
  }

  /** Position of the first occurrence of `p` in `s` at or after `i`. */
  function IndexFrom(s: string, p: string, i: nat): (r: Option<nat>)
    ensures r.Some? ==> i <= r.value && r.value + |p| <= |s|
    decreases |s| - i
  {
    if i + |p| > |s| then None
    else if MatchAt(s, p, i, 0) then Some(i)
    else IndexFrom(s, p, i + 1)
  }

  /** Text after the first occurrence of `sep`, if there is one. */
  function After(s: string, sep: string): Option<string> {
    match IndexFrom(s, sep, 0)
    case None => None
    case Some(k) => Some(s[k + |sep|..])
  }

  /** `s.split(sep)[0]` for a non-empty `sep`: the text before the first occurrence. */
  function Before(s: string, sep: string): string {
    match IndexFrom(s, sep, 0)
    case None => s
    case Some(k) => s[..k]
  }

  /** `s.split(sep)[1]` for a non-empty `sep`: the text between the first and
      the second occurrence, or `None` (JavaScript's `undefined`) when `sep`
      does not occur. */
  function SecondPiece(s: string, sep: string): Option<string> {
    match After(s, sep)
    case None => None
    case Some(rest) => Some(Before(rest, sep))
  }

  /** `cells.join(sep)` */
  function Join(cells: seq<string>, sep: string): string {
    if |cells| == 0 then ""
    else if |cells| == 1 then cells[0]
    else cells[0] + sep + Join(cells[1..], sep)
  }

  /** `s.split(c)` for a single-character separator: the pieces between the
      separators, always at least one. */
  function Split(s: string, c: char): (r: seq<string>)
    ensures |r| >= 1
  {
    if |s| == 0 then [""]
    else
      var rest := Split(s[1..], c);
      if s[0] == c then [""] + rest else [[s[0]] + rest[0]] + rest[1..]
  }

  function DigitChar(d: nat): char
    requires d < 10
  {
    "0123456789"[d]
  }

  /** `String(n)` for a natural number: its decimal digits, no leading zero. */
  function Decimal(n: nat): (r: string)
    decreases n
  {
    if n < 10 then [DigitChar(n)] else Decimal(n / 10) + [DigitChar(n % 10)]
  }

  predicate IsDigit(c: char) { '0' <= c <= '9' }

  predicate AllDigits(s: string) {
    forall i :: 0 <= i < |s| ==> IsDigit(s[i])
  }

  /** Value of a non-empty run of decimal digits. */
  function DigitsValue(s: string): nat
    requires AllDigits(s)
    decreases |s|
  {
    if |s| == 0 then 0
    else
      var last := s[|s| - 1];
      assert IsDigit(last);
      DigitsValue(s[..|s| - 1]) * 10 + (last as int - '0' as int)
  }

  // ---------------------------------------------------------------------
  // Lemmas

  lemma MatchAtIff(s: string, p: string, i: nat, j: nat)
    requires i + |p| <= |s| && j <= |p|
    ensures MatchAt(s, p, i, j) <==> s[i + j..i + |p|] == p[j..]
    decreases |p| - j
  {
    if j < |p| {
      MatchAtIff(s, p, i, j + 1);
      assert s[i + j..i + |p|] == [s[i + j]] + s[i + j + 1..i + |p|];
      assert p[j..] == [p[j]] + p[j + 1..];
    }
  }

  /** `p` sits in `s` at position `k`. */
  ghost predicate MatchesAt(s: string, p: string, k: int) {
    0 <= k && k + |p| <= |s| && s[k..k + |p|] == p
  }

  /** The position-wise reading of `Contains`: some window of `s` equals `p`. */
  lemma {:induction false} OccursFromIff(s: string, p: string, i: nat)
    ensures OccursFrom(s, p, i) <==> exists k :: i <= k && MatchesAt(s, p, k)
    decreases |s| - i
  {
    if i + |p| <= |s| {
      MatchAtIff(s, p, i, 0);
      OccursFromIff(s, p, i + 1);
      assert MatchAt(s, p, i, 0) <==> MatchesAt(s, p, i);
      forall k | i <= k && MatchesAt(s, p, k)
        ensures MatchesAt(s, p, i) || (i + 1 <= k && MatchesAt(s, p, k))
      {
      }
    } else {
      forall k | i <= k
        ensures !MatchesAt(s, p, k)
      {
      }
    }
  }

  lemma ContainsAt(s: string, p: string, k: nat)
    requires MatchesAt(s, p, k)
    ensures Contains(s, p)
  {
    OccursFromIff(s, p, 0);
  }

  /** A pattern that holds a character absent from `s` does not occur in `s`. */
  lemma NotContainsByChar(s: string, p: string, c: char)
    requires c in p && c !in s
    ensures !Contains(s, p)
  {
    OccursFromIff(s, p, 0);
    var m :| 0 <= m < |p| && p[m] == c;
    forall k | 0 <= k && k + |p| <= |s|
      ensures !MatchesAt(s, p, k)
    {
      assert s[k..k + |p|][m] == s[k + m];
      assert s[k + m] in s;
    }
  }

  lemma NotContainsLonger(s: string, p: string)
    requires |p| > |s|
    ensures !Contains(s, p)
  {
  }

  lemma ContainsInPrefix(a: string, b: string, p: string)
    requires Contains(a, p)
    ensures Contains(a + b, p)
  {
    OccursFromIff(a, p, 0);
    var k :| 0 <= k && MatchesAt(a, p, k);
    assert (a + b)[k..k + |p|] == a[k..k + |p|];
    ContainsAt(a + b, p, k);
  }

  lemma StartsWithConcat(a: string, b: string, p: string)
    requires |p| <= |a|
    ensures StartsWith(a + b, p) <==> StartsWith(a, p)
  {
    assert (a + b)[..|p|] == a[..|p|];
  }

  lemma StartsWithContains(s: string, p: string)
    requires StartsWith(s, p)
    ensures Contains(s, p)
  {
    assert MatchesAt(s, p, 0);
    ContainsAt(s, p, 0);
  }

  /** `IndexFrom` finds the first occurrence at or after `i`. */
  lemma {:induction false} IndexFromSpec(s: string, p: string, i: nat)
    ensures IndexFrom(s, p, i).Some? <==> OccursFrom(s, p, i)
    ensures IndexFrom(s, p, i).Some? ==>
      var k := IndexFrom(s, p, i).value;
      i <= k && k + |p| <= |s| && s[k..k + |p|] == p &&
      forall m :: i <= m < k ==> !MatchAt(s, p, m, 0)
    decreases |s| - i
  {
    if i + |p| <= |s| {
      MatchAtIff(s, p, i, 0);
      if !MatchAt(s, p, i, 0) {
        IndexFromSpec(s, p, i + 1);
      }
    }
  }

  /** Skipping a stretch of `s` in which the first character of `p` does not
      appear cannot change where the first occurrence lies. */
  lemma {:induction false} IndexFromSkip(s: string, p: string, i: nat, j: nat)
    requires |p| > 0 && i <= j <= |s| && p[0] !in s[i..j]
    ensures IndexFrom(s, p, i) == IndexFrom(s, p, j)
    decreases j - i
  {
    if i < j {
      assert s[i] == s[i..j][0];
      if i + |p| <= |s| {
        assert !MatchAt(s, p, i, 0);
      }
      assert s[i + 1..j] == s[i..j][1..];
      IndexFromSkip(s, p, i + 1, j);
    }
  }

  /** When `p` does not occur in `pre`, and the last character of `pre` is not
      in `p` (so no occurrence can straddle the seam), the first occurrence in
      `pre + rest` is the first occurrence in `rest`, shifted by `|pre|`. */
  lemma {:induction false} IndexAfterPrefix(pre: string, rest: string, p: string, i: nat)
    requires |p| > 0 && 0 < |pre| && i <= |pre|
    requires pre[|pre| - 1] !in p
    requires !OccursFrom(pre, p, i)
    ensures IndexFrom(pre + rest, p, i) == Shift(IndexFrom(rest, p, 0), |pre|)
    decreases |pre| - i
  {
    var s := pre + rest;
    if i == |pre| {
      ShiftedIndex(pre, rest, p, 0);
    } else {
      if i + |p| <= |s| {
        MatchAtIff(s, p, i, 0);
        if i + |p| <= |pre| {
          assert pre[i..i + |p|] == s[i..i + |p|];
          MatchAtIff(pre, p, i, 0);
        } else {
          var m := |pre| - 1 - i;
          assert s[i..i + |p|][m] == pre[|pre| - 1];
          assert p[m] in p;
        }
        assert !MatchAt(s, p, i, 0);
      }
      IndexAfterPrefix(pre, rest, p, i + 1);
    }
  }

  function Shift(r: Option<nat>, d: nat): Option<nat> {
    match r
    case None => None
    case Some(k) => Some(k + d)
  }

  lemma {:induction false} ShiftedIndex(pre: string, rest: string, p: string, i: nat)
    ensures IndexFrom(pre + rest, p, |pre| + i) == Shift(IndexFrom(rest, p, i), |pre|)
    decreases |rest| - i
  {
    var s := pre + rest;
    if |pre| + i + |p| <= |s| {
      assert s[|pre| + i..|pre| + i + |p|] == rest[i..i + |p|];
      MatchAtIff(s, p, |pre| + i, 0);
      MatchAtIff(rest, p, i, 0);
      if !MatchAt(rest, p, i, 0) {
        ShiftedIndex(pre, rest, p, i + 1);
      }
    }
  }

  /** `Before` returns the whole string when the separator is absent. */
  lemma BeforeAbsent(s: string, sep: string)
    requires !Contains(s, sep)
    ensures Before(s, sep) == s
  {
    IndexFromSpec(s, sep, 0);
  }

  /** A separator-free prefix joins the first piece. */
  lemma {:induction false} SplitFreePrefix(a: string, b: string, c: char)
    requires c !in a
    ensures Split(a + b, c) == [a + Split(b, c)[0]] + Split(b, c)[1..]
    decreases |a|
  {
    if |a| > 0 {
      assert (a + b)[1..] == a[1..] + b;
      assert a[0] in a;
      assert a[1..] + b == (a + b)[1..];
      assert forall x :: x in a[1..] ==> x in a;
      SplitFreePrefix(a[1..], b, c);
      assert [a[0]] + (a[1..] + Split(b, c)[0]) == a + Split(b, c)[0];
    } else {
      assert a + b == b;
      var r := Split(b, c);
      assert r == [r[0]] + r[1..];
      assert a + r[0] == r[0];
    }
  }

  /** Splitting undoes joining when no piece holds the separator. */
  lemma {:induction false} SplitJoin(lines: seq<string>, c: char)
    requires |lines| >= 1
    requires forall i :: 0 <= i < |lines| ==> c !in lines[i]
    ensures Split(Join(lines, [c]), c) == lines
    decreases |lines|
  {
    if |lines| == 1 {
      SplitFreePrefix(lines[0], "", c);
      assert lines[0] + "" == lines[0];
    } else {
      var tail := Join(lines[1..], [c]);
      SplitJoin(lines[1..], c);
      assert Join(lines, [c]) == lines[0] + ([c] + tail);
      SplitFreePrefix(lines[0], [c] + tail, c);
      assert ([c] + tail)[0] == c && ([c] + tail)[1..] == tail;
      assert Split([c] + tail, c) == [""] + lines[1..];
      assert lines[0] + "" == lines[0];
      assert lines == [lines[0]] + lines[1..];
    }
  }

  /** Decimal digits parse back to the number they render. */
  lemma {:induction false} DecimalDigits(n: nat)
    ensures |Decimal(n)| > 0
    ensures AllDigits(Decimal(n))
    ensures DigitsValue(Decimal(n)) == n
    decreases n
  {
    if n >= 10 {
      DecimalDigits(n / 10);
      var d := Decimal(n / 10);
      assert Decimal(n)[..|Decimal(n)| - 1] == d;
    }
  }
}

=== FILE: upload.dfy ===
/** `POST /api/upload` (src/app/api/upload/route.ts): a photo arrives as a
    data URL and is stored under a generated name.  The base64 payload is
    compressed, written to the public uploads directory, then copied to
    Drive when the credentials look usable.  The reply names the Drive view
    URL, or the local URL when Drive is not configured or fails.

    Base64 decoding, image compression, the file write and the Drive calls
    are foreign; the model takes their outcomes from `UploadEnv`. */
module Upload {
  import opened Strings
  import opened SheetStore
  import opened Report

  // ---------------------------------------------------------------------
  // The data-URL prefix

  /** A character of the regular-expression class `\w`. */
  predicate IsWordChar(c: char) {
    'a' <= c <= 'z' || 'A' <= c <= 'Z' || '0' <= c <= '9' || c == '_'
  }

  /** Length of the longest run of word characters at the front of `s`. */
  function WordRun(s: string): (n: nat)
    ensures n <= |s|
    ensures forall i :: 0 <= i < n ==> IsWordChar(s[i])
    ensures n < |s| ==> !IsWordChar(s[n])
    decreases |s|
  {
    if |s| == 0 || !IsWordChar(s[0]) then 0 else 1 + WordRun(s[1..])
  }

  const DataUrlHead := "data:image/"
  const Base64Marker := ";base64,"

  /** `image.replace(/^data:image\/\w+;base64,/, '')`: the prefix is removed
      only at the very start, and only with a non-empty type of word
      characters. */
  function StripDataUrlPrefix(image: string): (payload: string)
    ensures payload == image || (StartsWith(image, DataUrlHead) && EndsWith(image, payload) && |payload| < |image|)
    ensures payload != image ==> exists t :: IsImageType(t) && image == DataUrlHead + t + Base64Marker + payload
  {
    if !StartsWith(image, DataUrlHead) then image
    else
      var rest := image[|DataUrlHead|..];
      var n := WordRun(rest);
      if n > 0 && StartsWith(rest[n..], Base64Marker) then
        var payload := rest[n + |Base64Marker|..];
        assert image[|image| - |payload|..] == payload;
        assert rest == rest[..n] + Base64Marker + payload;
        assert image == DataUrlHead + rest;
        assert IsImageType(rest[..n]);
        payload
      else image
  }

  /** The `\w+` of the pattern: a non-empty run of word characters. */
  ghost predicate IsImageType(t: string) {
    |t| > 0 && forall i :: 0 <= i < |t| ==> IsWordChar(t[i])
  }

  /** A run of word characters followed by a non-word character is exactly as
      long as the run. */
  lemma {:induction false} WordRunConcat(t: string, rest: string)
    requires forall i :: 0 <= i < |t| ==> IsWordChar(t[i])
    requires |rest| > 0 && !IsWordChar(rest[0])
    ensures WordRun(t + rest) == |t|
    decreases |t|
  {
    if |t| > 0 {
      assert (t + rest)[1..] == t[1..] + rest;
      WordRunConcat(t[1..], rest);
    } else {
      assert t + rest == rest;
    }
  }

  /** The prefix of a base64 image data URL is removed, leaving its payload. */
  lemma StripDataUrlRoundTrip(imageType: string, payload: string)
    requires |imageType| > 0 && forall i :: 0 <= i < |imageType| ==> IsWordChar(imageType[i])
    ensures StripDataUrlPrefix(DataUrlHead + imageType + Base64Marker + payload) == payload
  {
    var image := DataUrlHead + imageType + Base64Marker + payload;
    var rest := imageType + (Base64Marker + payload);
    assert image == DataUrlHead + rest;
    assert image[..|DataUrlHead|] == DataUrlHead;
    assert image[|DataUrlHead|..] == rest;
    WordRunConcat(imageType, Base64Marker + payload);
    assert rest[|imageType|..] == Base64Marker + payload;
    assert (Base64Marker + payload)[..|Base64Marker|] == Base64Marker;
  }

  /** A type with a character outside `\w`, such as `svg+xml`, keeps the whole
      data URL. */
  lemma SvgDataUrlKept(payload: string)
    ensures var image := DataUrlHead + "svg+xml" + Base64Marker + payload;
      StripDataUrlPrefix(image) == image
  {
    var image := DataUrlHead + "svg+xml" + Base64Marker + payload;
    var rest := "svg" + ("+xml" + Base64Marker + payload);
    assert image == DataUrlHead + rest;
    assert image[..|DataUrlHead|] == DataUrlHead;
    assert image[|DataUrlHead|..] == rest;
    WordRunConcat("svg", "+xml" + Base64Marker + payload);
    assert rest[3] == '+';
  }

  // ---------------------------------------------------------------------
  // The stored name

  /** `photo_${Date.now()}_${random}.jpg` */
  function PhotoFileName(now: nat, random: string): string {
    "photo_" + Decimal(now) + "_" + random + ".jpg"
  }

  /** The first occurrence of a one-character separator that `pre` lacks
      is right after `pre`. */
  lemma FirstSeparator(pre: string, c: char, rest: string)
    requires c !in pre
    ensures IndexFrom(pre + [c] + rest, [c], 0) == Some(|pre|)
  {
    var s := pre + [c] + rest;
    assert s[0..|pre|] == pre;
    IndexFromSkip(s, [c], 0, |pre|);
    assert s[|pre|..|pre| + 1] == [c];
    MatchAtIff(s, [c], |pre|, 0);
  }

  lemma DecimalHasNoUnderscore(n: nat)
    ensures '_' !in Decimal(n)
  {
    DecimalDigits(n);
    var digits := Decimal(n);
    forall k | 0 <= k < |digits|
      ensures digits[k] != '_'
    {
      assert IsDigit(digits[k]);
    }
  }

  lemma PhotoFileNameShape(now: nat, random: string)
    ensures StartsWith(PhotoFileName(now, random), "photo_")
    ensures EndsWith(PhotoFileName(now, random), ".jpg")
  {
    var name := PhotoFileName(now, random);
    assert name == "photo_" + (Decimal(now) + "_" + random) + ".jpg";
    assert name[..6] == "photo_";
    assert name[|name| - 4..] == ".jpg";
  }

  lemma AfterPhotoPrefix(now: nat, random: string)
    ensures After(PhotoFileName(now, random), "_") == Some(Decimal(now) + "_" + (random + ".jpg"))
  {
    var name := PhotoFileName(now, random);
    var tail := Decimal(now) + "_" + (random + ".jpg");
    assert name == "photo" + "_" + tail;
    FirstSeparator("photo", '_', tail);
    assert name[6..] == tail;
  }

  /** The time stamp can be read back from a generated name: it is the text
      between the first and second underscore (and `DecimalDigits` parses it
      back to the number). */
  lemma PhotoFileNameTime(now: nat, random: string)
    ensures SecondPiece(PhotoFileName(now, random), "_") == Some(Decimal(now))
  {
    var digits := Decimal(now);
    var tail := digits + "_" + (random + ".jpg");
    AfterPhotoPrefix(now, random);
    DecimalHasNoUnderscore(now);
    FirstSeparator(digits, '_', random + ".jpg");
    assert tail[..|digits|] == digits;
  }

  // ---------------------------------------------------------------------
  // The request

  type Byte = b: int | 0 <= b < 256
  type Bytes = seq<Byte>

  /** The outcomes of the foreign steps of one request. */
  datatype UploadEnv = UploadEnv(
    now: nat,                          // Date.now()
    random: string,                    // Math.random().toString(36).substring(7)
    decode: string -> Bytes,           // Buffer.from(payload, 'base64')
    compress: string -> Option<Bytes>, // the compression script; None when it fails
    localWriteError: Option<string>,   // the error of creating the directory or writing the file
    email: Option<string>,             // GOOGLE_SERVICE_ACCOUNT_EMAIL
    privateKey: Option<string>,        // GOOGLE_PRIVATE_KEY
    driveFileId: Option<string>)       // id of the created and shared Drive file; None when a Drive call fails

  /** What the route does to the outside world, in order. */
  datatype Effect = SaveLocal(name: string, bytes: Bytes) | SendToDrive(name: string, bytes: Bytes)

  datatype UploadReply =
    | Stored(url: string, filename: string, driveId: Option<string>, localUrl: Option<string>)
    | Rejected(status: int, error: string)

  /** The route's own test: both variables set and the key holding
      "BEGIN PRIVATE KEY".  Unlike `isGoogleConfigured` it puts no bound on
      the length of the e-mail. */
  predicate RouteConfigured(email: Option<string>, key: Option<string>) {
    email.Some? && email.value != "" && key.Some? && key.value != ""
    && Contains(key.value, "BEGIN PRIVATE KEY")
  }

  /** The bytes that are stored: the compressed image, or the decoded
      original when compression fails. */
  function StoredBytes(payload: string, env: UploadEnv): Bytes {
    match env.compress(payload)
    case Some(b) => b
    case None => env.decode(payload)
  }

  function LocalUrl(name: string): string { "/uploads/" + name }

  /** The reply to an upload and the effects that produced it. */
  function HandleUpload(image: Option<string>, env: UploadEnv): (r: (UploadReply, seq<Effect>))
    ensures image.None? || image.value == "" ==> r == (Rejected(400, "No image provided"), [])
    ensures r.1 != [] ==> r.1[0].SaveLocal?
    ensures forall i :: 0 < i < |r.1| ==> r.1[i].SendToDrive? && RouteConfigured(env.email, env.privateKey)
    ensures r.0.Stored? ==> |r.1| > 0 && r.1[0] == SaveLocal(r.0.filename, StoredBytes(StripDataUrlPrefix(image.value), env))
    ensures r.0.Stored? && r.0.driveId.None? ==> r.0.url == LocalUrl(r.0.filename)
    ensures r.0.Stored? && r.0.driveId.Some? ==>
      RouteConfigured(env.email, env.privateKey) && env.driveFileId == r.0.driveId
      && r.0.url == DriveViewPrefix + r.0.driveId.value
    ensures r.0.Rejected? ==> r.1 == [] && (r.0.status == 400 || r.0.status == 500)
    ensures image.Some? && image.value != "" ==> (r.0.Stored? <==> env.localWriteError.None?)
    ensures r.0.Stored? ==>
      && r.0.filename == PhotoFileName(env.now, env.random)
      && (r.0.driveId.Some? <==> RouteConfigured(env.email, env.privateKey) && env.driveFileId.Some?)
      && |r.1| == (if RouteConfigured(env.email, env.privateKey) then 2 else 1)
  {
    if image.None? || image.value == "" then (Rejected(400, "No image provided"), [])
    else
      var payload := StripDataUrlPrefix(image.value);
      var name := PhotoFileName(env.now, env.random);
      var bytes := StoredBytes(payload, env);
      match env.localWriteError
      case Some(e) => (Rejected(500, "Failed to upload image: " + e), [])
      case None =>
        var saved := [SaveLocal(name, bytes)];
        if RouteConfigured(env.email, env.privateKey) then
          var sent := saved + [SendToDrive(name, bytes)];
          match env.driveFileId
          case Some(id) => (Stored(DriveViewPrefix + id, name, Some(id), Some(LocalUrl(name))), sent)
          case None => (Stored(LocalUrl(name), name, None, None), sent)
        else (Stored(LocalUrl(name), name, None, None), saved)
  }

  /** A failed compression does not fail the upload: the decoded original is
      stored instead. */
  lemma CompressionFallback(image: string, env: UploadEnv)
    requires image != "" && env.localWriteError.None?
    requires env.compress(StripDataUrlPrefix(image)).None?
    ensures var r := HandleUpload(Some(image), env);
      r.0.Stored? && r.1[0].bytes == env.decode(StripDataUrlPrefix(image))
  {
  }

  /** The reply's URL classifies as the Drive file it names or as the saved
      local file.  A local file lasts only until the first report of its
      record: `ReportDeletesLocalPhoto` shows the report route deletes it. */
  lemma UploadedUrlResolves(image: Option<string>, env: UploadEnv)
    requires env.driveFileId.Some? ==>
      var id := env.driveFileId.value;
      id != "" && !Contains(id, "&") && !Contains(id, "id=")
    ensures var r := HandleUpload(image, env).0;
      r.Stored? ==>
        ClassifyPhoto(Some(r.url)) == (if r.driveId.Some? then Drive(r.driveId.value) else LocalFile(r.url))
  {
    var r := HandleUpload(image, env).0;
    if r.Stored? {
      if r.driveId.Some? {
        ViewUrlRoundTrip(r.driveId.value);
      } else {
        assert StartsWith(r.url, "/uploads/");
        LocalBeforeDrive(r.url);
      }
    }
  }

  /** With Drive configured and answering, the stored URL is a Drive link,
      and a report whose photo field holds it fails with 500: only a local
      upload can appear in a report. */
  lemma DriveUploadFailsReport(image: Option<string>, env: UploadEnv, data: Fields, renv: Env, key: string,
                               iso: string, created: bool, error: string)
    requires key == "Foto Sebelum" || key == "Foto Sesudah"
    requires HandleUpload(image, env).0.Stored? && HandleUpload(image, env).0.driveId.Some?
    requires FieldRef(data, key) == Some(HandleUpload(image, env).0.url)
    ensures RouteReply(data, renv, iso, created, error) == Failure(500, "Gagal membuat PDF: " + WriteStreamError)
  {
    var url := HandleUpload(image, env).0.url;
    assert url[..8] == "https://";
    WebPhotoFailsReport(data, renv, key, iso, created, error);
  }

  /** Whenever the sheet helpers call the credentials usable, so does the
      upload route. */
  lemma ConfiguredImpliesRouteConfigured(email: Option<string>, key: Option<string>)
    requires IsGoogleConfigured(email, key)
    ensures RouteConfigured(email, key)
  {
  }

  /** The converse fails: a short e-mail passes the route's test only, so the
      upload tries Drive while the sheet routes serve demo data. */
  lemma ShortEmailConfiguredForUploadOnly()
    ensures RouteConfigured(Some("a@b.c"), Some("BEGIN PRIVATE KEY"))
    ensures !IsGoogleConfigured(Some("a@b.c"), Some("BEGIN PRIVATE KEY"))
  {
    StartsWithContains("BEGIN PRIVATE KEY", "BEGIN PRIVATE KEY");
  }
}
